=== FILE: README.md ===
# jk_rename name transformations in Dafny

A model of the core of jk_rename, a batch renamer for Autodesk Maya. The
renamer module (`src/jk_rename/rename.py`) numbers the selection from a `#`
pattern, adds a prefix or suffix, trims one character, searches and
replaces within a scope of nodes, and names shape nodes after their
transforms. The older panel (`jk_rename.py`) numbers the selection deepest
first, trims by recorded path, and selects the paths that share a short
name.

The Maya scene is abstract (module `Scene`). It is a map from UUID to node,
where a node has a full DAG path and a kind. The scene also has the listing
order of `ls`, the selection order and a set of locked nodes. The host's
`cmds.rename` is a parameter of every operation (type `Scene.Host`). The
proofs assume only the laws they need:
- `KeepsNodes`: the nodes stay;
- `KeepsShape`: only paths change, and paths stay unique;
- `NamesOne`: the node gets the name, and no other short name changes;
- `MovesSubtree`: nothing outside the node's subtree moves.

`Scene.RenameNode` is one host that obeys all four (`Scene.RenameNodeLawful`).

Modules, in dependency order:
- `Opt`: the `Option` type.
- `Text`: Python's string operations, with their semantics. They are `count`, `in`, `find`, `replace` and `split('|')[-1]`.
- `Numbering`: decimal digits, `rjust`, the `#` pattern and its contiguity test.
- `Enums`: the three string-valued enums.
- `Names`: the name rule for one node.
- `Scene`: the scene and the host's rename.
- `Batch`: the renamer module's loop over UUIDs.
- `Rename`: the renamer module's operations.
- `Legacy`: the panel's operations.

`hash_rename` (rename.py:186) and the panel's `rename` (jk_rename.py:279)
call `cmds.rename` without a handler, so the first failed rename ends the
batch (the `StopAtFailure` policy of `Batch.Apply`). `add_affix` and
`search_and_replace` catch the failure and go on (the `SkipFailures`
policy). `rename_shapes` has its own loop over transforms and their shape
children (`Rename.RenameShapesFrom` and `Rename.RenameShapesOf`), which
also records a failed rename and goes on.

## Model

| member | source | states |
|---|---|---|
| Enums.ParseState | src/jk_rename/rename.py:14-19 | converting a text to the scope enum succeeds exactly for `hierarchy`, `selected`, `all`, and gives back the member with that value |
| Enums.ParseAffixType | src/jk_rename/rename.py:22-26 | converting a text to the affix enum succeeds exactly for `suffix` and `prefix`, round-tripping with the member's value |
| Enums.ParsePosition | src/jk_rename/rename.py:29-33 | converting a text to the trim enum succeeds exactly for `first` and `last`, round-tripping with the member's value |
| Text.ShortNameSpec | src/jk_rename/rename.py:49 | `split('|')[-1]` is the `|`-free tail of the path, preceded by `|` unless it is the whole path |
| Text.CountZero | src/jk_rename/rename.py:173 | `'#' not in name` holds exactly when `name.count('#')` is zero |
| Text.ReplaceAllIsReplaceByFind | src/jk_rename/rename.py:79 | for every input with a non-empty search text, the scanning `str.replace` equals an independent definition that cuts at the leftmost `find` occurrence and continues after it (non-overlapping, left to right) |
| Text.ReplaceAllEmpty | src/jk_rename/rename.py:78-79 | with the empty search text (which `in` always finds), `str.replace` puts the replacement before every character and once at the end, an independently built join of `rep + c` pieces, `len(s) + (len(s) + 1) * len(rep)` long |
| Numbering.NumberingPattern | src/jk_rename/rename.py:173-174 | a pattern without `#` gets one appended, a pattern with one is kept, and the result always holds a `#` |
| Numbering.Pad | src/jk_rename/rename.py:183 | `str(n).rjust(w, '0')` is all digits, denotes `n`, and is `max(w, digits of n)` long; for `w >= 1` it is exactly `w` long iff `n < 10^w` |
| Numbering.ValidHashBlockIsOneRun | src/jk_rename/rename.py:198-199 | the test `count('#') * '#' in name` passes exactly when all `#` of the name form one contiguous run |
| Numbering.HashRunUnique | src/jk_rename/rename.py:198-199 | a pattern with a `#` has only one run holding all its `#` |
| Names.HashTargetShape | src/jk_rename/rename.py:183-184 | for a one-run pattern, the numbered name keeps the text around the run and puts the padded `index + 1` in its place |
| Names.HashTargetHasNoHash | src/jk_rename/rename.py:183-184 | the numbered name has no `#` left, and its length changes by the pad's length minus the run's |
| Names.AffixedName | src/jk_rename/rename.py:50 | a prefix puts the affix before the short name and a suffix after it, with nothing lost |
| Names.TrimmedName | src/jk_rename/rename.py:145-150 | a name is trimmed iff it is longer than one character; then it loses exactly the first or the last character |
| Names.TrimUndoesAffix | src/jk_rename/rename.py:145-150 | trimming the same side undoes a one-character prefix or suffix |
| Names.ReplacedName | src/jk_rename/rename.py:78-79 | a node is renamed iff its short name contains the search text, and then to the find-based replacement for a non-empty search text, or to the name with the replacement before every character and at the end for the empty one |
| Scene.RenameNodeEffect | src/jk_rename/rename.py:52 | a successful rename of a node moves it and its subtree; only it changes short name, other nodes stay put and paths stay unique |
| Scene.RenameNodeLawful | src/jk_rename/rename.py:52 | the scene's rename keeps nodes and kinds, names only the node, and moves only its subtree |
| Batch.ApplyKeepsShape | src/jk_rename/rename.py:47-54 | a batch changes paths only: same nodes, kinds, listings and locks, and paths stay unique |
| Batch.ApplySkipsVisitAll | src/jk_rename/rename.py:47-54 | with a handler around the rename, the batch never ends early and visits every node |
| Batch.ApplyStopsAtFailure | src/jk_rename/rename.py:182-186 | without a handler, every request but the last succeeded, and the batch ended early exactly when the last failed |
| Rename.HashRenameWarnsOnBrokenRun | src/jk_rename/rename.py:173-177 | the pattern (after the appended `#`) is refused exactly when its `#` do not form one run |
| Rename.HashRenameCalls | src/jk_rename/rename.py:179-186 | requests follow the selection order; request `k` asks for the pattern numbered `k + 1`, which has no `#`; the first failure ends the batch |
| Rename.HashRenameNames | src/jk_rename/rename.py:180-186 | a selected node whose rename succeeded carries the pattern numbered by its selection position + 1; every other node keeps its short name and unselected nodes get no request |
| Rename.AddAffixCalls | src/jk_rename/rename.py:45-54 | one request per selected node, in order, to the short name with the affix on the chosen side; failures do not end the batch |
| Rename.AddAffixNames | src/jk_rename/rename.py:47-54 | a renamed node carries its old short name with the affix added; others keep their names |
| Rename.RemoveCharacterNames | src/jk_rename/rename.py:141-153 | names of at most one character get no request; a renamed node lost exactly the chosen end character; others keep their names |
| Rename.RemoveCharacterAsWrittenAbandons | src/jk_rename/rename.py:152-155 | as written, a refused first trim ends the batch before the second selected node is asked; skipping the failure asks for it |
| Rename.GetNodes | src/jk_rename/rename.py:86-115 | the scope's nodes have no repeats when the scene's listing has none, and a node is listed exactly when the scope text names a scope that takes it in |
| Rename.SelectedWithinHierarchy | src/jk_rename/rename.py:96-107 | every node of the `selected` scope is in the `hierarchy` scope |
| Rename.UnknownStateSelectsNothing | src/jk_rename/rename.py:112-113 | a text that is no scope's value gives no nodes |
| Rename.SearchAndReplaceNames | src/jk_rename/rename.py:73-83 | a node whose short name lacks the search text gets no request; a renamed node has every occurrence replaced left to right, or, for the empty search text, the replacement before every character and at the end; nodes outside the scope are untouched |
| Rename.SearchAndReplaceRequests | src/jk_rename/rename.py:75-81 | every node in scope whose short name contains the search text is asked to be renamed |
| Rename.SearchAndReplaceNoMatch | src/jk_rename/rename.py:75-79 | when no node in scope contains the search text, nothing is requested and the scene is the same |
| Rename.SearchAndReplaceReadsUuid | src/jk_rename/rename.py:76-79 | as written, a search text with a character no UUID has renames nothing, whatever the node names |
| Rename.RenameShapes | src/jk_rename/rename.py:203-225 | every request is for a shape child of a listed transform other than `|top`, `|front`, `|side`, asks for the transform's short name + `Shape`, which the shape did not have; the count is the number of successes |
| Rename.RenameShapesCovers | src/jk_rename/rename.py:209-219 | a run that does not end early finds every non-camera transform at its turn and asks for every shape child it then has that is not yet named after it |
| Rename.RenameShapesEffect | src/jk_rename/rename.py:216-222 | afterwards a node no request succeeded on keeps its short name, and a node a request succeeded on carries some requesting transform's short name + `Shape` |
| Rename.RenameShapesKeepsShape | src/jk_rename/rename.py:216-222 | the run changes paths only, and paths stay unique |
| Legacy.ValidateHashes | jk_rename.py:281-283 | the panel's test holds exactly when the `#` form one run |
| Legacy.LegacyRenameWarns | jk_rename.py:261-266 | the panel refuses the pattern, with `Invalid hash block`, exactly when its `#` (after the appended one) do not form one run |
| Legacy.DeepestFirstIsStableSort | jk_rename.py:271-275 | the sorted list holds the same entries by descending depth, ties in selection order, and is the only such arrangement, as Python's stable `sorted(reverse=True)` gives |
| Legacy.AncestorsComeLater | jk_rename.py:273-275 | in the sorted list no path comes before one of its descendants |
| Legacy.EachIndexOnce | jk_rename.py:272-277 | every selection index appears exactly once in the sorted list, so the numbers are 1 to n |
| Legacy.NoStalePaths | jk_rename.py:276-279 | recorded paths taken children first never go stale: each call reaches the node its path was recorded for, whichever renames fail |
| Legacy.LegacyRenameReaches | jk_rename.py:268-279 | each rename reaches the selected node whose path it recorded and asks for the pattern numbered by that node's selection index + 1; the first failure ends the run |
| Legacy.UnguardedAgrees | jk_rename.py:246-248 | where the renamer module's guard lets a name through, the panel's unguarded cut is the same; a one-character name is cut to the empty name, which the host refuses |
| Legacy.RenameAllKeepsGoing | jk_rename.py:245-250 | with the bare `except`, every recorded path gets its call, in order, and the loop never ends early |
| Legacy.RemoveCharReaches | jk_rename.py:243-259 | taken deepest first, every selected node gets a call of its own that reaches it and asks for its short name cut by one character |
| Legacy.RemoveCharAsWrittenLosesChild | jk_rename.py:243-259 | as written, with a parent selected before its child, the parent's rename leaves the child's recorded path leading nowhere; that call fails and the child keeps its name |
| Legacy.GroupByShortNameGroups | jk_rename.py:226-232 | the dictionary has distinct keys; each key's list is exactly the listed paths with that short name, in listing order, and every path's short name is a key |
| Legacy.LastSharedPicks | jk_rename.py:234-236 | the loop keeps `[]` when no group has two members, and otherwise ends on some group that has |
| Legacy.SelectedDuplicatedNamesSpec | jk_rename.py:222-241 | nothing is selected, with `No Duplicated Names`, exactly when no two listed paths share a short name; otherwise the selection is every listed path of one shared short name, at least two |

## Left out

- Rename.GetNodes: the nodes come in listing order. `list(set(...))` at rename.py:115 has no defined order, so the contract speaks only of membership and repeats.
- Legacy.SelectedDuplicatedNames: groups are visited in order of first appearance. The loop at jk_rename.py:234 iterates a dictionary whose order is not fixed under Python 2. The contract holds for whichever shared group is picked.
- Legacy.SelectedDuplicatedNames: `cmds.select` and `cmds.warning` are not performed. The result says what would be selected or warned.
- Batch.Apply and Scene.Host rename a node by UUID. The source passes the node's current full path to `cmds.rename`. With unique paths that path names the node (`Scene.ResolveOwnPath`). The panel's operations keep the path form (`Legacy.RenameAll`).
- Scene.RenameNode treats a name that would clash as a failure. Maya picks a fresh name instead.
- Scene.NamesOne: the law says a successful rename gives the node exactly the name asked for. Maya's `cmds.rename` instead appends a number when a sibling already has that name, and the law leaves such auto-suffixed names out. So the lemmas that assume it (`Rename.HashRenameNames`, `Rename.AddAffixNames`, `Rename.RemoveCharacterNames`, `Rename.SearchAndReplaceNames`, `Rename.RenameShapesEffect` and the `Batch` lemmas behind them) speak of renames that kept the requested name.
- Rename.RenameShapesCovers: it speaks of the shape children a transform has when its turn comes, as `listRelatives` reads them then. It does not speak of the scene at the start, because the host laws do not promise that a rename keeps a node under the same parent.
- Rename.SearchAndReplaceReadsUuid: it assumes node UUIDs are written in Maya's upper-case hexadecimal form (`Rename.UuidKeys`). The scene model does not otherwise fix that.
- `select_duplicated_names` in rename.py (lines 118-126) is not modelled. It depends on Maya listing non-unique names as partial paths with `|`.
- Console output, `cmds.warning` as a side effect, undo, and the UI: `rename_ui.py`, the Qt widgets, the collapsible headers, the main-window lookup and the stubs `addPrefix`, `addSuffix` and `searchAndReplaceState`.
- Exceptions from `ls(...)[0]` on a node that has gone are modelled as ending the batch. Their message is not.

## Findings

| source | as written | input that shows it | evidently intended | confidence | as-written member | corrected member |
|---|---|---|---|---|---|---|
| src/jk_rename/rename.py:76 | `cmds.ls(uuid, uuid=True)[0]` returns the UUID itself, so the search runs on the UUID text | any search text with a lower-case letter, say `"Cube"` → `"Sphere"` on a node `pCube1`: nothing is renamed | search each node's short name, read with `ls(uuid, long=True)[0]` as the other operations do | not executed; high | Rename.SearchAndReplaceAsWritten, Rename.SearchAndReplaceReadsUuid | Rename.SearchAndReplace, Rename.SearchAndReplaceNames, Rename.SearchAndReplaceRequests |
| src/jk_rename/rename.py:155 | the handler calls `print.warning`, which raises `AttributeError`, so the first failed rename ends the batch | selection `[a, b]`, both names longer than one character, the rename of `a` refused (a locked node): `b` is never asked | report the failure and continue, as `add_affix` does at line 54 | not executed; high | Rename.RemoveCharacterAsWritten, Rename.RemoveCharacterAsWrittenAbandons | Rename.RemoveCharacter, Rename.RemoveCharacterNames |
| jk_rename.py:243-259 | the selection's full paths are recorded first and renamed in selection order | parent `\|ab` selected before its child `\|ab\|cd`: after the parent becomes `b`, the path `\|ab\|cd` names nothing, and the child's rename fails silently | rename deepest first, as the panel's `rename` does at line 275 | not executed; medium | Legacy.RemoveCharAsWritten, Legacy.RemoveCharAsWrittenLosesChild | Legacy.RemoveChar, Legacy.RemoveCharReaches |

=== FILE: batch.dfy ===
/**
  A batch rename over a list of node UUIDs, as every operation of the
  renamer module performs it: for each node in turn, read its current full
  path, compute the new name from its short name (or leave the node
  alone), and ask the host to rename it. A failed rename is either
  skipped (`try`/`except` around the call) or ends the batch (no handler,
  so the exception propagates); a UUID the host no longer knows ends the
  batch too (`ls(uuid)[0]` raises `IndexError`).
 */
module Batch {
  import opened Opt
  import opened Text
  import opened Names
  import opened Scene

  datatype Policy = SkipFailures | StopAtFailure

  /** What text the name rule reads: the node's short name, or (as written in one place) its UUID. */
  datatype NameSource = ShortNameOfPath | UuidText

  /** One `cmds.rename` request: which node, its batch position, the name asked for, and the outcome. */
  datatype Call = Call(node: Uuid, index: nat, name: string, ok: bool)

  /** The scene after the batch, the requests made in order, and whether the batch ended early. */
  datatype Run = Run(scene: Scene, calls: seq<Call>, stopped: bool)

  function Subject(s: Scene, u: Uuid, src: NameSource): string
    requires u in s.nodes
  {
    match src
    case ShortNameOfPath => ShortOf(s, u)
    case UuidText => ShortName(u)
  }

  /**
    The name rule of a batch: from a node's batch position and name text,
    the name to ask for, or `None` to leave the node alone.
   */
  type Rule = (nat, string) -> Option<string>

  /** The rule of a `Names.Op`. */
  function RuleOf(op: Op): Rule
  {
    (index: nat, subject: string) => Proposal(op, index, subject)
  }

  /** The batch over `todo`, whose first node has position `index`. */
  function Apply(s: Scene, todo: seq<Uuid>, index: nat, rule: Rule, src: NameSource, policy: Policy, host: Host): Run
    decreases |todo|
  {
    if todo == [] then Run(s, [], false)
    else
      var u := todo[0];
      if u !in s.nodes then Run(s, [], true)
      else
        match rule(index, Subject(s, u, src))
        case None => Apply(s, todo[1..], index + 1, rule, src, policy, host)
        case Some(name) =>
          match host(s, u, name)
          case Some(s') =>
            var r := Apply(s', todo[1..], index + 1, rule, src, policy, host);
            Run(r.scene, [Call(u, index, name, true)] + r.calls, r.stopped)
          case None =>
            if policy == StopAtFailure then Run(s, [Call(u, index, name, false)], true)
            else
              var r := Apply(s, todo[1..], index + 1, rule, src, policy, host);
              Run(r.scene, [Call(u, index, name, false)] + r.calls, r.stopped)
  }

  /** The short name `v` has after the requests in `calls`, starting from `current`. */
  function NameAfter(calls: seq<Call>, v: Uuid, current: string): string
  {
    if calls == [] then current
    else NameAfter(calls[1..], v, if calls[0].node == v && calls[0].ok then calls[0].name else current)
  }

  /** Requests that never succeeded for `v` leave its name as it was. */
  lemma {:induction false} NameAfterNoSuccess(calls: seq<Call>, v: Uuid, current: string)
    requires forall k :: 0 <= k < |calls| && calls[k].node == v ==> !calls[k].ok
    ensures NameAfter(calls, v, current) == current
  {
    if calls != [] {
      assert calls[0].node == v ==> !calls[0].ok;
      NameAfterNoSuccess(calls[1..], v, current);
    }
  }

  /** The one successful request for `v` decides its name. */
  lemma {:induction false} NameAfterOneSuccess(calls: seq<Call>, v: Uuid, current: string, k: nat)
    requires k < |calls| && calls[k].node == v && calls[k].ok
    requires forall j :: 0 <= j < |calls| && j != k && calls[j].node == v ==> !calls[j].ok
    ensures NameAfter(calls, v, current) == calls[k].name
  {
    if k == 0 {
      NameAfterNoSuccess(calls[1..], v, calls[0].name);
    } else {
      assert calls[0].node == v ==> !calls[0].ok;
      NameAfterOneSuccess(calls[1..], v, current, k - 1);
    }
  }

  /**
    Request `c` belongs to the batch over `todo` from position `index`: it
    is for the node at its position, and asks for the name the rule gives
    that node's name text in the scene before the batch.
   */
  predicate Fits(s: Scene, todo: seq<Uuid>, index: nat, rule: Rule, src: NameSource, c: Call)
  {
    && index <= c.index < index + |todo|
    && todo[c.index - index] == c.node
    && c.node in s.nodes
    && rule(c.index, Subject(s, c.node, src)) == Some(c.name)
  }

  predicate AllFit(s: Scene, todo: seq<Uuid>, index: nat, rule: Rule, src: NameSource, calls: seq<Call>)
  {
    forall k {:trigger Fits(s, todo, index, rule, src, calls[k])} :: 0 <= k < |calls| ==> Fits(s, todo, index, rule, src, calls[k])
  }

  /** Requests are made in strictly increasing batch position. */
  predicate Increasing(calls: seq<Call>)
  {
    forall i, j :: 0 <= i < j < |calls| ==> calls[i].index < calls[j].index
  }

  /** A batch changes paths only: the listings, the lock set and the kinds stay, and so does path uniqueness. */
  lemma {:induction false} ApplyKeepsShape(s: Scene, todo: seq<Uuid>, index: nat, rule: Rule, src: NameSource, policy: Policy, host: Host)
    requires KeepsShape(host)
    ensures var r := Apply(s, todo, index, rule, src, policy, host);
      && SameShape(s, r.scene)
      && (UniquePaths(s.nodes) ==> UniquePaths(r.scene.nodes))
    decreases |todo|
  {
    if todo != [] && todo[0] in s.nodes {
      var u := todo[0];
      match rule(index, Subject(s, u, src))
      case None =>
        ApplyKeepsShape(s, todo[1..], index + 1, rule, src, policy, host);
      case Some(name) =>
        match Answer(host, s, u, name)
        case Some(s') =>
          ApplyKeepsShape(s', todo[1..], index + 1, rule, src, policy, host);
        case None =>
          ApplyKeepsShape(s, todo[1..], index + 1, rule, src, policy, host);
    }
  }

  /** `t` has the nodes of `s`, and every node but `u` reads the same name text in both. */
  predicate SubjectsKept(s: Scene, t: Scene, u: Uuid, src: NameSource)
  {
    && t.nodes.Keys == s.nodes.Keys
    && forall v {:trigger Subject(t, v, src)} :: v in s.nodes && v != u ==> Subject(t, v, src) == Subject(s, v, src)
  }

  lemma {:induction false} RenamedKeepsSubjects(s: Scene, u: Uuid, name: string, s': Scene, src: NameSource)
    requires NamesOnly(s, u, name, s')
    ensures SubjectsKept(s, s', u, src)
  {
  }

  /** Requests that fit the rest of the batch in `t` fit the whole batch in `s`, after its first position. */
  lemma {:induction false} FitsShift(t: Scene, s: Scene, todo: seq<Uuid>, index: nat, rule: Rule, src: NameSource, calls: seq<Call>)
    requires todo != [] && NoDups(todo)
    requires AllFit(t, todo[1..], index + 1, rule, src, calls)
    requires SubjectsKept(s, t, todo[0], src)
    ensures AllFit(s, todo, index, rule, src, calls)
    ensures forall k :: 0 <= k < |calls| ==> calls[k].index > index
  {
    forall k | 0 <= k < |calls|
      ensures Fits(s, todo, index, rule, src, calls[k]) && calls[k].index > index
    {
      var c := calls[k];
      assert Fits(t, todo[1..], index + 1, rule, src, c);
      assert todo[c.index - index] == todo[1..][c.index - (index + 1)];
      assert c.node != todo[0];
    }
  }

  /** The same, when the scene did not change. */
  lemma {:induction false} FitsShiftSame(s: Scene, todo: seq<Uuid>, index: nat, rule: Rule, src: NameSource, calls: seq<Call>)
    requires todo != []
    requires AllFit(s, todo[1..], index + 1, rule, src, calls)
    ensures AllFit(s, todo, index, rule, src, calls)
    ensures forall k :: 0 <= k < |calls| ==> calls[k].index > index
  {
    forall k | 0 <= k < |calls|
      ensures Fits(s, todo, index, rule, src, calls[k]) && calls[k].index > index
    {
      var c := calls[k];
      assert Fits(s, todo[1..], index + 1, rule, src, c);
      assert todo[c.index - index] == todo[1..][c.index - (index + 1)];
    }
  }

  /** A request for the first node, ahead of requests that fit the batch, fits it too. */
  lemma {:induction false} FitsCons(s: Scene, todo: seq<Uuid>, index: nat, rule: Rule, src: NameSource, c: Call, calls: seq<Call>)
    requires Fits(s, todo, index, rule, src, c)
    requires AllFit(s, todo, index, rule, src, calls)
    ensures AllFit(s, todo, index, rule, src, [c] + calls)
  {
    var all := [c] + calls;
    forall k | 0 <= k < |all|
      ensures Fits(s, todo, index, rule, src, all[k])
    {
      if k > 0 {
        assert all[k] == calls[k - 1];
      }
    }
  }

  /** A request at an earlier position than all later ones keeps positions increasing. */
  lemma {:induction false} IncreasingCons(c: Call, calls: seq<Call>)
    requires Increasing(calls) && forall k :: 0 <= k < |calls| ==> calls[k].index > c.index
    ensures Increasing([c] + calls)
  {
    var all := [c] + calls;
    forall i, j | 0 <= i < j < |all|
      ensures all[i].index < all[j].index
    {
      assert all[j] == calls[j - 1];
      if i > 0 {
        assert all[i] == calls[i - 1];
      }
    }
  }

  /**
    Requests that fit the rest of a batch in the scene `t` after its first
    step, behind at most one request for its first node, fit the whole
    batch in `s`, in increasing positions.
   */
  lemma {:induction false} ExtendFit(s: Scene, t: Scene, todo: seq<Uuid>, index: nat, rule: Rule, src: NameSource, first: seq<Call>, calls: seq<Call>)
    requires todo != [] && NoDups(todo) && todo[0] in s.nodes
    requires AllFit(t, todo[1..], index + 1, rule, src, calls) && Increasing(calls)
    requires SubjectsKept(s, t, todo[0], src)
    requires first == [] || (|first| == 1 && Fits(s, todo, index, rule, src, first[0]) && first[0].index == index)
    ensures AllFit(s, todo, index, rule, src, first + calls) && Increasing(first + calls)
  {
    FitsShift(t, s, todo, index, rule, src, calls);
    if first == [] {
      assert first + calls == calls;
    } else {
      FitsCons(s, todo, index, rule, src, first[0], calls);
      IncreasingCons(first[0], calls);
      assert first + calls == [first[0]] + calls;
    }
  }

  /**
    Over distinct nodes, every request of a batch is for the node at its
    position and asks for the name the rule gives that node's name text
    before the batch began; positions increase.
   */
  lemma {:induction false} ApplyCallsFit(s: Scene, todo: seq<Uuid>, index: nat, rule: Rule, src: NameSource, policy: Policy, host: Host)
    requires NamesOne(host)
    requires NoDups(todo)
    ensures var r := Apply(s, todo, index, rule, src, policy, host);
      AllFit(s, todo, index, rule, src, r.calls) && Increasing(r.calls)
    decreases |todo|, 1
  {
    if todo != [] && todo[0] in s.nodes {
      match rule(index, Subject(s, todo[0], src))
      case None =>
        CallsFitSkipped(s, todo, index, rule, src, policy, host);
      case Some(name) =>
        match Answer(host, s, todo[0], name)
        case Some(s') =>
          CallsFitRenamed(s, todo, index, rule, src, policy, host, name, s');
        case None =>
          CallsFitFailed(s, todo, index, rule, src, policy, host, name);
    }
  }

  /** `ApplyCallsFit` when the rule leaves the first node alone. */
  lemma {:induction false} CallsFitSkipped(s: Scene, todo: seq<Uuid>, index: nat, rule: Rule, src: NameSource, policy: Policy, host: Host)
    requires NamesOne(host) && NoDups(todo) && todo != [] && todo[0] in s.nodes
    requires rule(index, Subject(s, todo[0], src)).None?
    ensures var r := Apply(s, todo, index, rule, src, policy, host);
      AllFit(s, todo, index, rule, src, r.calls) && Increasing(r.calls)
    decreases |todo|, 0
  {
    var rest := todo[1..];
    assert NoDups(rest);
    var calls := Apply(s, rest, index + 1, rule, src, policy, host).calls;
    assert Apply(s, todo, index, rule, src, policy, host).calls == [] + calls;
    ApplyCallsFit(s, rest, index + 1, rule, src, policy, host);
    ExtendFit(s, s, todo, index, rule, src, [], calls);
  }

  /** `ApplyCallsFit` when the host renames the first node. */
  lemma {:induction false} CallsFitRenamed(s: Scene, todo: seq<Uuid>, index: nat, rule: Rule, src: NameSource, policy: Policy, host: Host, name: string, s': Scene)
    requires NamesOne(host) && NoDups(todo) && todo != [] && todo[0] in s.nodes
    requires rule(index, Subject(s, todo[0], src)) == Some(name) && Answer(host, s, todo[0], name) == Some(s')
    ensures var r := Apply(s, todo, index, rule, src, policy, host);
      AllFit(s, todo, index, rule, src, r.calls) && Increasing(r.calls)
    decreases |todo|, 0
  {
    var u := todo[0];
    var rest := todo[1..];
    assert NoDups(rest);
    var calls := Apply(s', rest, index + 1, rule, src, policy, host).calls;
    assert Apply(s, todo, index, rule, src, policy, host).calls == [Call(u, index, name, true)] + calls;
    RenamedKeepsSubjects(s, u, name, s', src);
    ApplyCallsFit(s', rest, index + 1, rule, src, policy, host);
    ExtendFit(s, s', todo, index, rule, src, [Call(u, index, name, true)], calls);
  }

  /** `ApplyCallsFit` when the host refuses to rename the first node. */
  lemma {:induction false} CallsFitFailed(s: Scene, todo: seq<Uuid>, index: nat, rule: Rule, src: NameSource, policy: Policy, host: Host, name: string)
    requires NamesOne(host) && NoDups(todo) && todo != [] && todo[0] in s.nodes
    requires rule(index, Subject(s, todo[0], src)) == Some(name) && host(s, todo[0], name).None?
    ensures var r := Apply(s, todo, index, rule, src, policy, host);
      AllFit(s, todo, index, rule, src, r.calls) && Increasing(r.calls)
    decreases |todo|, 0
  {
    var u := todo[0];
    var rest := todo[1..];
    assert NoDups(rest);
    if policy == SkipFailures {
      var calls := Apply(s, rest, index + 1, rule, src, policy, host).calls;
      assert Apply(s, todo, index, rule, src, policy, host).calls == [Call(u, index, name, false)] + calls;
      ApplyCallsFit(s, rest, index + 1, rule, src, policy, host);
      ExtendFit(s, s, todo, index, rule, src, [Call(u, index, name, false)], calls);
    } else {
      assert Apply(s, todo, index, rule, src, policy, host).calls == [Call(u, index, name, false)] + [];
      ExtendFit(s, s, todo, index, rule, src, [Call(u, index, name, false)], []);
    }
  }

  /** Each node of `s` has in `after` the short name `calls` leave it with. */
  predicate NamesFollow(s: Scene, after: Scene, calls: seq<Call>)
  {
    && after.nodes.Keys == s.nodes.Keys
    && forall v {:trigger ShortOf(after, v)} :: v in s.nodes ==> ShortOf(after, v) == NameAfter(calls, v, ShortOf(s, v))
  }

  /** A failed request changes no name. */
  lemma {:induction false} NamesFollowFailed(s: Scene, after: Scene, c: Call, calls: seq<Call>)
    requires !c.ok && NamesFollow(s, after, calls)
    ensures NamesFollow(s, after, [c] + calls)
  {
    assert ([c] + calls)[1..] == calls;
  }

  /** A successful request renames its node and no other. */
  lemma {:induction false} NamesFollowRenamed(s: Scene, s': Scene, after: Scene, c: Call, calls: seq<Call>)
    requires c.ok && NamesOnly(s, c.node, c.name, s') && NamesFollow(s', after, calls)
    ensures NamesFollow(s, after, [c] + calls)
  {
    assert ([c] + calls)[0] == c && ([c] + calls)[1..] == calls;
    forall v | v in s.nodes
      ensures ShortOf(after, v) == NameAfter([c] + calls, v, ShortOf(s, v))
    {
      var now := ShortOf(s', v);
      assert now == if v == c.node then c.name else ShortOf(s, v);
      assert NameAfter([c] + calls, v, ShortOf(s, v)) == NameAfter(calls, v, now);
    }
  }

  /**
    Each node ends the batch with the name of the last request for it that
    succeeded, or the name it had when none did.
   */
  lemma {:induction false} ApplyNames(s: Scene, todo: seq<Uuid>, index: nat, rule: Rule, src: NameSource, policy: Policy, host: Host)
    requires NamesOne(host)
    ensures var r := Apply(s, todo, index, rule, src, policy, host);
      NamesFollow(s, r.scene, r.calls)
    decreases |todo|, 1
  {
    if todo != [] && todo[0] in s.nodes {
      match rule(index, Subject(s, todo[0], src))
      case None =>
        ApplyNames(s, todo[1..], index + 1, rule, src, policy, host);
      case Some(name) =>
        match Answer(host, s, todo[0], name)
        case Some(s') =>
          NamesRenamed(s, todo, index, rule, src, policy, host, name, s');
        case None =>
          NamesFailed(s, todo, index, rule, src, policy, host, name);
    }
  }

  /** `ApplyNames` when the host renames the first node. */
  lemma {:induction false} NamesRenamed(s: Scene, todo: seq<Uuid>, index: nat, rule: Rule, src: NameSource, policy: Policy, host: Host, name: string, s': Scene)
    requires NamesOne(host) && todo != [] && todo[0] in s.nodes
    requires rule(index, Subject(s, todo[0], src)) == Some(name) && Answer(host, s, todo[0], name) == Some(s')
    ensures var r := Apply(s, todo, index, rule, src, policy, host);
      NamesFollow(s, r.scene, r.calls)
    decreases |todo|, 0
  {
    var u := todo[0];
    var r' := Apply(s', todo[1..], index + 1, rule, src, policy, host);
    assert Apply(s, todo, index, rule, src, policy, host) == Run(r'.scene, [Call(u, index, name, true)] + r'.calls, r'.stopped);
    ApplyNames(s', todo[1..], index + 1, rule, src, policy, host);
    NamesFollowRenamed(s, s', r'.scene, Call(u, index, name, true), r'.calls);
  }

  /** `ApplyNames` when the host refuses to rename the first node. */
  lemma {:induction false} NamesFailed(s: Scene, todo: seq<Uuid>, index: nat, rule: Rule, src: NameSource, policy: Policy, host: Host, name: string)
    requires NamesOne(host) && todo != [] && todo[0] in s.nodes
    requires rule(index, Subject(s, todo[0], src)) == Some(name) && Answer(host, s, todo[0], name).None?
    ensures var r := Apply(s, todo, index, rule, src, policy, host);
      NamesFollow(s, r.scene, r.calls)
    decreases |todo|, 0
  {
    var u := todo[0];
    if policy == SkipFailures {
      var r' := Apply(s, todo[1..], index + 1, rule, src, policy, host);
      assert Apply(s, todo, index, rule, src, policy, host) == Run(r'.scene, [Call(u, index, name, false)] + r'.calls, r'.stopped);
      ApplyNames(s, todo[1..], index + 1, rule, src, policy, host);
      NamesFollowFailed(s, r'.scene, Call(u, index, name, false), r'.calls);
    } else {
      assert Apply(s, todo, index, rule, src, policy, host) == Run(s, [Call(u, index, name, false)], true);
      NamesFollowFailed(s, s, Call(u, index, name, false), []);
      assert [Call(u, index, name, false)] + [] == [Call(u, index, name, false)];
    }
  }

  /**
    What a batch over `todo` from position `index` did, read off its run:
    its requests fit the batch, come in increasing position, and decided
    the names the nodes end with.
   */
  predicate Outcome(s: Scene, todo: seq<Uuid>, index: nat, rule: Rule, src: NameSource, r: Run)
  {
    AllFit(s, todo, index, rule, src, r.calls) && Increasing(r.calls) && NamesFollow(s, r.scene, r.calls)
  }

  lemma {:induction false} ApplyOutcome(s: Scene, todo: seq<Uuid>, index: nat, rule: Rule, src: NameSource, policy: Policy, host: Host)
    requires NamesOne(host) && NoDups(todo)
    ensures Outcome(s, todo, index, rule, src, Apply(s, todo, index, rule, src, policy, host))
  {
    ApplyCallsFit(s, todo, index, rule, src, policy, host);
    ApplyNames(s, todo, index, rule, src, policy, host);
  }

  /** A node the batch does not visit keeps its short name. */
  lemma {:induction false} Untouched(s: Scene, todo: seq<Uuid>, index: nat, rule: Rule, src: NameSource, r: Run, v: Uuid)
    requires Outcome(s, todo, index, rule, src, r) && v in s.nodes && v !in todo
    ensures v in r.scene.nodes && ShortOf(r.scene, v) == ShortOf(s, v)
  {
    forall k | 0 <= k < |r.calls|
      ensures r.calls[k].node != v
    {
      assert Fits(s, todo, index, rule, src, r.calls[k]);
    }
    NameAfterNoSuccess(r.calls, v, ShortOf(s, v));
  }

  /** Some request for `v` succeeded. */
  predicate Succeeded(calls: seq<Call>, v: Uuid)
  {
    exists k :: 0 <= k < |calls| && calls[k].node == v && calls[k].ok
  }

  /** Over distinct nodes, a batch makes at most one request per node. */
  lemma {:induction false} SingleRequest(s: Scene, todo: seq<Uuid>, index: nat, rule: Rule, src: NameSource, calls: seq<Call>, k: nat)
    requires AllFit(s, todo, index, rule, src, calls) && Increasing(calls) && NoDups(todo)
    requires k < |calls|
    ensures forall j :: 0 <= j < |calls| && j != k ==> calls[j].node != calls[k].node
  {
    forall j | 0 <= j < |calls| && j != k
      ensures calls[j].node != calls[k].node
    {
      assert Fits(s, todo, index, rule, src, calls[j]);
      assert Fits(s, todo, index, rule, src, calls[k]);
      assert calls[j].index != calls[k].index;
    }
  }

  /** The request that fits the batch is at the position of its node. */
  lemma {:induction false} PositionOf(s: Scene, todo: seq<Uuid>, index: nat, rule: Rule, src: NameSource, c: Call)
    requires Fits(s, todo, index, rule, src, c) && NoDups(todo)
    ensures index + IndexOf(todo, c.node) == c.index
  {
    IndexOfAt(todo, c.index - index);
  }

  /**
    A node of a batch over distinct nodes ends with the name the rule gives
    its original name text, at its position, when its request succeeded,
    and keeps its name otherwise.
   */
  lemma {:induction false} Visited(s: Scene, todo: seq<Uuid>, index: nat, rule: Rule, src: NameSource, r: Run, v: Uuid)
    requires Outcome(s, todo, index, rule, src, r) && NoDups(todo) && v in s.nodes
    ensures v in r.scene.nodes
    ensures Succeeded(r.calls, v) ==> Some(ShortOf(r.scene, v)) == rule(index + IndexOf(todo, v), Subject(s, v, src))
    ensures !Succeeded(r.calls, v) ==> ShortOf(r.scene, v) == ShortOf(s, v)
  {
    if Succeeded(r.calls, v) {
      var k :| 0 <= k < |r.calls| && r.calls[k].node == v && r.calls[k].ok;
      SingleRequest(s, todo, index, rule, src, r.calls, k);
      NameAfterOneSuccess(r.calls, v, ShortOf(s, v), k);
      assert Fits(s, todo, index, rule, src, r.calls[k]);
      PositionOf(s, todo, index, rule, src, r.calls[k]);
    } else {
      NameAfterNoSuccess(r.calls, v, ShortOf(s, v));
    }
  }

  /** Some request was made for `v`. */
  predicate Requested(calls: seq<Call>, v: Uuid)
  {
    exists k :: 0 <= k < |calls| && calls[k].node == v
  }

  /** A node the rule leaves alone at its position is never the subject of a request. */
  lemma {:induction false} NotProposedNotRequested(s: Scene, todo: seq<Uuid>, index: nat, rule: Rule, src: NameSource, calls: seq<Call>, v: Uuid)
    requires AllFit(s, todo, index, rule, src, calls) && NoDups(todo) && v in s.nodes
    requires v in todo ==> rule(index + IndexOf(todo, v), Subject(s, v, src)).None?
    ensures !Requested(calls, v)
  {
    if Requested(calls, v) {
      var k :| 0 <= k < |calls| && calls[k].node == v;
      assert Fits(s, todo, index, rule, src, calls[k]);
      PositionOf(s, todo, index, rule, src, calls[k]);
      assert false;
    }
  }

  /**
    What a batch over distinct nodes does to one node `v`, given what the
    rule says at its position (`want`): it is requested only if it is in
    the batch and the rule names it; if the request succeeded the node has
    that name, and otherwise its old one.
   */
  lemma {:induction false} NodeGets(s: Scene, todo: seq<Uuid>, index: nat, rule: Rule, src: NameSource, r: Run, v: Uuid, want: Option<string>)
    requires Outcome(s, todo, index, rule, src, r) && NoDups(todo) && v in s.nodes
    requires v in todo ==> rule(index + IndexOf(todo, v), Subject(s, v, src)) == want
    ensures v in r.scene.nodes
    ensures Requested(r.calls, v) ==> v in todo && want.Some?
    ensures Succeeded(r.calls, v) ==> Some(ShortOf(r.scene, v)) == want
    ensures !Succeeded(r.calls, v) ==> ShortOf(r.scene, v) == ShortOf(s, v)
  {
    Visited(s, todo, index, rule, src, r, v);
    if Succeeded(r.calls, v) {
      var k :| 0 <= k < |r.calls| && r.calls[k].node == v && r.calls[k].ok;
      assert Requested(r.calls, v);
    }
    if !(v in todo && want.Some?) {
      NotProposedNotRequested(s, todo, index, rule, src, r.calls, v);
    }
  }

  /** The rule of an operation gives the operation's proposal. */
  lemma {:induction false} RuleOfIs(op: Op, i: nat, t: string)
    ensures RuleOf(op)(i, t) == Proposal(op, i, t)
  {
  }

  /** When the rule leaves every node of the batch alone, no request is made and the scene is the same. */
  lemma {:induction false} ApplyNothingProposed(s: Scene, todo: seq<Uuid>, index: nat, rule: Rule, src: NameSource, policy: Policy, host: Host)
    requires AllPresent(s, todo)
    requires forall k :: 0 <= k < |todo| ==> rule(index + k, Subject(s, todo[k], src)).None?
    ensures Apply(s, todo, index, rule, src, policy, host) == Run(s, [], false)
    decreases |todo|
  {
    if todo != [] {
      assert rule(index + 0, Subject(s, todo[0], src)).None?;
      forall k | 0 <= k < |todo[1..]|
        ensures rule(index + 1 + k, Subject(s, todo[1..][k], src)).None?
      {
        assert todo[1..][k] == todo[k + 1];
      }
      ApplyNothingProposed(s, todo[1..], index + 1, rule, src, policy, host);
    }
  }

  /** A request for `v` stays one when another request is made before it. */
  lemma {:induction false} RequestedCons(c: Call, calls: seq<Call>, v: Uuid)
    requires Requested(calls, v)
    ensures Requested([c] + calls, v)
  {
    var k :| 0 <= k < |calls| && calls[k].node == v;
    assert ([c] + calls)[k + 1] == calls[k];
  }

  /** The scene after the first step of a batch that skips failures, for a node `u` that exists. */
  function NextScene(s: Scene, u: Uuid, index: nat, rule: Rule, src: NameSource, host: Host): Scene
    requires u in s.nodes
  {
    match rule(index, Subject(s, u, src))
    case None => s
    case Some(name) =>
      match host(s, u, name)
      case Some(s') => s'
      case None => s
  }

  /** The first step keeps the nodes, and every other node's name text. */
  lemma {:induction false} NextSceneKeeps(s: Scene, u: Uuid, index: nat, rule: Rule, src: NameSource, host: Host)
    requires KeepsNodes(host) && NamesOne(host) && u in s.nodes
    ensures SubjectsKept(s, NextScene(s, u, index, rule, src, host), u, src)
  {
    var t := NextScene(s, u, index, rule, src, host);
    match rule(index, Subject(s, u, src))
    case None =>
      assert t == s;
    case Some(name) =>
      match Answer(host, s, u, name)
      case Some(s') =>
        assert t == s' && NamesOnly(s, u, name, s');
        RenamedKeepsSubjects(s, u, name, s', src);
      case None =>
        assert t == s;
  }

  /** A request the rest of a batch that skips failures makes, the batch makes. */
  lemma {:induction false} RequestedLater(s: Scene, todo: seq<Uuid>, index: nat, rule: Rule, src: NameSource, host: Host, v: Uuid)
    requires todo != [] && todo[0] in s.nodes
    requires Requested(Apply(NextScene(s, todo[0], index, rule, src, host), todo[1..], index + 1, rule, src, SkipFailures, host).calls, v)
    ensures Requested(Apply(s, todo, index, rule, src, SkipFailures, host).calls, v)
  {
    var u := todo[0];
    var calls := Apply(NextScene(s, u, index, rule, src, host), todo[1..], index + 1, rule, src, SkipFailures, host).calls;
    match rule(index, Subject(s, u, src))
    case None =>
    case Some(name) =>
      match host(s, u, name)
      case Some(s') =>
        RequestedCons(Call(u, index, name, true), calls, v);
      case None =>
        RequestedCons(Call(u, index, name, false), calls, v);
  }

  /**
    Skipping failures, over distinct nodes that all exist, every node the
    rule names at its position gets a request.
   */
  lemma {:induction false} ApplySkipsRequestsNamed(s: Scene, todo: seq<Uuid>, index: nat, rule: Rule, src: NameSource, host: Host, v: Uuid)
    requires KeepsNodes(host) && NamesOne(host)
    requires AllPresent(s, todo) && NoDups(todo)
    requires v in todo && rule(index + IndexOf(todo, v), Subject(s, v, src)).Some?
    ensures Requested(Apply(s, todo, index, rule, src, SkipFailures, host).calls, v)
    decreases |todo|, 1
  {
    if todo[0] == v {
      FirstRequested(s, todo, index, rule, src, host);
    } else {
      RequestedBehind(s, todo, index, rule, src, host, v);
    }
  }

  /** A first node the rule names gets the first request. */
  lemma {:induction false} FirstRequested(s: Scene, todo: seq<Uuid>, index: nat, rule: Rule, src: NameSource, host: Host)
    requires todo != [] && todo[0] in s.nodes && rule(index, Subject(s, todo[0], src)).Some?
    ensures Requested(Apply(s, todo, index, rule, src, SkipFailures, host).calls, todo[0])
  {
    assert Apply(s, todo, index, rule, src, SkipFailures, host).calls[0].node == todo[0];
  }

  /** `ApplySkipsRequestsNamed` for a node after the first. */
  lemma {:induction false} RequestedBehind(s: Scene, todo: seq<Uuid>, index: nat, rule: Rule, src: NameSource, host: Host, v: Uuid)
    requires KeepsNodes(host) && NamesOne(host)
    requires AllPresent(s, todo) && NoDups(todo)
    requires v in todo && todo[0] != v && rule(index + IndexOf(todo, v), Subject(s, v, src)).Some?
    ensures Requested(Apply(s, todo, index, rule, src, SkipFailures, host).calls, v)
    decreases |todo|, 0
  {
    var u := todo[0];
    var rest := todo[1..];
    var s1 := NextScene(s, u, index, rule, src, host);
    NextSceneKeeps(s, u, index, rule, src, host);
    assert v in rest && IndexOf(todo, v) == 1 + IndexOf(rest, v);
    assert NoDups(rest);
    assert Subject(s1, v, src) == Subject(s, v, src);
    assert AllPresent(s1, rest);
    ApplySkipsRequestsNamed(s1, rest, index + 1, rule, src, host, v);
    RequestedLater(s, todo, index, rule, src, host, v);
  }

  /** Position of the first occurrence of `v` in `xs` (`|xs|` when absent). */
  function IndexOf(xs: seq<Uuid>, v: Uuid): (i: nat)
    ensures i <= |xs|
    ensures i < |xs| <==> v in xs
    ensures i < |xs| ==> xs[i] == v
  {
    if xs == [] then 0 else if xs[0] == v then 0 else 1 + IndexOf(xs[1..], v)
  }

  lemma {:induction false} IndexOfAt(xs: seq<Uuid>, i: nat)
    requires NoDups(xs) && i < |xs|
    ensures IndexOf(xs, xs[i]) == i
  {
  }

  /** Request `k` is for node `todo[k]`, at position `index + k`. */
  predicate InOrder(calls: seq<Call>, todo: seq<Uuid>, index: nat)
  {
    && |calls| <= |todo|
    && forall k :: 0 <= k < |calls| ==> calls[k].node == todo[k] && calls[k].index == index + k
  }

  lemma {:induction false} InOrderCons(c: Call, calls: seq<Call>, todo: seq<Uuid>, index: nat)
    requires todo != [] && c.node == todo[0] && c.index == index
    requires InOrder(calls, todo[1..], index + 1)
    ensures InOrder([c] + calls, todo, index)
  {
    var all := [c] + calls;
    forall k | 0 <= k < |all|
      ensures all[k].node == todo[k] && all[k].index == index + k
    {
      if k > 0 {
        assert all[k] == calls[k - 1];
        assert todo[k] == todo[1..][k - 1];
      }
    }
  }

  /** The rule names every node it is given. */
  ghost predicate Total(rule: Rule)
  {
    forall i, t :: rule(i, t).Some?
  }

  /** Every node of the batch exists. */
  predicate AllPresent(s: Scene, todo: seq<Uuid>)
  {
    forall k :: 0 <= k < |todo| ==> todo[k] in s.nodes
  }

  /**
    When the rule names every node and every node exists, the batch makes
    one request per node, for the nodes in order, until it ends.
   */
  lemma {:induction false} ApplyInOrder(s: Scene, todo: seq<Uuid>, index: nat, rule: Rule, src: NameSource, policy: Policy, host: Host)
    requires KeepsNodes(host)
    requires Total(rule) && AllPresent(s, todo)
    ensures InOrder(Apply(s, todo, index, rule, src, policy, host).calls, todo, index)
    decreases |todo|
  {
    if todo != [] {
      var u := todo[0];
      var name := rule(index, Subject(s, u, src)).value;
      match Answer(host, s, u, name)
      case Some(s') =>
        ApplyInOrder(s', todo[1..], index + 1, rule, src, policy, host);
        InOrderCons(Call(u, index, name, true), Apply(s', todo[1..], index + 1, rule, src, policy, host).calls, todo, index);
      case None =>
        if policy == SkipFailures {
          ApplyInOrder(s, todo[1..], index + 1, rule, src, policy, host);
          InOrderCons(Call(u, index, name, false), Apply(s, todo[1..], index + 1, rule, src, policy, host).calls, todo, index);
        } else {
          InOrderCons(Call(u, index, name, false), [], todo, index);
        }
    }
  }

  /** Requests in order that fit the batch ask, each, for the name the rule gives the node at its position. */
  lemma {:induction false} InOrderNames(s: Scene, todo: seq<Uuid>, index: nat, rule: Rule, src: NameSource, calls: seq<Call>)
    requires AllFit(s, todo, index, rule, src, calls) && InOrder(calls, todo, index) && AllPresent(s, todo)
    ensures forall k :: 0 <= k < |calls| ==> Some(calls[k].name) == rule(index + k, Subject(s, todo[k], src))
  {
    forall k | 0 <= k < |calls|
      ensures Some(calls[k].name) == rule(index + k, Subject(s, todo[k], src))
    {
      assert Fits(s, todo, index, rule, src, calls[k]);
    }
  }

  /**
    With a rule that names every node, over distinct nodes that all exist,
    request `k` is for node `todo[k]` and asks for the name the rule gives
    it at position `index + k`.
   */
  lemma {:induction false} TotalBatchCalls(s: Scene, todo: seq<Uuid>, index: nat, rule: Rule, src: NameSource, policy: Policy, host: Host)
    requires KeepsNodes(host) && NamesOne(host)
    requires Total(rule) && AllPresent(s, todo) && NoDups(todo)
    ensures var r := Apply(s, todo, index, rule, src, policy, host);
      && InOrder(r.calls, todo, index)
      && forall k :: 0 <= k < |r.calls| ==> Some(r.calls[k].name) == rule(index + k, Subject(s, todo[k], src))
  {
    var calls := Apply(s, todo, index, rule, src, policy, host).calls;
    ApplyInOrder(s, todo, index, rule, src, policy, host);
    ApplyCallsFit(s, todo, index, rule, src, policy, host);
    InOrderNames(s, todo, index, rule, src, calls);
  }

  /** Skipping failures, such a batch makes a request for every node and runs to the end. */
  lemma {:induction false} ApplySkipsVisitAll(s: Scene, todo: seq<Uuid>, index: nat, rule: Rule, src: NameSource, host: Host)
    requires KeepsNodes(host)
    requires Total(rule) && AllPresent(s, todo)
    ensures var r := Apply(s, todo, index, rule, src, SkipFailures, host);
      |r.calls| == |todo| && !r.stopped
    decreases |todo|
  {
    if todo != [] {
      var u := todo[0];
      var name := rule(index, Subject(s, u, src)).value;
      match Answer(host, s, u, name)
      case Some(s') =>
        ApplySkipsVisitAll(s', todo[1..], index + 1, rule, src, host);
      case None =>
        ApplySkipsVisitAll(s, todo[1..], index + 1, rule, src, host);
    }
  }

  /**
    The requests of a batch that stops at a failure, over `n` nodes: all
    succeeded but possibly the last; the batch ended early exactly when
    that last one failed, and otherwise made a request for every node.
   */
  predicate StopShape(calls: seq<Call>, stopped: bool, n: nat)
  {
    && |calls| <= n
    && (forall k :: 0 <= k < |calls| - 1 ==> calls[k].ok)
    && (stopped <==> |calls| > 0 && !calls[|calls| - 1].ok)
    && (!stopped ==> |calls| == n)
  }

  lemma {:induction false} StopShapeCons(c: Call, calls: seq<Call>, stopped: bool, n: nat)
    requires c.ok && StopShape(calls, stopped, n)
    ensures StopShape([c] + calls, stopped, n + 1)
  {
    var all := [c] + calls;
    forall k | 0 <= k < |all| - 1
      ensures all[k].ok
    {
      if k > 0 {
        assert all[k] == calls[k - 1];
      }
    }
    if calls != [] {
      assert all[|all| - 1] == calls[|calls| - 1];
    }
  }

  /** Stopping at failures, such a batch has the `StopShape`. */
  lemma {:induction false} ApplyStopsAtFailure(s: Scene, todo: seq<Uuid>, index: nat, rule: Rule, src: NameSource, host: Host)
    requires KeepsNodes(host)
    requires Total(rule) && AllPresent(s, todo)
    ensures var r := Apply(s, todo, index, rule, src, StopAtFailure, host);
      StopShape(r.calls, r.stopped, |todo|)
    decreases |todo|
  {
    if todo != [] {
      var u := todo[0];
      var name := rule(index, Subject(s, u, src)).value;
      match Answer(host, s, u, name)
      case Some(s') =>
        var r' := Apply(s', todo[1..], index + 1, rule, src, StopAtFailure, host);
        ApplyStopsAtFailure(s', todo[1..], index + 1, rule, src, host);
        StopShapeCons(Call(u, index, name, true), r'.calls, r'.stopped, |todo| - 1);
      case None =>
    }
  }
}

=== FILE: enums.dfy ===
/**
  The three string-valued enums of the renamer. Each member carries the
  string it compares equal to (they derive from `str`), and parsing a
  string back succeeds exactly for those strings.
 */
module Enums {
  import opened Opt

  /** Which nodes a search-and-replace visits. */
  datatype SearchAndReplaceState = Hierarchy | Selected | All {
    function Value(): string
    {
      match this
      case Hierarchy => "hierarchy"
      case Selected => "selected"
      case All => "all"
    }
  }

  /** Where `add_affix` puts the affix. */
  datatype AffixType = Suffix | Prefix {
    function Value(): string
    {
      match this
      case Suffix => "suffix"
      case Prefix => "prefix"
    }
  }

  /** Which end `remove_character` trims. */
  datatype CharacterRemovalPosition = First | Last {
    function Value(): string
    {
      match this
      case First => "first"
      case Last => "last"
    }
  }

  /** `SearchAndReplaceState(v)`: the member whose value is `v`; Python raises `ValueError` otherwise. */
  function ParseState(v: string): (r: Option<SearchAndReplaceState>)
    ensures r.Some? ==> r.value.Value() == v
    ensures forall s: SearchAndReplaceState :: s.Value() == v ==> r == Some(s)
  {
    if v == "hierarchy" then Some(Hierarchy)
    else if v == "selected" then Some(Selected)
    else if v == "all" then Some(All)
    else None
  }

  /** `AffixType(v)`. */
  function ParseAffixType(v: string): (r: Option<AffixType>)
    ensures r.Some? ==> r.value.Value() == v
    ensures forall t: AffixType :: t.Value() == v ==> r == Some(t)
  {
    if v == "suffix" then Some(Suffix)
    else if v == "prefix" then Some(Prefix)
    else None
  }

  /** `CharacterRemovalPosition(v)`. */
  function ParsePosition(v: string): (r: Option<CharacterRemovalPosition>)
    ensures r.Some? ==> r.value.Value() == v
    ensures forall p: CharacterRemovalPosition :: p.Value() == v ==> r == Some(p)
  {
    if v == "first" then Some(First)
    else if v == "last" then Some(Last)
    else None
  }
}

=== FILE: legacy.dfy ===
/**
  The logic of the single-file panel: numbering the selection from a `#`
  pattern deepest node first, trimming one character off every selected
  name, and finding the nodes whose short names are shared. Unlike the
  renamer module it records full paths when it starts and renames by
  path, so the order of the renames decides whether a recorded path still
  leads to its node.
 */
module Legacy {
  import opened Opt
  import opened Text
  import opened Numbering
  import opened Enums
  import opened Names
  import opened Scene
  import Batch
  import Rename

  // ---------------------------------------------------------------------
  // Deepest first
  // ---------------------------------------------------------------------

  /** One selected node as `rename` records it: its full path, its `|` count and its selection index. */
  datatype Entry = Entry(path: string, rank: nat, index: nat)

  /** `objList`: an entry per selected path, in selection order. */
  function Entries(paths: seq<string>): seq<Entry>
  {
    seq(|paths|, k requires 0 <= k < |paths| => Entry(paths[k], Count('|', paths[k]), k))
  }

  /** `e` is the entry recorded for `paths[e.index]`. */
  predicate Recorded(paths: seq<string>, e: Entry)
  {
    e.index < |paths| && e.path == paths[e.index] && e.rank == Count('|', e.path)
  }

  /** `a` comes before `b` in the sorted list: it is deeper, or as deep and selected earlier. */
  predicate Before(a: Entry, b: Entry)
  {
    a.rank > b.rank || (a.rank == b.rank && a.index < b.index)
  }

  predicate Ordered(es: seq<Entry>)
  {
    forall i, j :: 0 <= i < j < |es| ==> Before(es[i], es[j])
  }

  /** Sorted by `rank` from deepest to shallowest. */
  predicate Descending(es: seq<Entry>)
  {
    forall i, j :: 0 <= i < j < |es| ==> es[i].rank >= es[j].rank
  }

  /** Entries of equal rank keep their selection order, as a stable sort keeps them. */
  predicate KeepsTies(es: seq<Entry>)
  {
    forall i, j :: 0 <= i < j < |es| && es[i].rank == es[j].rank ==> es[i].index < es[j].index
  }

  /** Put `e` in front of the first entry that is not deeper than it. */
  function Insert(e: Entry, xs: seq<Entry>): (r: seq<Entry>)
    ensures multiset(r) == multiset(xs) + multiset{e}
    decreases |xs|
  {
    if xs == [] || xs[0].rank <= e.rank then [e] + xs
    else
      assert xs == [xs[0]] + xs[1..];
      [xs[0]] + Insert(e, xs[1..])
  }

  /**
    `sorted(objList, key=lambda obj: obj['rank'], reverse=True)`, written
    as an insertion sort that inserts each entry in front of the entries
    that follow it in the selection.
   */
  function DeepestFirst(es: seq<Entry>): (r: seq<Entry>)
    ensures multiset(r) == multiset(es)
    decreases |es|
  {
    if es == [] then []
    else
      assert es == [es[0]] + es[1..];
      Insert(es[0], DeepestFirst(es[1..]))
  }

  /** An ordered list stays ordered after its first entry. */
  lemma {:induction false} OrderedTail(xs: seq<Entry>)
    requires xs != [] && Ordered(xs)
    ensures Ordered(xs[1..])
    ensures forall x :: x in xs[1..] ==> Before(xs[0], x)
  {
    var t := xs[1..];
    forall i, j | 0 <= i < j < |t|
      ensures Before(t[i], t[j])
    {
      assert t[i] == xs[i + 1] && t[j] == xs[j + 1];
    }
    forall x | x in t
      ensures Before(xs[0], x)
    {
      var m :| 0 <= m < |t| && t[m] == x;
      assert x == xs[m + 1];
    }
  }

  /** An entry that is at least as deep as the head goes first, and then ahead of all. */
  lemma {:induction false} InsertAtFront(e: Entry, xs: seq<Entry>)
    requires Ordered(xs) && (xs == [] || xs[0].rank <= e.rank)
    requires forall x :: x in xs ==> e.index < x.index
    ensures Ordered([e] + xs)
  {
    var r := [e] + xs;
    forall i, j | 0 <= i < j < |r|
      ensures Before(r[i], r[j])
    {
      assert r[j] == xs[j - 1];
      if i == 0 {
        assert xs[j - 1] in xs;
        if j > 1 {
          assert Before(xs[0], xs[j - 1]);
        }
      } else {
        assert r[i] == xs[i - 1];
      }
    }
  }

  /** A shallower entry goes behind the head: the head stays in front of everything. */
  lemma {:induction false} InsertBehind(h: Entry, e: Entry, t: seq<Entry>, rest: seq<Entry>)
    requires Ordered(t) && Before(h, e)
    requires forall x :: x in rest ==> Before(h, x)
    requires multiset(t) == multiset(rest) + multiset{e}
    ensures Ordered([h] + t)
  {
    var r := [h] + t;
    forall i, j | 0 <= i < j < |r|
      ensures Before(r[i], r[j])
    {
      assert r[j] == t[j - 1];
      if i == 0 {
        assert t[j - 1] in multiset(t);
        if t[j - 1] != e {
          assert t[j - 1] in multiset(rest);
        }
      } else {
        assert r[i] == t[i - 1];
      }
    }
  }

  /** Inserting an entry selected before all others into an ordered list keeps it ordered. */
  lemma {:induction false} InsertOrdered(e: Entry, xs: seq<Entry>)
    requires Ordered(xs)
    requires forall x :: x in xs ==> e.index < x.index
    ensures Ordered(Insert(e, xs))
    decreases |xs|
  {
    if xs == [] || xs[0].rank <= e.rank {
      InsertAtFront(e, xs);
    } else {
      OrderedTail(xs);
      InsertOrdered(e, xs[1..]);
      InsertBehind(xs[0], e, Insert(e, xs[1..]), xs[1..]);
    }
  }

  /** Selection indices grow along the list, as in `objList`. */
  predicate IndexesIncrease(es: seq<Entry>)
  {
    forall i, j :: 0 <= i < j < |es| ==> es[i].index < es[j].index
  }

  /** The sort leaves entries deepest first, ties in selection order. */
  lemma {:induction false} DeepestFirstOrdered(es: seq<Entry>)
    requires IndexesIncrease(es)
    ensures Ordered(DeepestFirst(es))
    decreases |es|
  {
    if es != [] {
      var t := es[1..];
      assert IndexesIncrease(t) by {
        forall i, j | 0 <= i < j < |t|
          ensures t[i].index < t[j].index
        {
          assert t[i] == es[i + 1] && t[j] == es[j + 1];
        }
      }
      DeepestFirstOrdered(t);
      forall x | x in DeepestFirst(t)
        ensures es[0].index < x.index
      {
        assert x in multiset(DeepestFirst(t));
        var m :| 0 <= m < |t| && t[m] == x;
        assert x == es[m + 1];
      }
      InsertOrdered(es[0], DeepestFirst(t));
    }
  }

  /** Being ordered is being sorted deepest first with ties kept in selection order. */
  lemma {:induction false} OrderedIsStableDescending(es: seq<Entry>)
    ensures Ordered(es) <==> Descending(es) && KeepsTies(es)
  {
  }

  /** The head of an ordered list comes before every other entry of it. */
  lemma {:induction false} HeadFirst(xs: seq<Entry>, x: Entry)
    requires Ordered(xs) && x in xs
    ensures x == xs[0] || Before(xs[0], x)
  {
    var m :| 0 <= m < |xs| && xs[m] == x;
  }

  /** Two ordered arrangements of the same entries are the same list. */
  lemma {:induction false} OrderedUnique(a: seq<Entry>, b: seq<Entry>)
    requires Ordered(a) && Ordered(b) && multiset(a) == multiset(b)
    ensures a == b
    decreases |a|
  {
    assert |a| == |multiset(a)| == |multiset(b)| == |b|;
    if a != [] {
      if a[0] != b[0] {
        assert b[0] in multiset(a) && a[0] in multiset(b);
        HeadFirst(a, b[0]);
        HeadFirst(b, a[0]);
      }
      assert a == [a[0]] + a[1..] && b == [b[0]] + b[1..];
      assert multiset(a) == multiset{a[0]} + multiset(a[1..]);
      assert multiset(b) == multiset{a[0]} + multiset(b[1..]);
      assert multiset(a[1..]) == multiset(a) - multiset{a[0]} == multiset(b[1..]);
      OrderedTail(a);
      OrderedTail(b);
      OrderedUnique(a[1..], b[1..]);
    }
  }

  /**
    The sort is Python's stable descending sort: its result holds the same
    entries, sorted by rank from deepest, ties in selection order, and it
    is the only such arrangement of them.
   */
  lemma {:induction false} DeepestFirstIsStableSort(es: seq<Entry>, r: seq<Entry>)
    requires IndexesIncrease(es)
    ensures Descending(DeepestFirst(es)) && KeepsTies(DeepestFirst(es))
    ensures multiset(r) == multiset(es) && Descending(r) && KeepsTies(r) ==> r == DeepestFirst(es)
  {
    DeepestFirstOrdered(es);
    OrderedIsStableDescending(DeepestFirst(es));
    if multiset(r) == multiset(es) && Descending(r) && KeepsTies(r) {
      OrderedIsStableDescending(r);
      OrderedUnique(r, DeepestFirst(es));
    }
  }

  /** Entries record their paths, carry their own selection index and grow in it. */
  lemma {:induction false} EntriesRecorded(paths: seq<string>)
    ensures |Entries(paths)| == |paths|
    ensures IndexesIncrease(Entries(paths))
    ensures forall e :: e in Entries(paths) ==> Recorded(paths, e)
    ensures forall i :: 0 <= i < |paths| ==> Entry(paths[i], Count('|', paths[i]), i) in Entries(paths)
  {
    var es := Entries(paths);
    forall i | 0 <= i < |paths|
      ensures Entry(paths[i], Count('|', paths[i]), i) in es
    {
      assert es[i] == Entry(paths[i], Count('|', paths[i]), i);
    }
  }

  /**
    In the sorted selection no node comes before one of its descendants:
    an ancestor's path has fewer `|`, so it sorts later.
   */
  lemma {:induction false} AncestorsComeLater(paths: seq<string>)
    ensures var es := DeepestFirst(Entries(paths));
      forall i, j :: 0 <= i < j < |es| ==> !IsAncestorPath(es[i].path, es[j].path)
  {
    var es := DeepestFirst(Entries(paths));
    EntriesRecorded(paths);
    DeepestFirstOrdered(Entries(paths));
    forall i, j | 0 <= i < j < |es|
      ensures !IsAncestorPath(es[i].path, es[j].path)
    {
      assert es[i] in multiset(Entries(paths)) && es[j] in multiset(Entries(paths));
      assert Recorded(paths, es[i]) && Recorded(paths, es[j]);
      if IsAncestorPath(es[i].path, es[j].path) {
        AncestorHasFewerBars(es[i].path, es[j].path);
        assert false;
      }
    }
  }

  /**
    Every selection index appears exactly once in the sorted list, so the
    numbers handed out, index + 1, are exactly 1 to n.
   */
  lemma {:induction false} EachIndexOnce(paths: seq<string>)
    ensures var es := DeepestFirst(Entries(paths));
      && |es| == |paths|
      && (forall k :: 0 <= k < |es| ==> Recorded(paths, es[k]))
      && (forall i :: 0 <= i < |paths| ==> Entry(paths[i], Count('|', paths[i]), i) in es)
      && (forall k, m :: 0 <= k < m < |es| ==> es[k].index != es[m].index)
  {
    var es := DeepestFirst(Entries(paths));
    EntriesRecorded(paths);
    DeepestFirstOrdered(Entries(paths));
    assert |es| == |multiset(es)| == |multiset(Entries(paths))| == |paths|;
    forall k | 0 <= k < |es|
      ensures Recorded(paths, es[k])
    {
      assert es[k] in multiset(Entries(paths));
    }
    forall i | 0 <= i < |paths|
      ensures Entry(paths[i], Count('|', paths[i]), i) in es
    {
      assert Entry(paths[i], Count('|', paths[i]), i) in multiset(es);
    }
    forall k, m | 0 <= k < m < |es|
      ensures es[k].index != es[m].index
    {
      assert Recorded(paths, es[k]) && Recorded(paths, es[m]);
      assert Before(es[k], es[m]);
    }
  }

  // ---------------------------------------------------------------------
  // Renaming by recorded path
  // ---------------------------------------------------------------------

  /** What the panel makes of a selected node's name: its number from a pattern, or its short name cut by one character. */
  datatype Action = Numbered(pattern: string) | Cut(position: CharacterRemovalPosition)

  /** `shortname[1:]` or `shortname[:-1]`, with no guard: a name of one character is cut to the empty name. */
  function Unguarded(short: string, position: CharacterRemovalPosition): (r: string)
    ensures short != [] ==> |r| == |short| - 1
    ensures short == [] ==> r == []
  {
    if short == [] then []
    else if position == First then short[1..]
    else short[..|short| - 1]
  }

  /**
    Where the renamer module's length guard lets a name through, the cut
    is the same; where it does not, the unguarded cut is a name the host
    refuses.
   */
  lemma {:induction false} UnguardedAgrees(short: string, position: CharacterRemovalPosition)
    ensures |short| > 1 ==> TrimmedName(short, position) == Some(Unguarded(short, position))
    ensures |short| <= 1 ==> TrimmedName(short, position).None? && !ValidName(Unguarded(short, position))
  {
  }

  function JobName(a: Action, e: Entry): string
  {
    match a
    case Numbered(p) => HashTarget(p, e.index)
    case Cut(position) => Unguarded(ShortName(e.path), position)
  }

  /** One rename to make: the path recorded for a node and the name to give it. */
  datatype Job = Job(path: string, name: string)

  function Jobs(es: seq<Entry>, a: Action): seq<Job>
  {
    seq(|es|, k requires 0 <= k < |es| => Job(es[k].path, JobName(a, es[k])))
  }

  /** One `cmds.rename(path, name)`: the node the path led to, if any, and whether the rename succeeded. */
  datatype PathCall = PathCall(job: Job, node: Option<Uuid>, ok: bool)

  datatype PathRun = PathRun(scene: Scene, calls: seq<PathCall>, stopped: bool)

  /**
    The loops of `rename`, `removeFirstChar` and `removeLastChar`: rename
    each recorded path in turn. A path that leads nowhere fails like a
    refused rename; `StopAtFailure` stands for the uncaught exception of
    `rename`, `SkipFailures` for the `except` that prints and goes on.
   */
  function RenameAll(s: Scene, jobs: seq<Job>, policy: Batch.Policy, host: Host): PathRun
    decreases |jobs|
  {
    if jobs == [] then PathRun(s, [], false)
    else
      var step := RenamePath(s, jobs[0].path, jobs[0].name, host);
      match step.1
      case Some(s') =>
        var r := RenameAll(s', jobs[1..], policy, host);
        PathRun(r.scene, [PathCall(jobs[0], step.0, true)] + r.calls, r.stopped)
      case None =>
        if policy == Batch.StopAtFailure then PathRun(s, [PathCall(jobs[0], step.0, false)], true)
        else
          var r := RenameAll(s, jobs[1..], policy, host);
          PathRun(r.scene, [PathCall(jobs[0], step.0, false)] + r.calls, r.stopped)
  }

  /** Each job's recorded path is still the path of its node `us[k]`, and no two nodes share a path. */
  predicate Current(s: Scene, jobs: seq<Job>, us: seq<Uuid>)
  {
    && |jobs| == |us| && NoDups(us) && UniquePaths(s.nodes)
    && forall k :: 0 <= k < |us| ==> us[k] in s.nodes && us[k] in s.order && s.nodes[us[k]].path == jobs[k].path
  }

  /** No job's path is an ancestor of a later job's path. */
  predicate ChildrenFirst(jobs: seq<Job>)
  {
    forall i, j :: 0 <= i < j < |jobs| ==> !IsAncestorPath(jobs[i].path, jobs[j].path)
  }

  /** Call `k` made job `k` and its path led to node `us[k]`. */
  predicate Reaches(calls: seq<PathCall>, jobs: seq<Job>, us: seq<Uuid>)
  {
    && |calls| <= |jobs| && |jobs| == |us|
    && forall k :: 0 <= k < |calls| ==> calls[k].job == jobs[k] && calls[k].node == Some(us[k])
  }

  lemma {:induction false} ReachesCons(c: PathCall, calls: seq<PathCall>, jobs: seq<Job>, us: seq<Uuid>)
    requires jobs != [] && |jobs| == |us| && c.job == jobs[0] && c.node == Some(us[0])
    requires Reaches(calls, jobs[1..], us[1..])
    ensures Reaches([c] + calls, jobs, us)
  {
    var r := [c] + calls;
    forall k | 0 <= k < |r|
      ensures r[k].job == jobs[k] && r[k].node == Some(us[k])
    {
      if k > 0 {
        assert r[k] == calls[k - 1];
        assert jobs[1..][k - 1] == jobs[k] && us[1..][k - 1] == us[k];
      }
    }
  }

  /** Dropping the first job keeps the rest current and children first. */
  lemma {:induction false} CurrentTail(s: Scene, jobs: seq<Job>, us: seq<Uuid>)
    requires Current(s, jobs, us) && ChildrenFirst(jobs) && jobs != []
    ensures Current(s, jobs[1..], us[1..]) && ChildrenFirst(jobs[1..])
  {
    var js := jobs[1..];
    var vs := us[1..];
    forall k | 0 <= k < |vs|
      ensures vs[k] in s.nodes && vs[k] in s.order && s.nodes[vs[k]].path == js[k].path
    {
      assert vs[k] == us[k + 1] && js[k] == jobs[k + 1];
    }
    forall i, j | 0 <= i < j < |vs|
      ensures vs[i] != vs[j]
    {
      assert vs[i] == us[i + 1] && vs[j] == us[j + 1];
    }
    forall i, j | 0 <= i < j < |js|
      ensures !IsAncestorPath(js[i].path, js[j].path)
    {
      assert js[i] == jobs[i + 1] && js[j] == jobs[j + 1];
    }
  }

  /**
    Renaming the first job's node moves only that node's subtree, and no
    later job's node lies in it: the later recorded paths stay current.
   */
  lemma {:induction false} CurrentAfterRename(s: Scene, jobs: seq<Job>, us: seq<Uuid>, host: Host, s': Scene)
    requires KeepsShape(host) && MovesSubtree(host)
    requires Current(s, jobs, us) && ChildrenFirst(jobs) && jobs != []
    requires Answer(host, s, us[0], jobs[0].name) == Some(s')
    ensures Current(s', jobs[1..], us[1..]) && ChildrenFirst(jobs[1..])
  {
    CurrentTail(s, jobs, us);
    assert SameShape(s, s') && UniquePaths(s'.nodes);
    var js := jobs[1..];
    var vs := us[1..];
    forall k | 0 <= k < |vs|
      ensures vs[k] in s'.nodes && vs[k] in s'.order && s'.nodes[vs[k]].path == js[k].path
    {
      var v := us[k + 1];
      assert vs[k] == v && js[k] == jobs[k + 1];
      assert v != us[0];
      assert s.nodes[us[0]].path == jobs[0].path && s.nodes[v].path == jobs[k + 1].path;
      assert !IsAncestorPath(jobs[0].path, jobs[k + 1].path);
      assert s'.nodes[v] == s.nodes[v];
    }
  }

  /**
    With a host that moves only the renamed subtree, recorded paths taken
    children first never go stale: every call reaches the node its path
    was recorded for, whichever renames fail.
   */
  lemma {:induction false} NoStalePaths(s: Scene, jobs: seq<Job>, us: seq<Uuid>, policy: Batch.Policy, host: Host)
    requires KeepsShape(host) && MovesSubtree(host)
    requires Current(s, jobs, us) && ChildrenFirst(jobs)
    ensures Reaches(RenameAll(s, jobs, policy, host).calls, jobs, us)
    decreases |jobs|, 1
  {
    if jobs != [] {
      match Answer(host, s, us[0], jobs[0].name)
      case Some(s') =>
        ReachesRenamed(s, jobs, us, policy, host, s');
      case None =>
        ReachesFailed(s, jobs, us, policy, host);
    }
  }

  /** `NoStalePaths` when the first rename succeeds. */
  lemma {:induction false} ReachesRenamed(s: Scene, jobs: seq<Job>, us: seq<Uuid>, policy: Batch.Policy, host: Host, s': Scene)
    requires KeepsShape(host) && MovesSubtree(host)
    requires Current(s, jobs, us) && ChildrenFirst(jobs) && jobs != []
    requires Answer(host, s, us[0], jobs[0].name) == Some(s')
    ensures Reaches(RenameAll(s, jobs, policy, host).calls, jobs, us)
    decreases |jobs|, 0
  {
    ResolveOwnPath(s, us[0]);
    var c := PathCall(jobs[0], Some(us[0]), true);
    var r' := RenameAll(s', jobs[1..], policy, host);
    assert RenameAll(s, jobs, policy, host) == PathRun(r'.scene, [c] + r'.calls, r'.stopped);
    CurrentAfterRename(s, jobs, us, host, s');
    NoStalePaths(s', jobs[1..], us[1..], policy, host);
    ReachesCons(c, r'.calls, jobs, us);
  }

  /** `NoStalePaths` when the first rename is refused. */
  lemma {:induction false} ReachesFailed(s: Scene, jobs: seq<Job>, us: seq<Uuid>, policy: Batch.Policy, host: Host)
    requires KeepsShape(host) && MovesSubtree(host)
    requires Current(s, jobs, us) && ChildrenFirst(jobs) && jobs != []
    requires Answer(host, s, us[0], jobs[0].name).None?
    ensures Reaches(RenameAll(s, jobs, policy, host).calls, jobs, us)
    decreases |jobs|, 0
  {
    ResolveOwnPath(s, us[0]);
    var c := PathCall(jobs[0], Some(us[0]), false);
    if policy == Batch.StopAtFailure {
      assert RenameAll(s, jobs, policy, host) == PathRun(s, [c], true);
      assert [c] + [] == [c];
      ReachesCons(c, [], jobs, us);
    } else {
      var r' := RenameAll(s, jobs[1..], policy, host);
      assert RenameAll(s, jobs, policy, host) == PathRun(r'.scene, [c] + r'.calls, r'.stopped);
      CurrentTail(s, jobs, us);
      NoStalePaths(s, jobs[1..], us[1..], policy, host);
      ReachesCons(c, r'.calls, jobs, us);
    }
  }

  /** Skipping failures, every job gets its call, in order. */
  lemma {:induction false} RenameAllKeepsGoing(s: Scene, jobs: seq<Job>, host: Host)
    ensures var r := RenameAll(s, jobs, Batch.SkipFailures, host);
      && |r.calls| == |jobs| && !r.stopped
      && forall k :: 0 <= k < |jobs| ==> r.calls[k].job == jobs[k]
    decreases |jobs|
  {
    if jobs != [] {
      var step := RenamePath(s, jobs[0].path, jobs[0].name, host);
      var next := if step.1.Some? then step.1.value else s;
      var r' := RenameAll(next, jobs[1..], Batch.SkipFailures, host);
      var all := [PathCall(jobs[0], step.0, step.1.Some?)] + r'.calls;
      assert RenameAll(s, jobs, Batch.SkipFailures, host) == PathRun(r'.scene, all, r'.stopped);
      RenameAllKeepsGoing(next, jobs[1..], host);
      forall k | 0 <= k < |jobs|
        ensures all[k].job == jobs[k]
      {
        if k > 0 {
          assert all[k] == r'.calls[k - 1] && jobs[1..][k - 1] == jobs[k];
        }
      }
    }
  }

  /**
    The calls of a run that stops at a failure, over `n` jobs: all
    succeeded but possibly the last; the run ended early exactly when that
    last one failed, and otherwise made a call for every job. This is
    `Batch.StopShape` for the path-keyed calls of the panel, whose calls
    record a job and an optional node instead of a UUID and a position;
    without a common supertype of the two call types the shape is stated
    once for each.
   */
  predicate PathStopShape(calls: seq<PathCall>, stopped: bool, n: nat)
  {
    && |calls| <= n
    && (forall k :: 0 <= k < |calls| - 1 ==> calls[k].ok)
    && (stopped <==> |calls| > 0 && !calls[|calls| - 1].ok)
    && (!stopped ==> |calls| == n)
  }

  lemma {:induction false} PathStopShapeCons(c: PathCall, calls: seq<PathCall>, stopped: bool, n: nat)
    requires c.ok && PathStopShape(calls, stopped, n)
    ensures PathStopShape([c] + calls, stopped, n + 1)
  {
    var all := [c] + calls;
    forall k | 0 <= k < |all| - 1
      ensures all[k].ok
    {
      if k > 0 {
        assert all[k] == calls[k - 1];
      }
    }
    if calls != [] {
      assert all[|all| - 1] == calls[|calls| - 1];
    }
  }

  /** Stopping at failures, the first failure ends the run. */
  lemma {:induction false} RenameAllStops(s: Scene, jobs: seq<Job>, host: Host)
    ensures var r := RenameAll(s, jobs, Batch.StopAtFailure, host);
      PathStopShape(r.calls, r.stopped, |jobs|)
    decreases |jobs|
  {
    if jobs != [] {
      var step := RenamePath(s, jobs[0].path, jobs[0].name, host);
      match step.1
      case Some(s') =>
        var r' := RenameAll(s', jobs[1..], Batch.StopAtFailure, host);
        assert RenameAll(s, jobs, Batch.StopAtFailure, host) == PathRun(r'.scene, [PathCall(jobs[0], step.0, true)] + r'.calls, r'.stopped);
        RenameAllStops(s', jobs[1..], host);
        PathStopShapeCons(PathCall(jobs[0], step.0, true), r'.calls, r'.stopped, |jobs| - 1);
      case None =>
        assert RenameAll(s, jobs, Batch.StopAtFailure, host) == PathRun(s, [PathCall(jobs[0], step.0, false)], true);
    }
  }

  // ---------------------------------------------------------------------
  // The panel's operations
  // ---------------------------------------------------------------------

  /** `ls(sl=True, long=True)` recorded and sorted deepest first. */
  function SortedSelection(s: Scene): seq<Entry>
  {
    DeepestFirst(Entries(SelectedPaths(s)))
  }

  /** The node each entry was recorded for: the selected node at its index. */
  function Targets(s: Scene, es: seq<Entry>): seq<Uuid>
  {
    seq(|es|, k requires 0 <= k < |es| => if es[k].index < |s.selection| then s.selection[es[k].index] else [])
  }

  /** In a well-formed scene `ls(sl=True, long=True)` lists the path of every selected node, in selection order. */
  lemma {:induction false} SelectedPathsAre(s: Scene)
    requires WellFormed(s)
    ensures |SelectedPaths(s)| == |s.selection|
    ensures forall i :: 0 <= i < |s.selection| ==> s.selection[i] in s.nodes && SelectedPaths(s)[i] == s.nodes[s.selection[i]].path
  {
  }

  /** Entries recorded from the selection's paths name nodes whose current paths they hold. */
  lemma {:induction false} TargetsAt(s: Scene, paths: seq<string>, es: seq<Entry>)
    requires WellFormed(s) && |paths| == |s.selection|
    requires forall i :: 0 <= i < |s.selection| ==> s.selection[i] in s.nodes && paths[i] == s.nodes[s.selection[i]].path
    requires forall k :: 0 <= k < |es| ==> Recorded(paths, es[k])
    ensures forall k :: 0 <= k < |es| ==>
      var u := Targets(s, es)[k]; u in s.nodes && u in s.order && s.nodes[u].path == es[k].path
  {
    var us := Targets(s, es);
    forall k | 0 <= k < |es|
      ensures us[k] in s.nodes && us[k] in s.order && s.nodes[us[k]].path == es[k].path
    {
      assert Recorded(paths, es[k]);
      var i := es[k].index;
      assert us[k] == s.selection[i];
    }
  }

  /** Entries with distinct indices name distinct selected nodes. */
  lemma {:induction false} TargetsDistinct(s: Scene, paths: seq<string>, es: seq<Entry>)
    requires NoDups(s.selection) && |paths| == |s.selection|
    requires forall k :: 0 <= k < |es| ==> Recorded(paths, es[k])
    requires forall k, m :: 0 <= k < m < |es| ==> es[k].index != es[m].index
    ensures NoDups(Targets(s, es))
  {
    var us := Targets(s, es);
    forall i, j | 0 <= i < j < |us|
      ensures us[i] != us[j]
    {
      assert Recorded(paths, es[i]) && Recorded(paths, es[j]);
      assert us[i] == s.selection[es[i].index] && us[j] == s.selection[es[j].index];
    }
  }

  /** Jobs keep their entries' paths and order. */
  lemma {:induction false} JobsFollowEntries(es: seq<Entry>, a: Action)
    requires forall i, j :: 0 <= i < j < |es| ==> !IsAncestorPath(es[i].path, es[j].path)
    ensures |Jobs(es, a)| == |es| && ChildrenFirst(Jobs(es, a))
    ensures forall k :: 0 <= k < |es| ==> Jobs(es, a)[k].path == es[k].path
  {
    var jobs := Jobs(es, a);
    forall i, j | 0 <= i < j < |jobs|
      ensures !IsAncestorPath(jobs[i].path, jobs[j].path)
    {
      assert jobs[i].path == es[i].path && jobs[j].path == es[j].path;
    }
  }

  /**
    In a well-formed scene the sorted selection's paths are current for the
    selected nodes they were recorded for, and come children first.
   */
  lemma {:induction false} SelectionCurrent(s: Scene, a: Action)
    requires WellFormed(s)
    ensures var es := SortedSelection(s);
      Current(s, Jobs(es, a), Targets(s, es)) && ChildrenFirst(Jobs(es, a))
  {
    var paths := SelectedPaths(s);
    var es := SortedSelection(s);
    SelectedPathsAre(s);
    EachIndexOnce(paths);
    AncestorsComeLater(paths);
    TargetsAt(s, paths, es);
    TargetsDistinct(s, paths, es);
    JobsFollowEntries(es, a);
  }

  /** Every call over the sorted selection reaches the node its path was recorded for. */
  lemma {:induction false} SortedSelectionReaches(s: Scene, a: Action, policy: Batch.Policy, host: Host)
    requires WellFormed(s) && KeepsShape(host) && MovesSubtree(host)
    ensures var es := SortedSelection(s);
      Reaches(RenameAll(s, Jobs(es, a), policy, host).calls, Jobs(es, a), Targets(s, es))
  {
    SelectionCurrent(s, a);
    NoStalePaths(s, Jobs(SortedSelection(s), a), Targets(s, SortedSelection(s)), policy, host);
  }

  /** `validateHashes`: the `#` of the name form one block. */
  function ValidateHashes(name: string): (r: bool)
    ensures r <==> OneHashRun(name)
  {
    ValidHashBlockIsOneRun(name);
    ValidHashBlock(name)
  }

  /** The panel either warns and renames nothing, or runs its renames. */
  datatype Reply = Warned(message: string) | Done(run: PathRun)

  /**
    `rename`: append `#` to a pattern without one, refuse a pattern whose
    `#` are not one block, and otherwise rename the selection deepest
    first, each node numbered by its selection index + 1. No handler
    surrounds the rename, so a failure ends the run.
   */
  function LegacyRename(s: Scene, newName: string, host: Host): Reply
  {
    var p := NumberingPattern(newName);
    if !ValidateHashes(p) then Warned(Rename.InvalidHashBlock)
    else Done(RenameAll(s, Jobs(SortedSelection(s), Numbered(p)), Batch.StopAtFailure, host))
  }

  /** The pattern is refused, with the warning, exactly when its `#` (after the appended one) are not one block. */
  lemma {:induction false} LegacyRenameWarns(s: Scene, newName: string, host: Host)
    ensures LegacyRename(s, newName, host).Warned? <==> !OneHashRun(NumberingPattern(newName))
    ensures LegacyRename(s, newName, host).Warned? ==> LegacyRename(s, newName, host).message == "Invalid hash block"
  {
  }

  /**
    Each rename reaches the selected node whose path it recorded and gives
    it the number of that node's place in the selection; the first
    failure ends the run.
   */
  lemma {:induction false} LegacyRenameReaches(s: Scene, newName: string, host: Host)
    requires WellFormed(s) && KeepsShape(host) && MovesSubtree(host)
    ensures var r := LegacyRename(s, newName, host);
      var es := SortedSelection(s);
      r.Done? ==>
        && PathStopShape(r.run.calls, r.run.stopped, |s.selection|)
        && |r.run.calls| <= |es|
        && forall k :: 0 <= k < |r.run.calls| ==>
             && es[k].index < |s.selection|
             && r.run.calls[k].node == Some(s.selection[es[k].index])
             && r.run.calls[k].job.name == HashTarget(NumberingPattern(newName), es[k].index)
  {
    var p := NumberingPattern(newName);
    if ValidateHashes(p) {
      var es := SortedSelection(s);
      var paths := SelectedPaths(s);
      var jobs := Jobs(es, Numbered(p));
      var r := RenameAll(s, jobs, Batch.StopAtFailure, host);
      assert |paths| == |s.selection|;
      EachIndexOnce(paths);
      SortedSelectionReaches(s, Numbered(p), Batch.StopAtFailure, host);
      RenameAllStops(s, jobs, host);
      forall k | 0 <= k < |r.calls|
        ensures es[k].index < |s.selection|
        ensures r.calls[k].node == Some(s.selection[es[k].index])
        ensures r.calls[k].job.name == HashTarget(p, es[k].index)
      {
        assert Recorded(paths, es[k]);
        TargetAt(s, es, k);
        JobAt(es, Numbered(p), k);
      }
    }
  }

  /**
    `removeFirstChar` / `removeLastChar` as written: the selection's paths
    recorded up front and renamed in selection order; a failed rename is
    printed and skipped.
   */
  function RemoveCharAsWritten(s: Scene, position: CharacterRemovalPosition, host: Host): PathRun
  {
    RenameAll(s, Jobs(Entries(SelectedPaths(s)), Cut(position)), Batch.SkipFailures, host)
  }

  /** The same renames taken deepest first, as `rename` takes them. */
  function RemoveChar(s: Scene, position: CharacterRemovalPosition, host: Host): PathRun
  {
    RenameAll(s, Jobs(SortedSelection(s), Cut(position)), Batch.SkipFailures, host)
  }

  /**
    Taken deepest first, every selected node gets a rename of its own,
    reaching it, to its short name cut by one character.
   */
  lemma {:induction false} RemoveCharReaches(s: Scene, position: CharacterRemovalPosition, host: Host, v: Uuid)
    requires WellFormed(s) && KeepsShape(host) && MovesSubtree(host) && v in s.selection
    ensures v in s.nodes
    ensures var r := RemoveChar(s, position, host);
      && |r.calls| == |s.selection|
      && exists k :: 0 <= k < |r.calls| && r.calls[k].node == Some(v) && r.calls[k].job.name == Unguarded(ShortOf(s, v), position)
  {
    var paths := SelectedPaths(s);
    var es := SortedSelection(s);
    var jobs := Jobs(es, Cut(position));
    var us := Targets(s, es);
    var r := RemoveChar(s, position, host);
    SelectedPathsAre(s);
    EachIndexOnce(paths);
    SortedSelectionReaches(s, Cut(position), Batch.SkipFailures, host);
    RenameAllKeepsGoing(s, jobs, host);
    var i :| 0 <= i < |s.selection| && s.selection[i] == v;
    var e := Entry(paths[i], Count('|', paths[i]), i);
    assert e in es;
    var k :| 0 <= k < |es| && es[k] == e;
    TargetAt(s, es, k);
    JobAt(es, Cut(position), k);
    assert r.calls[k].job == jobs[k] && r.calls[k].node == Some(us[k]);
  }

  /** Entry `k` of the targets is the selected node its entry records. */
  lemma {:induction false} TargetAt(s: Scene, es: seq<Entry>, k: nat)
    requires k < |es| && es[k].index < |s.selection|
    ensures |Targets(s, es)| == |es| && Targets(s, es)[k] == s.selection[es[k].index]
  {
  }

  /** Job `k` renames entry `k`'s path. */
  lemma {:induction false} JobAt(es: seq<Entry>, a: Action, k: nat)
    requires k < |es|
    ensures |Jobs(es, a)| == |es| && Jobs(es, a)[k] == Job(es[k].path, JobName(a, es[k]))
  {
  }

  /**
    Moving the node at `d + short` to `d + name`, a different name,
    leaves no node (the moved one, one below it, or any other) at `gone`,
    the old path of one of its descendants.
   */
  lemma {:induction false} MovedAway(n: Node, isTarget: bool, d: string, short: string, name: string, gone: string)
    requires Lacks('|', short) && Lacks('|', name) && name != short
    requires IsAncestorPath(d + short, gone)
    requires isTarget ==> n.path == d + short
    requires !isTarget && !IsAncestorPath(d + short, n.path) ==> n.path != gone
    ensures Moved(n, isTarget, d + short, d + name).path != gone
  {
    var from := d + short;
    var restC := gone[|from|..];
    assert gone == from + restC && gone == d + (short + restC);
    if isTarget {
      DifferentHeads(name, [], short, restC);
      assert d + name == d + (name + []);
      DifferentTails(d, name + [], short + restC);
    } else if IsAncestorPath(from, n.path) {
      var restW := n.path[|from|..];
      DifferentHeads(name, restW, short, restC);
      assert (d + name) + restW == d + (name + restW);
      DifferentTails(d, name + restW, short + restC);
    }
  }

  /** Once `p` is renamed to a different name, no node has the old path of one of its descendants. */
  lemma {:induction false} OldChildPathGone(s: Scene, p: Uuid, name: string, c: Uuid)
    requires UniquePaths(s.nodes) && p in s.nodes && c in s.nodes
    requires IsAncestorPath(s.nodes[p].path, s.nodes[c].path)
    requires ValidName(name) && name != ShortOf(s, p)
    ensures forall w :: w in s.nodes ==> Relabelled(s, p, name)[w].path != s.nodes[c].path
  {
    var P := s.nodes[p].path;
    var D := Dir(P);
    DirSpec(P);
    ShortNameSpec(P);
    forall w | w in s.nodes
      ensures Relabelled(s, p, name)[w].path != s.nodes[c].path
    {
      assert Relabelled(s, p, name)[w] == Moved(s.nodes[w], w == p, P, D + name);
      if w != p && !IsAncestorPath(P, s.nodes[w].path) {
        assert w != c;
      }
      MovedAway(s.nodes[w], w == p, D, ShortName(P), name, s.nodes[c].path);
    }
  }

  /** Two recorded renames where the first succeeds and leaves the second path leading nowhere. */
  lemma {:induction false} SecondPathStale(s: Scene, jobs: seq<Job>, u: Uuid, s1: Scene, host: Host)
    requires |jobs| == 2
    requires Resolve(s, jobs[0].path) == Some(u) && host(s, u, jobs[0].name) == Some(s1)
    requires Resolve(s1, jobs[1].path).None?
    ensures var r := RenameAll(s, jobs, Batch.SkipFailures, host);
      && |r.calls| == 2 && r.scene == s1
      && r.calls[0] == PathCall(jobs[0], Some(u), true)
      && r.calls[1] == PathCall(jobs[1], None, false)
  {
    var rest := jobs[1..];
    assert rest[0] == jobs[1] && rest[1..] == [];
    assert RenameAll(s1, rest, Batch.SkipFailures, host) == PathRun(s1, [PathCall(jobs[1], None, false)], false);
  }

  /** The trimming jobs recorded for two paths, in their order. */
  lemma {:induction false} TwoPathJobs(paths: seq<string>, position: CharacterRemovalPosition)
    requires |paths| == 2
    ensures var jobs := Jobs(Entries(paths), Cut(position));
      && |jobs| == 2
      && jobs[0] == Job(paths[0], Unguarded(ShortName(paths[0]), position))
      && jobs[1] == Job(paths[1], Unguarded(ShortName(paths[1]), position))
  {
    var es := Entries(paths);
    var jobs := Jobs(es, Cut(position));
    assert es[0] == Entry(paths[0], Count('|', paths[0]), 0);
    assert es[1] == Entry(paths[1], Count('|', paths[1]), 1);
    assert jobs[0] == Job(es[0].path, JobName(Cut(position), es[0]));
    assert jobs[1] == Job(es[1].path, JobName(Cut(position), es[1]));
  }

  /** The recorded jobs of a two-node selection. */
  lemma {:induction false} TwoJobs(s: Scene, position: CharacterRemovalPosition, p: Uuid, c: Uuid)
    requires WellFormed(s) && s.selection == [p, c]
    ensures p in s.nodes && c in s.nodes
    ensures var jobs := Jobs(Entries(SelectedPaths(s)), Cut(position));
      && |jobs| == 2
      && jobs[0] == Job(s.nodes[p].path, Unguarded(ShortOf(s, p), position))
      && jobs[1] == Job(s.nodes[c].path, Unguarded(ShortOf(s, c), position))
  {
    SelectedPathsAre(s);
    var paths := SelectedPaths(s);
    assert paths[0] == s.nodes[p].path && paths[1] == s.nodes[c].path;
    TwoPathJobs(paths, position);
  }

  /**
    As written, a selected child of a selected parent picked before it is
    never trimmed: the parent's rename moves the child, the path recorded
    for the child leads nowhere, and the failure is skipped.
   */
  lemma {:induction false} RemoveCharAsWrittenLosesChild(s: Scene, position: CharacterRemovalPosition, p: Uuid, c: Uuid)
    requires WellFormed(s) && s.selection == [p, c]
    requires IsAncestorPath(s.nodes[p].path, s.nodes[c].path)
    requires RenameNode(s, p, Unguarded(ShortOf(s, p), position)).Some?
    ensures var r := RemoveCharAsWritten(s, position, RenameNode);
      && |r.calls| == 2 && r.calls[0].ok
      && r.calls[1].node.None? && !r.calls[1].ok
      && c in r.scene.nodes && ShortOf(r.scene, c) == ShortOf(s, c)
  {
    var name := Unguarded(ShortOf(s, p), position);
    TwoJobs(s, position, p, c);
    var jobs := Jobs(Entries(SelectedPaths(s)), Cut(position));
    ResolveOwnPath(s, p);
    var s1 := RenameNode(s, p, name).value;
    assert s1.nodes == Relabelled(s, p, name) && s1.order == s.order;
    assert |name| + 1 == |ShortOf(s, p)|;
    OldChildPathGone(s, p, name, c);
    assert Resolve(s1, jobs[1].path).None?;
    SecondPathStale(s, jobs, p, s1, RenameNode);
    RelabelledKeepsOtherNames(s, p, name);
  }

  // ---------------------------------------------------------------------
  // Duplicated short names
  // ---------------------------------------------------------------------

  /** One entry of the `shortNames` dictionary: a short name and the paths listed under it. */
  datatype Group = Group(key: string, members: seq<string>)

  /** `shortNames[key].append(obj)` when the key is there, `shortNames[key] = [obj]` otherwise. */
  function AddTo(groups: seq<Group>, key: string, path: string): seq<Group>
    decreases |groups|
  {
    if groups == [] then [Group(key, [path])]
    else if groups[0].key == key then [Group(key, groups[0].members + [path])] + groups[1..]
    else [groups[0]] + AddTo(groups[1..], key, path)
  }

  /** The `shortNames` dictionary after the loop over the listed paths, keys in order of first appearance. */
  function GroupByShortName(paths: seq<string>): seq<Group>
    decreases |paths|
  {
    if paths == [] then []
    else
      var last := paths[|paths| - 1];
      AddTo(GroupByShortName(paths[..|paths| - 1]), ShortName(last), last)
  }

  /** The listed paths with short name `key`, in listing order. */
  function WithShortName(paths: seq<string>, key: string): seq<string>
    decreases |paths|
  {
    if paths == [] then []
    else
      var rest := WithShortName(paths[..|paths| - 1], key);
      if ShortName(paths[|paths| - 1]) == key then rest + [paths[|paths| - 1]] else rest
  }

  /** Keys are distinct. */
  predicate DistinctKeys(groups: seq<Group>)
  {
    forall i, j :: 0 <= i < j < |groups| ==> groups[i].key != groups[j].key
  }

  /**
    The dictionary groups `paths` by short name: keys are distinct, each
    group holds exactly the paths with its key, and every path's short
    name is a key.
   */
  predicate GroupsOf(groups: seq<Group>, paths: seq<string>)
  {
    && DistinctKeys(groups)
    && (forall i :: 0 <= i < |groups| ==> groups[i].members == WithShortName(paths, groups[i].key) && groups[i].members != [])
    && (forall q :: q in paths ==> exists i :: 0 <= i < |groups| && groups[i].key == ShortName(q))
  }

  /** Adding to a key that is there appends to its group and changes nothing else. */
  lemma {:induction false} AddToPresent(groups: seq<Group>, key: string, path: string, i: nat)
    requires i < |groups| && groups[i].key == key
    requires forall j :: 0 <= j < i ==> groups[j].key != key
    ensures AddTo(groups, key, path) == groups[i := Group(key, groups[i].members + [path])]
    decreases i
  {
    if i > 0 {
      AddToPresent(groups[1..], key, path, i - 1);
      assert [groups[0]] + groups[1..][i - 1 := Group(key, groups[i].members + [path])] == groups[i := Group(key, groups[i].members + [path])];
    }
  }

  /** Adding a new key puts its group last. */
  lemma {:induction false} AddToAbsent(groups: seq<Group>, key: string, path: string)
    requires forall j :: 0 <= j < |groups| ==> groups[j].key != key
    ensures AddTo(groups, key, path) == groups + [Group(key, [path])]
    decreases |groups|
  {
    if groups != [] {
      AddToAbsent(groups[1..], key, path);
      assert [groups[0]] + (groups[1..] + [Group(key, [path])]) == groups + [Group(key, [path])];
    }
  }

  /** Filtering one more path. */
  lemma {:induction false} WithShortNameSnoc(paths: seq<string>, x: string, key: string)
    ensures WithShortName(paths + [x], key) == if ShortName(x) == key then WithShortName(paths, key) + [x] else WithShortName(paths, key)
  {
    assert (paths + [x])[..|paths|] == paths;
  }

  /** A path is in the filter exactly when it is listed and has the key. */
  lemma {:induction false} WithShortNameMembers(paths: seq<string>, key: string)
    ensures forall x :: x in WithShortName(paths, key) <==> x in paths && ShortName(x) == key
    decreases |paths|
  {
    if paths != [] {
      var init := paths[..|paths| - 1];
      WithShortNameMembers(init, key);
      assert paths == init + [paths[|paths| - 1]];
    }
  }

  /** One more path under a key that is there keeps the dictionary a grouping. */
  lemma {:induction false} AddToGroupsPresent(groups: seq<Group>, paths: seq<string>, x: string, i: nat)
    requires GroupsOf(groups, paths) && i < |groups| && groups[i].key == ShortName(x)
    ensures GroupsOf(AddTo(groups, ShortName(x), x), paths + [x])
  {
    var key := ShortName(x);
    var all := paths + [x];
    AddToPresent(groups, key, x, i);
    var r := groups[i := Group(key, groups[i].members + [x])];
    forall j | 0 <= j < |r|
      ensures r[j].key == groups[j].key
      ensures r[j].members == WithShortName(all, r[j].key) && r[j].members != []
    {
      WithShortNameSnoc(paths, x, groups[j].key);
    }
    forall q | q in all
      ensures exists j :: 0 <= j < |r| && r[j].key == ShortName(q)
    {
      if q != x {
        assert q in paths;
        var j :| 0 <= j < |groups| && groups[j].key == ShortName(q);
        assert r[j].key == groups[j].key;
      } else {
        assert r[i].key == key;
      }
    }
  }

  /** One more path under a new key keeps the dictionary a grouping. */
  lemma {:induction false} AddToGroupsAbsent(groups: seq<Group>, paths: seq<string>, x: string)
    requires GroupsOf(groups, paths)
    requires forall j :: 0 <= j < |groups| ==> groups[j].key != ShortName(x)
    ensures GroupsOf(AddTo(groups, ShortName(x), x), paths + [x])
  {
    var key := ShortName(x);
    var all := paths + [x];
    AddToAbsent(groups, key, x);
    var r := groups + [Group(key, [x])];
    WithShortNameMembers(paths, key);
    assert WithShortName(paths, key) == [] by {
      if WithShortName(paths, key) != [] {
        assert WithShortName(paths, key)[0] in WithShortName(paths, key);
      }
    }
    forall j | 0 <= j < |r|
      ensures r[j].members == WithShortName(all, r[j].key) && r[j].members != []
    {
      WithShortNameSnoc(paths, x, r[j].key);
      if j < |groups| {
        assert r[j] == groups[j];
      }
    }
    forall q | q in all
      ensures exists j :: 0 <= j < |r| && r[j].key == ShortName(q)
    {
      if q != x {
        assert q in paths;
        var j :| 0 <= j < |groups| && groups[j].key == ShortName(q);
        assert r[j] == groups[j];
      } else {
        assert r[|groups|].key == key;
      }
    }
  }

  /** One more path keeps the dictionary a grouping. */
  lemma {:induction false} AddToGroups(groups: seq<Group>, paths: seq<string>, x: string)
    requires GroupsOf(groups, paths)
    ensures GroupsOf(AddTo(groups, ShortName(x), x), paths + [x])
  {
    if i :| 0 <= i < |groups| && groups[i].key == ShortName(x) {
      AddToGroupsPresent(groups, paths, x, i);
    } else {
      AddToGroupsAbsent(groups, paths, x);
    }
  }

  /** The loop builds a grouping of the listed paths. */
  lemma {:induction false} GroupByShortNameGroups(paths: seq<string>)
    ensures GroupsOf(GroupByShortName(paths), paths)
    decreases |paths|
  {
    if paths != [] {
      var init := paths[..|paths| - 1];
      var last := paths[|paths| - 1];
      GroupByShortNameGroups(init);
      AddToGroups(GroupByShortName(init), init, last);
      assert init + [last] == paths;
    }
  }

  /** Two listed paths sharing a short name put at least two paths under it. */
  lemma {:induction false} SharedMeansTwo(paths: seq<string>, i: nat, j: nat)
    requires i < j < |paths|
    ensures ShortName(paths[i]) == ShortName(paths[j]) ==> |WithShortName(paths, ShortName(paths[j]))| >= 2
    decreases |paths|
  {
    if ShortName(paths[i]) != ShortName(paths[j]) {
      return;
    }
    var key := ShortName(paths[j]);
    var init := paths[..|paths| - 1];
    assert paths[i] == init[i];
    if j == |paths| - 1 {
      WithShortNameMembers(init, key);
      assert paths[i] in WithShortName(init, key);
    } else {
      assert paths[j] == init[j];
      SharedMeansTwo(init, i, j);
    }
  }

  /** At least two paths under a short name come from two listed paths that share it. */
  lemma {:induction false} TwoMeansShared(paths: seq<string>, key: string)
    requires |WithShortName(paths, key)| >= 2
    ensures exists i, j :: 0 <= i < j < |paths| && ShortName(paths[i]) == key && ShortName(paths[j]) == key
    decreases |paths|
  {
    var init := paths[..|paths| - 1];
    if ShortName(paths[|paths| - 1]) == key {
      WithShortNameMembers(init, key);
      assert WithShortName(init, key)[0] in WithShortName(init, key);
      var i :| 0 <= i < |init| && init[i] == WithShortName(init, key)[0];
      assert paths[i] == init[i];
    } else {
      TwoMeansShared(init, key);
      var i, j :| 0 <= i < j < |init| && ShortName(init[i]) == key && ShortName(init[j]) == key;
      assert paths[i] == init[i] && paths[j] == init[j];
    }
  }

  /** `for key in shortNames: if len(shortNames[key]) > 1: toSelect = shortNames[key]`: the last shared group wins. */
  function LastShared(groups: seq<Group>, toSelect: seq<string>): seq<string>
    decreases |groups|
  {
    if groups == [] then toSelect
    else LastShared(groups[1..], if |groups[0].members| > 1 then groups[0].members else toSelect)
  }

  /** Some group has more than one member. */
  predicate SomeShared(groups: seq<Group>)
  {
    exists i :: 0 <= i < |groups| && |groups[i].members| > 1
  }

  /** The loop keeps its start value when no group has two members, and otherwise ends on a group that has. */
  lemma {:induction false} LastSharedPicks(groups: seq<Group>, toSelect: seq<string>)
    ensures !SomeShared(groups) ==> LastShared(groups, toSelect) == toSelect
    ensures SomeShared(groups) ==>
      exists i :: 0 <= i < |groups| && |groups[i].members| > 1 && LastShared(groups, toSelect) == groups[i].members
    decreases |groups|
  {
    if groups != [] {
      var t := groups[1..];
      var next := if |groups[0].members| > 1 then groups[0].members else toSelect;
      LastSharedPicks(t, next);
      if SomeShared(t) {
        var i :| 0 <= i < |t| && |t[i].members| > 1 && LastShared(t, next) == t[i].members;
        assert t[i] == groups[i + 1];
      } else {
        forall i | 0 < i < |groups|
          ensures |groups[i].members| <= 1
        {
          assert groups[i] == t[i - 1];
        }
      }
    }
  }

  /** `selectedDuplicatedNames`: warn, or select the paths of a short name listed more than once. */
  datatype Selection = NoDuplicates(message: string) | SelectPaths(paths: seq<string>)

  function SelectedDuplicatedNames(s: Scene): Selection
  {
    var toSelect := LastShared(GroupByShortName(AllPaths(s)), []);
    if |toSelect| == 0 then NoDuplicates("No Duplicated Names") else SelectPaths(toSelect)
  }

  /**
    Nothing is selected, with the warning, exactly when no two listed paths
    share a short name; otherwise the selection is every listed path with
    one shared short name, at least two of them.
   */
  lemma {:induction false} SelectedDuplicatedNamesSpec(s: Scene)
    ensures var items := AllPaths(s);
      var r := SelectedDuplicatedNames(s);
      && (r.NoDuplicates? <==> forall i, j :: 0 <= i < j < |items| ==> ShortName(items[i]) != ShortName(items[j]))
      && (r.NoDuplicates? ==> r.message == "No Duplicated Names")
      && (r.SelectPaths? ==> |r.paths| >= 2 && r.paths == WithShortName(items, ShortName(r.paths[0])))
  {
    var items := AllPaths(s);
    var groups := GroupByShortName(items);
    GroupByShortNameGroups(items);
    LastSharedPicks(groups, []);
    if SomeShared(groups) {
      var g :| 0 <= g < |groups| && |groups[g].members| > 1 && LastShared(groups, []) == groups[g].members;
      var key := groups[g].key;
      WithShortNameMembers(items, key);
      assert groups[g].members[0] in WithShortName(items, key);
      TwoMeansShared(items, key);
    } else {
      forall i, j | 0 <= i < j < |items|
        ensures ShortName(items[i]) != ShortName(items[j])
      {
        assert items[j] in items;
        var g :| 0 <= g < |groups| && groups[g].key == ShortName(items[j]);
        assert |WithShortName(items, ShortName(items[j]))| <= 1;
        SharedMeansTwo(items, i, j);
      }
    }
  }
}

=== FILE: names.dfy ===
/**
  The per-node name rules of the renamer: given the short name a node has
  now (and, for numbering, its position in the batch), the name it is to
  be given, or `None` when the rule leaves the node alone.
 */
module Names {
  import opened Opt
  import opened Text
  import opened Numbering
  import opened Enums

  /**
    `new_name.replace('#' * w, padding)` with `w` the number of `#` in the
    pattern and `padding` the 1-based position `index + 1` padded to `w`
    digits.
   */
  function HashTarget(pattern: string, index: nat): string
  {
    var w := Count('#', pattern);
    ReplaceAll(pattern, Repeat('#', w), Pad(index + 1, w))
  }

  /** Where a non-empty string occurs, its first character is. */
  lemma {:induction false} OccursAtHead(s: string, t: string, j: nat)
    requires t != [] && OccursAt(s, t, j)
    ensures s[j] == t[0]
  {
    assert s[j..j + |t|][0] == s[j];
  }

  /** Before the run no block of `w` hashes can start. */
  lemma {:induction false} NoHashesBeforeRun(pattern: string, i: nat, w: nat, j: nat)
    requires w >= 1 && HashRunAt(pattern, i, w) && j < i
    ensures !OccursAt(pattern, Repeat('#', w), j)
  {
    if OccursAt(pattern, Repeat('#', w), j) {
      OccursAtHead(pattern, Repeat('#', w), j);
      assert false;
    }
  }

  /** After the run there is no `#` at all. */
  lemma {:induction false} NoHashAfterRun(pattern: string, i: nat, w: nat)
    requires HashRunAt(pattern, i, w)
    ensures Lacks('#', pattern[i + w..])
  {
    var after := pattern[i + w..];
    forall k | 0 <= k < |after|
      ensures after[k] != '#'
    {
      assert after[k] == pattern[i + w + k];
    }
  }

  /** A string without `#` contains no non-empty block of hashes. */
  lemma {:induction false} NoHashesInHashFree(s: string, w: nat)
    requires w >= 1 && Lacks('#', s)
    ensures !Contains(s, Repeat('#', w))
  {
    if Contains(s, Repeat('#', w)) {
      var j: nat :| j <= |s| && OccursAt(s, Repeat('#', w), j);
      OccursAtHead(s, Repeat('#', w), j);
      assert false;
    }
  }

  /** Replacing the block of a one-run pattern by any text replaces exactly that block. */
  lemma {:induction false} ReplaceSingleRun(pattern: string, i: nat, w: nat, pad: string)
    requires w >= 1 && HashRunAt(pattern, i, w)
    ensures ReplaceAll(pattern, Repeat('#', w), pad) == pattern[..i] + pad + pattern[i + w..]
  {
    var hashes := Repeat('#', w);
    var after := pattern[i + w..];
    assert OccursAt(pattern, hashes, i) by {
      assert pattern[i..i + w] == hashes;
    }
    forall j: nat | j < i
      ensures !OccursAt(pattern, hashes, j)
    {
      NoHashesBeforeRun(pattern, i, w, j);
    }
    ReplaceAllAtFirst(pattern, hashes, pad, i);
    NoHashAfterRun(pattern, i, w);
    NoHashesInHashFree(after, w);
    ReplaceAllWithoutMatch(after, hashes, pad);
  }

  /**
    For a pattern whose `#` form one run at `i`, the target keeps the text
    before and after the run and puts the padded number in its place:
    exactly one block is replaced.
   */
  lemma {:induction false} HashTargetShape(pattern: string, i: nat, index: nat)
    requires Count('#', pattern) >= 1
    requires HashRunAt(pattern, i, Count('#', pattern))
    ensures var w := Count('#', pattern);
      HashTarget(pattern, index) == pattern[..i] + Pad(index + 1, w) + pattern[i + w..]
  {
    ReplaceSingleRun(pattern, i, Count('#', pattern), Pad(index + 1, Count('#', pattern)));
  }

  /** A digit string has no `#`. */
  lemma {:induction false} DigitsLackHash(d: string)
    requires AllDigits(d)
    ensures Lacks('#', d)
  {
    forall k | 0 <= k < |d|
      ensures d[k] != '#'
    {
      assert IsDigit(d[k]);
    }
  }

  /** Before the run there is no `#`. */
  lemma {:induction false} NoHashBeforeRun(pattern: string, i: nat, w: nat)
    requires HashRunAt(pattern, i, w)
    ensures Lacks('#', pattern[..i])
  {
    forall k | 0 <= k < i
      ensures pattern[..i][k] != '#'
    {
      assert pattern[..i][k] == pattern[k];
    }
  }

  /** The numbered name has no `#` left, and its length changes by the run's width. */
  lemma {:induction false} HashTargetHasNoHash(pattern: string, i: nat, index: nat)
    requires Count('#', pattern) >= 1
    requires HashRunAt(pattern, i, Count('#', pattern))
    ensures Lacks('#', HashTarget(pattern, index))
    ensures |HashTarget(pattern, index)| == |pattern| - Count('#', pattern) + |Pad(index + 1, Count('#', pattern))|
  {
    var w := Count('#', pattern);
    var pad := Pad(index + 1, w);
    HashTargetShape(pattern, i, index);
    NoHashBeforeRun(pattern, i, w);
    DigitsLackHash(pad);
    NoHashAfterRun(pattern, i, w);
    LacksConcat('#', pattern[..i], pad);
    LacksConcat('#', pattern[..i] + pad, pattern[i + w..]);
  }

  /** `affix + short` for a prefix, `short + affix` for a suffix. */
  function AffixedName(short: string, affix: string, kind: AffixType): (r: string)
    ensures |r| == |short| + |affix|
    ensures kind == Prefix ==> r[..|affix|] == affix && r[|affix|..] == short
    ensures kind == Suffix ==> r[..|short|] == short && r[|short|..] == affix
  {
    if kind == Prefix then affix + short else short + affix
  }

  /**
    `short[1:]` or `short[:-1]`, guarded by `len(short) > 1`: names of one
    character or none are left alone.
   */
  function TrimmedName(short: string, position: CharacterRemovalPosition): (r: Option<string>)
    ensures r.Some? <==> |short| > 1
    ensures r.Some? ==> |r.value| == |short| - 1
    ensures r.Some? && position == First ==> short == [short[0]] + r.value
    ensures r.Some? && position == Last ==> short == r.value + [short[|short| - 1]]
  {
    if |short| <= 1 then None
    else if position == First then Some(short[1..])
    else Some(short[..|short| - 1])
  }

  /** Trimming undoes a one-character affix on the same side. */
  lemma {:induction false} TrimUndoesAffix(short: string, c: char)
    requires |short| >= 1
    ensures TrimmedName(AffixedName(short, [c], Prefix), First) == Some(short)
    ensures TrimmedName(AffixedName(short, [c], Suffix), Last) == Some(short)
  {
    assert ([c] + short)[1..] == short;
    assert (short + [c])[..|short|] == short;
  }

  /**
    Search-and-replace on one short name: nodes whose name does not contain
    `search` are left alone, the others get `short.replace(search, rep)`.
   */
  function ReplacedName(short: string, search: string, rep: string): (r: Option<string>)
    ensures r.Some? <==> Contains(short, search)
    ensures r.Some? && search != [] ==> r.value == ReplaceByFind(short, search, rep)
    ensures r.Some? && search == [] ==> r.value == Interleave(short, rep)
  {
    if !Contains(short, search) then None
    else if search == [] then
      ReplaceAllEmpty(short, rep);
      Some(ReplaceAll(short, search, rep))
    else
      ReplaceAllIsReplaceByFind(short, search, rep);
      Some(ReplaceAll(short, search, rep))
  }

  /** The name rule a batch applies to each of its nodes. */
  datatype Op =
    | Number(pattern: string)
    | Affix(affix: string, kind: AffixType)
    | Trim(position: CharacterRemovalPosition)
    | Replace(search: string, replacement: string)

  /** The name the rule gives the node at batch position `index` whose name text is `subject`. */
  function Proposal(op: Op, index: nat, subject: string): Option<string>
  {
    match op
    case Number(p) => Some(HashTarget(p, index))
    case Affix(a, k) => Some(AffixedName(subject, a, k))
    case Trim(pos) => TrimmedName(subject, pos)
    case Replace(search, rep) => ReplacedName(subject, search, rep)
  }
}

=== FILE: numbering.dfy ===
/**
  The pieces of sequential numbering: `str(n)`, `str.rjust(width, '0')`,
  the value a digit string denotes, and the test that every `#` of a
  pattern sits in one contiguous run (`count('#') * '#' in pattern`).
 */
module Numbering {
  import opened Text

  function Pow10(n: nat): (r: nat)
    ensures r >= 1
  {
    if n == 0 then 1 else 10 * Pow10(n - 1)
  }

  lemma {:induction false} Pow10Monotone(a: nat, b: nat)
    requires a <= b
    ensures Pow10(a) <= Pow10(b)
    decreases b
  {
    if a < b {
      Pow10Monotone(a, b - 1);
    }
  }

  predicate IsDigit(c: char)
  {
    '0' <= c <= '9'
  }

  predicate AllDigits(s: string)
  {
    forall k :: 0 <= k < |s| ==> IsDigit(s[k])
  }

  function DigitChar(d: nat): (c: char)
    requires d < 10
    ensures IsDigit(c) && DigitValue(c) == d
  {
    (d + '0' as int) as char
  }

  function DigitValue(c: char): (d: nat)
    requires IsDigit(c)
    ensures d < 10
  {
    c as int - '0' as int
  }

  /** The number a digit string denotes, most significant digit first. */
  function DecimalValue(s: string): nat
    requires AllDigits(s)
  {
    if s == [] then 0
    else 10 * DecimalValue(s[..|s| - 1]) + DigitValue(s[|s| - 1])
  }

  /**
    Python's `str(n)` for a natural number: the digits of `n` without a
    leading zero, as few as `n` needs.
   */
  function Decimal(n: nat): (r: string)
    ensures 1 <= |r| && AllDigits(r)
    ensures DecimalValue(r) == n
    ensures |r| > 1 ==> r[0] != '0'
    ensures n < Pow10(|r|)
    ensures |r| > 1 ==> Pow10(|r| - 1) <= n
  {
    if n < 10 then [DigitChar(n)]
    else
      var init := Decimal(n / 10);
      var r := init + [DigitChar(n % 10)];
      assert r[..|r| - 1] == init;
      r
  }

  /** Python's `s.rjust(width, fill)`. */
  function RJust(s: string, width: nat, fill: char): (r: string)
    ensures |r| == if width > |s| then width else |s|
    ensures r[|r| - |s|..] == s
    ensures forall k :: 0 <= k < |r| - |s| ==> r[k] == fill
  {
    if width > |s| then Repeat(fill, width - |s|) + s else s
  }

  lemma {:induction false} ZerosHaveNoValue(k: nat)
    ensures AllDigits(Repeat('0', k)) && DecimalValue(Repeat('0', k)) == 0
  {
    if k > 0 {
      var z := Repeat('0', k);
      assert z[..k - 1] == Repeat('0', k - 1);
      ZerosHaveNoValue(k - 1);
    }
  }

  /** Leading zeros do not change the value of a digit string. */
  lemma {:induction false} LeadingZeros(k: nat, s: string)
    requires AllDigits(s)
    ensures AllDigits(Repeat('0', k) + s)
    ensures DecimalValue(Repeat('0', k) + s) == DecimalValue(s)
    decreases |s|
  {
    var z := Repeat('0', k);
    if s == [] {
      assert z + s == z;
      ZerosHaveNoValue(k);
    } else {
      var init := s[..|s| - 1];
      assert (z + s)[..|z + s| - 1] == z + init;
      LeadingZeros(k, init);
    }
  }

  /** A positive number has at most `width` digits exactly when it is below 10^width. */
  lemma {:induction false} DigitsFit(n: nat, width: nat)
    ensures width >= 1 ==> (|Decimal(n)| <= width <==> n < Pow10(width))
  {
    var d := |Decimal(n)|;
    if width == 0 {
    } else if d <= width {
      Pow10Monotone(d, width);
    } else {
      Pow10Monotone(width, d - 1);
    }
  }

  /**
    `str(n).rjust(width, '0')`: the padded sequence number. It denotes `n`,
    it is `width` long exactly when `n` fits in `width` digits, and longer
    (all of `n`'s digits) otherwise.
   */
  function Pad(n: nat, width: nat): (r: string)
    ensures AllDigits(r) && DecimalValue(r) == n
    ensures |r| == if width > |Decimal(n)| then width else |Decimal(n)|
    ensures width >= 1 ==> (|r| == width <==> n < Pow10(width))
  {
    var digits := Decimal(n);
    var zeros := if width > |digits| then width - |digits| else 0;
    assert RJust(digits, width, '0') == Repeat('0', zeros) + digits;
    LeadingZeros(zeros, digits);
    DigitsFit(n, width);
    RJust(digits, width, '0')
  }

  /** Python's `'#' not in name` check followed by `name += '#'`. */
  function NumberingPattern(name: string): (r: string)
    ensures r == name || r == name + "#"
    ensures r == name <==> !Lacks('#', name)
    ensures Count('#', r) >= 1
  {
    CountZero('#', name);
    if Lacks('#', name) then
      CountAppend('#', name, "#");
      name + "#"
    else name
  }

  /** `count('#') * '#' in p`: the contiguity test. */
  predicate ValidHashBlock(p: string)
  {
    Contains(p, Repeat('#', Count('#', p)))
  }

  /** All `#` of `p` lie in `p[i..i + w]`, and that stretch is all `#`. */
  predicate HashRunAt(p: string, i: nat, w: nat)
  {
    && i + w <= |p|
    && (forall k :: i <= k < i + w ==> p[k] == '#')
    && (forall k :: 0 <= k < |p| && (k < i || i + w <= k) ==> p[k] != '#')
  }

  lemma {:induction false} CountRepeat(c: char, n: nat)
    ensures Count(c, Repeat(c, n)) == n
  {
    if n > 0 {
      assert Repeat(c, n)[1..] == Repeat(c, n - 1);
      CountRepeat(c, n - 1);
    }
  }

  /** A block of hashes with no `#` on either side is a run holding every `#`. */
  lemma {:induction false} RunBetweenHashFree(p: string, i: nat, w: nat)
    requires i + w <= |p| && p[i..i + w] == Repeat('#', w)
    requires Lacks('#', p[..i]) && Lacks('#', p[i + w..])
    ensures HashRunAt(p, i, w)
  {
    forall k | i <= k < i + w
      ensures p[k] == '#'
    {
      assert p[k] == p[i..i + w][k - i];
    }
    forall k | 0 <= k < |p| && (k < i || i + w <= k)
      ensures p[k] != '#'
    {
      if k < i {
        assert p[k] == p[..i][k];
      } else {
        assert p[k] == p[i + w..][k - i - w];
      }
    }
  }

  /** A block of all the pattern's `#` holds every `#` of the pattern. */
  lemma {:induction false} RunFromOccurrence(p: string, i: nat)
    requires OccursAt(p, Repeat('#', Count('#', p)), i)
    ensures HashRunAt(p, i, Count('#', p))
  {
    var w := Count('#', p);
    var before, run, after := p[..i], p[i..i + w], p[i + w..];
    assert p == (before + run) + after;
    CountAppend('#', before, run);
    CountAppend('#', before + run, after);
    CountRepeat('#', w);
    CountZero('#', before);
    CountZero('#', after);
    RunBetweenHashFree(p, i, w);
  }

  /** A run of all the pattern's `#` is an occurrence of the block. */
  lemma {:induction false} OccurrenceFromRun(p: string, i: nat)
    requires HashRunAt(p, i, Count('#', p))
    ensures OccursAt(p, Repeat('#', Count('#', p)), i)
  {
    var w := Count('#', p);
    assert p[i..i + w] == Repeat('#', w);
  }

  /** All the `#` of `p` form one contiguous run. */
  predicate OneHashRun(p: string)
  {
    exists i: nat :: i <= |p| && HashRunAt(p, i, Count('#', p))
  }

  /** A pattern passes the contiguity test exactly when its `#` form one run. */
  lemma {:induction false} ValidHashBlockIsOneRun(p: string)
    ensures ValidHashBlock(p) <==> OneHashRun(p)
  {
    var w := Count('#', p);
    if ValidHashBlock(p) {
      var i: nat :| i <= |p| && OccursAt(p, Repeat('#', w), i);
      RunFromOccurrence(p, i);
    }
    if OneHashRun(p) {
      var i: nat :| i <= |p| && HashRunAt(p, i, w);
      OccurrenceFromRun(p, i);
      assert i <= |p| && OccursAt(p, Repeat('#', w), i);
    }
  }

  /** A run holding every `#` of a pattern that has some is unique. */
  lemma {:induction false} HashRunUnique(p: string, i: nat, j: nat, w: nat)
    requires w >= 1 && HashRunAt(p, i, w) && HashRunAt(p, j, w)
    ensures i == j
  {
    assert p[i] == '#' && p[j] == '#';
  }
}

=== FILE: opt.dfy ===
/** The optional value used for every "may be absent" result of the model. */
module Opt {

  datatype Option<+T> = None | Some(value: T)

}

=== FILE: rename.dfy ===
/**
  The operations of the renamer module: numbering the selection from a
  `#` pattern, adding a prefix or suffix, trimming one character,
  search-and-replace over a scope of nodes, and naming shapes after their
  transforms. Each is a batch over node UUIDs against the scene model;
  the host's rename is a parameter, and the proofs assume only the laws
  of `Scene` it must obey (`Scene.RenameNode` obeys them all).
 */
module Rename {
  import opened Opt
  import opened Text
  import opened Numbering
  import opened Enums
  import opened Names
  import opened Scene
  import opened Batch

  /** The warning `hash_rename` issues for a pattern whose `#` are not one block. */
  const InvalidHashBlock: string := "Invalid hash block"

  /** An operation either warns and renames nothing, or runs its batch. */
  datatype Result = Warning(message: string) | Finished(run: Run)

  /**
    `hash_rename`: append `#` to a pattern without one, refuse a pattern
    whose `#` do not form one block, and otherwise number the selection
    from 1. No handler surrounds the rename, so a failure ends the batch.
   */
  function HashRename(s: Scene, newName: string, host: Host): (r: Result)
    ensures r.Warning? ==> r.message == InvalidHashBlock
  {
    var p := NumberingPattern(newName);
    if !ValidHashBlock(p) then Warning(InvalidHashBlock)
    else Finished(Apply(s, s.selection, 0, RuleOf(Number(p)), ShortNameOfPath, StopAtFailure, host))
  }

  /** The pattern is refused exactly when its `#` (after the appended one) do not form one run. */
  lemma {:induction false} HashRenameWarnsOnBrokenRun(s: Scene, newName: string, host: Host)
    ensures HashRename(s, newName, host).Warning? <==> !OneHashRun(NumberingPattern(newName))
  {
    ValidHashBlockIsOneRun(NumberingPattern(newName));
  }

  /** The selection lists only nodes of the scene. */
  lemma {:induction false} SelectionPresent(s: Scene)
    requires WellFormed(s)
    ensures AllPresent(s, s.selection)
  {
    forall k | 0 <= k < |s.selection|
      ensures s.selection[k] in s.nodes
    {
      assert s.selection[k] in s.selection;
    }
  }

  /** A numbering rule names every node. */
  lemma {:induction false} NumberingTotal(p: string)
    ensures Total(RuleOf(Number(p)))
  {
    forall i: nat, t: string
      ensures RuleOf(Number(p))(i, t).Some?
    {
    }
  }

  /**
    `hash_rename` asks for one name per selected node, in selection order;
    the node at position `k` is asked to take the pattern numbered `k + 1`,
    a name without `#`; all requests but the last succeeded, and the batch
    ended early exactly when the last one failed.
   */
  lemma {:induction false} HashRenameCalls(s: Scene, newName: string, host: Host)
    requires WellFormed(s) && KeepsNodes(host) && NamesOne(host) && HashRename(s, newName, host).Finished?
    ensures var p := NumberingPattern(newName);
      var r := HashRename(s, newName, host).run;
      && InOrder(r.calls, s.selection, 0)
      && (forall k :: 0 <= k < |r.calls| ==> r.calls[k].name == HashTarget(p, k) && Lacks('#', r.calls[k].name))
      && StopShape(r.calls, r.stopped, |s.selection|)
  {
    var p := NumberingPattern(newName);
    assert ValidHashBlock(p);
    SelectionPresent(s);
    NumberedBatch(s, s.selection, p, host);
  }

  /**
    Numbering nodes that all exist from a one-run pattern, stopping at the
    first failure: request `k` is for node `k` and asks for the pattern
    numbered `k + 1`, which has no `#`.
   */
  lemma {:induction false} NumberedBatch(s: Scene, todo: seq<Uuid>, p: string, host: Host)
    requires KeepsNodes(host) && NamesOne(host) && AllPresent(s, todo) && NoDups(todo)
    requires ValidHashBlock(p) && Count('#', p) >= 1
    ensures var r := Apply(s, todo, 0, RuleOf(Number(p)), ShortNameOfPath, StopAtFailure, host);
      && InOrder(r.calls, todo, 0)
      && (forall k :: 0 <= k < |r.calls| ==> r.calls[k].name == HashTarget(p, k) && Lacks('#', r.calls[k].name))
      && StopShape(r.calls, r.stopped, |todo|)
  {
    var rule := RuleOf(Number(p));
    var r := Apply(s, todo, 0, rule, ShortNameOfPath, StopAtFailure, host);
    NumberingTotal(p);
    TotalBatchCalls(s, todo, 0, rule, ShortNameOfPath, StopAtFailure, host);
    ApplyStopsAtFailure(s, todo, 0, rule, ShortNameOfPath, host);
    NumberedNamesLackHash(s, todo, p, ShortNameOfPath, r.calls);
  }

  /** Requests that each ask for the pattern numbered by their position carry no `#`. */
  lemma {:induction false} NumberedNamesLackHash(s: Scene, todo: seq<Uuid>, p: string, src: NameSource, calls: seq<Call>)
    requires ValidHashBlock(p) && Count('#', p) >= 1 && |calls| <= |todo| && AllPresent(s, todo)
    requires forall k :: 0 <= k < |calls| ==> Some(calls[k].name) == RuleOf(Number(p))(0 + k, Subject(s, todo[k], src))
    ensures forall k :: 0 <= k < |calls| ==> calls[k].name == HashTarget(p, k) && Lacks('#', calls[k].name)
  {
    ValidHashBlockIsOneRun(p);
    var i: nat :| i <= |p| && HashRunAt(p, i, Count('#', p));
    forall k | 0 <= k < |calls|
      ensures calls[k].name == HashTarget(p, k) && Lacks('#', calls[k].name)
    {
      assert Some(calls[k].name) == Proposal(Number(p), k, Subject(s, todo[k], src));
      HashTargetHasNoHash(p, i, k);
    }
  }

  /**
    After `hash_rename`, a selected node whose rename succeeded has the
    pattern numbered by its selection position plus one; every other node
    keeps its short name.
   */
  lemma {:induction false} HashRenameNames(s: Scene, newName: string, host: Host, v: Uuid)
    requires WellFormed(s) && NamesOne(host) && HashRename(s, newName, host).Finished? && v in s.nodes
    ensures var r := HashRename(s, newName, host).run;
      && v in r.scene.nodes
      && (Succeeded(r.calls, v) ==> ShortOf(r.scene, v) == HashTarget(NumberingPattern(newName), IndexOf(s.selection, v)))
      && (!Succeeded(r.calls, v) ==> ShortOf(r.scene, v) == ShortOf(s, v))
      && (v !in s.selection ==> !Requested(r.calls, v))
  {
    var p := NumberingPattern(newName);
    var rule := RuleOf(Number(p));
    var r := HashRename(s, newName, host).run;
    assert r == Apply(s, s.selection, 0, rule, ShortNameOfPath, StopAtFailure, host);
    ApplyOutcome(s, s.selection, 0, rule, ShortNameOfPath, StopAtFailure, host);
    RuleOfIs(Number(p), 0 + IndexOf(s.selection, v), ShortOf(s, v));
    NodeGets(s, s.selection, 0, rule, ShortNameOfPath, r, v, Some(HashTarget(p, IndexOf(s.selection, v))));
  }

  /** `add_affix`: give every selected node the affix; a failed rename is reported and skipped. */
  function AddAffix(s: Scene, affix: string, kind: AffixType, host: Host): Run
  {
    Apply(s, s.selection, 0, RuleOf(Affix(affix, kind)), ShortNameOfPath, SkipFailures, host)
  }

  /** An affix rule names every node. */
  lemma {:induction false} AffixTotal(affix: string, kind: AffixType)
    ensures Total(RuleOf(Affix(affix, kind)))
  {
    forall i: nat, t: string
      ensures RuleOf(Affix(affix, kind))(i, t).Some?
    {
    }
  }

  /**
    `add_affix` asks once for every selected node, in order, runs to the
    end, and asks for the short name with the affix on the chosen side.
   */
  lemma {:induction false} AddAffixCalls(s: Scene, affix: string, kind: AffixType, host: Host)
    requires WellFormed(s) && KeepsNodes(host) && NamesOne(host)
    ensures var r := AddAffix(s, affix, kind, host);
      && |r.calls| == |s.selection| && !r.stopped
      && InOrder(r.calls, s.selection, 0)
      && forall k :: 0 <= k < |r.calls| ==> r.calls[k].name == AffixedName(ShortOf(s, s.selection[k]), affix, kind)
  {
    var rule := RuleOf(Affix(affix, kind));
    var r := AddAffix(s, affix, kind, host);
    AffixTotal(affix, kind);
    SelectionPresent(s);
    ApplySkipsVisitAll(s, s.selection, 0, rule, ShortNameOfPath, host);
    ApplyInOrder(s, s.selection, 0, rule, ShortNameOfPath, SkipFailures, host);
    ApplyCallsFit(s, s.selection, 0, rule, ShortNameOfPath, SkipFailures, host);
    forall k | 0 <= k < |r.calls|
      ensures r.calls[k].name == AffixedName(ShortOf(s, s.selection[k]), affix, kind)
    {
      assert Fits(s, s.selection, 0, rule, ShortNameOfPath, r.calls[k]);
    }
  }

  /**
    After `add_affix`, a node whose rename succeeded has its old short name
    with the affix added, one `|affix|` longer; every other node keeps its
    short name.
   */
  lemma {:induction false} AddAffixNames(s: Scene, affix: string, kind: AffixType, host: Host, v: Uuid)
    requires WellFormed(s) && NamesOne(host) && v in s.nodes
    ensures var r := AddAffix(s, affix, kind, host);
      && v in r.scene.nodes
      && (Succeeded(r.calls, v) ==>
            ShortOf(r.scene, v) == AffixedName(ShortOf(s, v), affix, kind)
            && |ShortOf(r.scene, v)| == |ShortOf(s, v)| + |affix|)
      && (!Succeeded(r.calls, v) ==> ShortOf(r.scene, v) == ShortOf(s, v))
      && (v !in s.selection ==> !Requested(r.calls, v))
  {
    var rule := RuleOf(Affix(affix, kind));
    var r := AddAffix(s, affix, kind, host);
    ApplyOutcome(s, s.selection, 0, rule, ShortNameOfPath, SkipFailures, host);
    RuleOfIs(Affix(affix, kind), 0 + IndexOf(s.selection, v), ShortOf(s, v));
    NodeGets(s, s.selection, 0, rule, ShortNameOfPath, r, v, Some(AffixedName(ShortOf(s, v), affix, kind)));
  }

  /**
    `remove_character` as intended: trim the first or last character of
    every selected node whose short name is longer than one character; a
    failed rename is reported and skipped, as in `add_affix`.
   */
  function RemoveCharacter(s: Scene, position: CharacterRemovalPosition, host: Host): Run
  {
    Apply(s, s.selection, 0, RuleOf(Trim(position)), ShortNameOfPath, SkipFailures, host)
  }

  /**
    After `remove_character`, a node with a short name of at most one
    character gets no request and keeps its name; a node whose rename
    succeeded lost exactly the character at the chosen end; every other
    node keeps its short name.
   */
  lemma {:induction false} RemoveCharacterNames(s: Scene, position: CharacterRemovalPosition, host: Host, v: Uuid)
    requires WellFormed(s) && NamesOne(host) && v in s.nodes
    ensures var r := RemoveCharacter(s, position, host);
      var old_ := ShortOf(s, v);
      && v in r.scene.nodes
      && (|old_| <= 1 ==> !Requested(r.calls, v) && ShortOf(r.scene, v) == old_)
      && (Succeeded(r.calls, v) ==>
            |ShortOf(r.scene, v)| == |old_| - 1
            && (position == First ==> old_ == [old_[0]] + ShortOf(r.scene, v))
            && (position == Last ==> old_ == ShortOf(r.scene, v) + [old_[|old_| - 1]]))
      && (!Succeeded(r.calls, v) ==> ShortOf(r.scene, v) == old_)
      && (v !in s.selection ==> !Requested(r.calls, v))
  {
    var rule := RuleOf(Trim(position));
    var r := RemoveCharacter(s, position, host);
    ApplyOutcome(s, s.selection, 0, rule, ShortNameOfPath, SkipFailures, host);
    RuleOfIs(Trim(position), 0 + IndexOf(s.selection, v), ShortOf(s, v));
    NodeGets(s, s.selection, 0, rule, ShortNameOfPath, r, v, TrimmedName(ShortOf(s, v), position));
  }

  /**
    `remove_character` as written: its handler calls `print.warning`, which
    the built-in `print` does not have, so the handler itself raises and the
    first failed rename ends the batch.
   */
  function RemoveCharacterAsWritten(s: Scene, position: CharacterRemovalPosition, host: Host): Run
  {
    Apply(s, s.selection, 0, RuleOf(Trim(position)), ShortNameOfPath, StopAtFailure, host)
  }

  /**
    With two selected nodes whose names can be trimmed and a host that
    refuses the first rename, the code as written ends on that failure and
    never asks for the second node, while skipping the failure does.
   */
  lemma {:induction false} RemoveCharacterAsWrittenAbandons(s: Scene, position: CharacterRemovalPosition, host: Host, a: Uuid, b: Uuid)
    requires WellFormed(s) && KeepsNodes(host) && NamesOne(host)
    requires s.selection == [a, b] && a in s.nodes && b in s.nodes
    requires |ShortOf(s, a)| > 1 && |ShortOf(s, b)| > 1
    requires host(s, a, TrimmedName(ShortOf(s, a), position).value).None?
    ensures var r := RemoveCharacterAsWritten(s, position, host);
      r.stopped && |r.calls| == 1 && r.calls[0].node == a && !r.calls[0].ok && !Requested(r.calls, b)
    ensures Requested(RemoveCharacter(s, position, host).calls, b)
  {
    var rule := RuleOf(Trim(position));
    var name := TrimmedName(ShortOf(s, a), position).value;
    assert s.selection[0] == a && s.selection[1] == b;
    RuleOfIs(Trim(position), 0, ShortOf(s, a));
    assert Apply(s, s.selection, 0, rule, ShortNameOfPath, StopAtFailure, host) == Run(s, [Call(a, 0, name, false)], true);
    SelectionPresent(s);
    IndexOfAt(s.selection, 1);
    RuleOfIs(Trim(position), 0 + IndexOf(s.selection, b), ShortOf(s, b));
    ApplySkipsRequestsNamed(s, s.selection, 0, rule, ShortNameOfPath, host, b);
  }

  /** Which nodes a scope takes in: the selection and all its descendants, the selection, or every transform. */
  predicate InScope(s: Scene, scope: SearchAndReplaceState, u: Uuid)
    requires u in s.nodes
  {
    match scope
    case Hierarchy =>
      exists v :: v in s.selection && v in s.nodes && (v == u || IsAncestorPath(s.nodes[v].path, s.nodes[u].path))
    case Selected => u in s.selection
    case All => s.nodes[u].kind == Transform
  }

  /** The listed nodes a scope takes in, in listing order. */
  function Members(s: Scene, scope: SearchAndReplaceState, us: seq<Uuid>): (r: seq<Uuid>)
    ensures forall u :: u in r <==> u in us && u in s.nodes && InScope(s, scope, u)
    ensures NoDups(us) ==> NoDups(r)
    decreases |us|
  {
    if us == [] then []
    else
      var rest := Members(s, scope, us[1..]);
      if us[0] in s.nodes && InScope(s, scope, us[0]) then [us[0]] + rest else rest
  }

  /**
    `_get_nodes`: the UUIDs of the nodes a scope, given by its text, takes
    in. The text is compared with the values of `SearchAndReplaceState`;
    any other text gives no nodes.
   */
  function GetNodes(s: Scene, state: string): (r: seq<Uuid>)
    ensures NoDups(s.order) ==> NoDups(r)
    ensures forall u :: u in r <==> u in s.order && u in s.nodes && ParseState(state).Some? && InScope(s, ParseState(state).value, u)
  {
    match ParseState(state)
    case None => []
    case Some(scope) => Members(s, scope, s.order)
  }

  /** Every node the `selected` scope takes in, the `hierarchy` scope takes in too. */
  lemma {:induction false} SelectedWithinHierarchy(s: Scene)
    ensures forall u :: u in GetNodes(s, "selected") ==> u in GetNodes(s, "hierarchy")
  {
    forall u | u in GetNodes(s, "selected")
      ensures u in GetNodes(s, "hierarchy")
    {
      assert ParseState("selected") == Some(Selected);
      assert ParseState("hierarchy") == Some(Hierarchy);
      assert u in s.nodes && u in s.selection;
      assert InScope(s, Hierarchy, u);
    }
  }

  /** A text that is not a scope's value selects nothing. */
  lemma {:induction false} UnknownStateSelectsNothing(s: Scene, state: string)
    requires state != "hierarchy" && state != "selected" && state != "all"
    ensures GetNodes(s, state) == []
  {
  }

  /** Search-and-replace over a scope, with the rule reading the name text `src`. */
  function SearchAndReplaceFrom(s: Scene, state: string, search: string, rep: string, src: NameSource, host: Host): Run
  {
    Apply(s, GetNodes(s, state), 0, RuleOf(Replace(search, rep)), src, SkipFailures, host)
  }

  /**
    `search_and_replace` as written: the name it searches is what
    `ls(uuid, uuid=True)[0]` returns, which is the UUID itself, not the
    node's name.
   */
  function SearchAndReplaceAsWritten(s: Scene, state: string, search: string, rep: string, host: Host): Run
  {
    SearchAndReplaceFrom(s, state, search, rep, UuidText, host)
  }

  /** `search_and_replace` as its documentation describes it: replace in each node's short name. */
  function SearchAndReplace(s: Scene, state: string, search: string, rep: string, host: Host): Run
  {
    SearchAndReplaceFrom(s, state, search, rep, ShortNameOfPath, host)
  }

  /**
    After search-and-replace, a node whose short name does not contain the
    search text gets no request and keeps its name; a node whose rename
    succeeded has every occurrence replaced, left to right; nodes outside
    the scope are not touched.
   */
  lemma {:induction false} SearchAndReplaceNames(s: Scene, state: string, search: string, rep: string, host: Host, v: Uuid)
    requires WellFormed(s) && NamesOne(host) && v in s.nodes
    ensures var r := SearchAndReplace(s, state, search, rep, host);
      var old_ := ShortOf(s, v);
      && v in r.scene.nodes
      && (!Contains(old_, search) ==> !Requested(r.calls, v) && ShortOf(r.scene, v) == old_)
      && (Succeeded(r.calls, v) ==>
            ShortOf(r.scene, v) == ReplaceAll(old_, search, rep)
            && (search != [] ==> ShortOf(r.scene, v) == ReplaceByFind(old_, search, rep))
            && (search == [] ==> ShortOf(r.scene, v) == Interleave(old_, rep)))
      && (!Succeeded(r.calls, v) ==> ShortOf(r.scene, v) == old_)
      && (v !in GetNodes(s, state) ==> !Requested(r.calls, v))
  {
    var todo := GetNodes(s, state);
    var rule := RuleOf(Replace(search, rep));
    var r := SearchAndReplace(s, state, search, rep, host);
    ApplyOutcome(s, todo, 0, rule, ShortNameOfPath, SkipFailures, host);
    RuleOfIs(Replace(search, rep), 0 + IndexOf(todo, v), ShortOf(s, v));
    NodeGets(s, todo, 0, rule, ShortNameOfPath, r, v, ReplacedName(ShortOf(s, v), search, rep));
  }

  /** When no node in scope contains the search text, search-and-replace changes nothing. */
  lemma {:induction false} SearchAndReplaceNoMatch(s: Scene, state: string, search: string, rep: string, host: Host)
    requires WellFormed(s)
    requires forall u :: u in s.nodes && u in GetNodes(s, state) ==> !Contains(ShortOf(s, u), search)
    ensures SearchAndReplace(s, state, search, rep, host) == Run(s, [], false)
  {
    var todo := GetNodes(s, state);
    ScopePresent(s, state);
    forall k | 0 <= k < |todo|
      ensures !Contains(Subject(s, todo[k], ShortNameOfPath), search)
    {
      assert todo[k] in todo;
    }
    ReplaceLeavesAlone(s, todo, search, rep, ShortNameOfPath);
    ApplyNothingProposed(s, todo, 0, RuleOf(Replace(search, rep)), ShortNameOfPath, SkipFailures, host);
  }

  /** The nodes of a scope exist. */
  lemma {:induction false} ScopePresent(s: Scene, state: string)
    ensures AllPresent(s, GetNodes(s, state))
  {
    var todo := GetNodes(s, state);
    forall k | 0 <= k < |todo|
      ensures todo[k] in s.nodes
    {
      assert todo[k] in todo;
    }
  }

  /** A replacement rule leaves alone every node whose name text lacks the search text. */
  lemma {:induction false} ReplaceLeavesAlone(s: Scene, todo: seq<Uuid>, search: string, rep: string, src: NameSource)
    requires AllPresent(s, todo)
    requires forall k :: 0 <= k < |todo| ==> !Contains(Subject(s, todo[k], src), search)
    ensures forall k :: 0 <= k < |todo| ==> RuleOf(Replace(search, rep))(0 + k, Subject(s, todo[k], src)).None?
  {
    forall k | 0 <= k < |todo|
      ensures RuleOf(Replace(search, rep))(0 + k, Subject(s, todo[k], src)).None?
    {
      RuleOfIs(Replace(search, rep), 0 + k, Subject(s, todo[k], src));
    }
  }

  /** A character of a Maya UUID: an upper-case hexadecimal digit or `-`. */
  predicate UuidChar(c: char)
  {
    '0' <= c <= '9' || 'A' <= c <= 'F' || c == '-'
  }

  /** Every node is identified by a UUID in Maya's form. */
  predicate UuidKeys(s: Scene)
  {
    forall u, k :: u in s.nodes && 0 <= k < |u| ==> UuidChar(u[k])
  }

  /** A text with a character no UUID has occurs in no part of a UUID. */
  lemma {:induction false} NotInUuid(u: Uuid, search: string, c: char)
    requires forall k :: 0 <= k < |u| ==> UuidChar(u[k])
    requires c in search && !UuidChar(c)
    ensures !Contains(ShortName(u), search)
  {
    var t := ShortName(u);
    ShortNameSpec(u);
    var j :| 0 <= j < |search| && search[j] == c;
    forall i: nat | i <= |t|
      ensures !OccursAt(t, search, i)
    {
      if i + |search| <= |t| {
        assert t[i..i + |search|][j] == t[i + j] == u[|u| - |t| + i + j];
      }
    }
  }

  /**
    As written, search-and-replace matches the search text against each
    node's UUID: a search text with any character outside the UUID
    alphabet (a lower-case letter, say) renames nothing, whatever the
    node names are.
   */
  lemma {:induction false} SearchAndReplaceReadsUuid(s: Scene, state: string, search: string, rep: string, host: Host, c: char)
    requires WellFormed(s) && UuidKeys(s)
    requires c in search && !UuidChar(c)
    ensures SearchAndReplaceAsWritten(s, state, search, rep, host) == Run(s, [], false)
  {
    var todo := GetNodes(s, state);
    ScopePresent(s, state);
    forall k | 0 <= k < |todo|
      ensures !Contains(Subject(s, todo[k], UuidText), search)
    {
      NotInUuid(todo[k], search, c);
    }
    ReplaceLeavesAlone(s, todo, search, rep, UuidText);
    ApplyNothingProposed(s, todo, 0, RuleOf(Replace(search, rep)), UuidText, SkipFailures, host);
  }

  /** Searching short names, every node in scope whose short name contains the search text is asked to be renamed. */
  lemma {:induction false} SearchAndReplaceRequests(s: Scene, state: string, search: string, rep: string, host: Host, v: Uuid)
    requires WellFormed(s) && KeepsNodes(host) && NamesOne(host)
    requires v in GetNodes(s, state) && v in s.nodes && Contains(ShortOf(s, v), search)
    ensures Requested(SearchAndReplace(s, state, search, rep, host).calls, v)
  {
    var todo := GetNodes(s, state);
    ScopePresent(s, state);
    RuleOfIs(Replace(search, rep), 0 + IndexOf(todo, v), Subject(s, v, ShortNameOfPath));
    ApplySkipsRequestsNamed(s, todo, 0, RuleOf(Replace(search, rep)), ShortNameOfPath, host, v);
  }

  /** Maya's default camera transforms, which `rename_shapes` leaves alone. */
  const DefaultCameras: set<string> := {"|top", "|front", "|side"}

  /** The name a transform's shapes should have: its short name followed by `Shape`. */
  function ShapeName(t: string): string
  {
    ShortName(t) + "Shape"
  }

  /**
    One shape rename request: the transform, the shape's path, the node the
    path led to (if any), the name asked for, and the outcome.
   */
  datatype ShapeCall = ShapeCall(transform: string, shape: string, node: Option<Uuid>, name: string, ok: bool)

  /** The scene after `rename_shapes`, its requests in order, its count, and whether it ended early. */
  datatype ShapesRun = ShapesRun(scene: Scene, calls: seq<ShapeCall>, renamed: nat, stopped: bool)

  /** Number of successful requests. */
  function OkCount(calls: seq<ShapeCall>): (n: nat)
    ensures n <= |calls|
  {
    if calls == [] then 0 else (if calls[0].ok then 1 else 0) + OkCount(calls[1..])
  }

  lemma {:induction false} OkCountAppend(a: seq<ShapeCall>, b: seq<ShapeCall>)
    ensures OkCount(a + b) == OkCount(a) + OkCount(b)
  {
    if a == [] {
      assert a + b == b;
    } else {
      assert (a + b)[1..] == a[1..] + b;
      OkCountAppend(a[1..], b);
    }
  }

  /**
    A request that `rename_shapes` makes: for a shape of a transform other
    than a default camera, to its target name, which it did not have; it
    succeeds only on a node its path led to.
   */
  predicate ShapeRequest(c: ShapeCall)
  {
    && c.transform !in DefaultCameras
    && IsChildPath(c.transform, c.shape)
    && c.name == ShapeName(c.transform)
    && ShortName(c.shape) != c.name
    && (c.ok ==> c.node.Some?)
  }

  /**
    The inner loop over the shapes of transform `t`: skip a shape already
    named after `t`, otherwise ask to rename it, counting successes.
   */
  function RenameShapesOf(s: Scene, t: string, shapes: seq<string>, renamed: nat, host: Host): (r: (Scene, seq<ShapeCall>, nat))
    ensures r.2 == renamed + OkCount(r.1)
    ensures forall c :: c in r.1 ==>
      c.transform == t && c.shape in shapes && c.name == ShapeName(t) && ShortName(c.shape) != c.name && (c.ok ==> c.node.Some?)
    decreases |shapes|
  {
    if shapes == [] then (s, [], renamed)
    else
      var p := shapes[0];
      if ShortName(p) == ShapeName(t) then RenameShapesOf(s, t, shapes[1..], renamed, host)
      else
        var step := RenamePath(s, p, ShapeName(t), host);
        match step.1
        case Some(s') =>
          var r := RenameShapesOf(s', t, shapes[1..], renamed + 1, host);
          (r.0, [ShapeCall(t, p, step.0, ShapeName(t), true)] + r.1, r.2)
        case None =>
          var r := RenameShapesOf(s, t, shapes[1..], renamed, host);
          (r.0, [ShapeCall(t, p, step.0, ShapeName(t), false)] + r.1, r.2)
  }

  /**
    The outer loop over the transform paths listed at the start. A default
    camera is skipped; a path that no longer names a node ends the run
    (`listRelatives` raises).
   */
  function RenameShapesFrom(s: Scene, ts: seq<string>, renamed: nat, host: Host): (r: ShapesRun)
    ensures r.renamed == renamed + OkCount(r.calls)
    ensures forall c :: c in r.calls ==> c.transform in ts && ShapeRequest(c)
    decreases |ts|
  {
    if ts == [] then ShapesRun(s, [], renamed, false)
    else
      var t := ts[0];
      if t in DefaultCameras then RenameShapesFrom(s, ts[1..], renamed, host)
      else if Resolve(s, t).None? then ShapesRun(s, [], renamed, true)
      else
        var inner := RenameShapesOf(s, t, ShapeChildren(s, t), renamed, host);
        var r := RenameShapesFrom(inner.0, ts[1..], inner.2, host);
        OkCountAppend(inner.1, r.calls);
        ShapesRun(r.scene, inner.1 + r.calls, r.renamed, r.stopped)
  }

  /**
    `rename_shapes`: every request is for a shape child of a listed
    transform that is not a default camera, asks for the transform's short
    name followed by `Shape`, and is made only when the shape is not
    already so named; the count reported is the number of successes.
   */
  function RenameShapes(s: Scene, host: Host): (r: ShapesRun)
    ensures r.renamed == OkCount(r.calls)
    ensures forall c :: c in r.calls ==> c.transform in TransformPaths(s) && ShapeRequest(c)
  {
    RenameShapesFrom(s, TransformPaths(s), 0, host)
  }

  /** Every shape of the list not yet named after `t` gets a request of its own. */
  lemma {:induction false} ShapesOfCovers(s: Scene, t: string, shapes: seq<string>, renamed: nat, host: Host, p: string)
    requires p in shapes && ShortName(p) != ShapeName(t)
    ensures exists c :: c in RenameShapesOf(s, t, shapes, renamed, host).1 && c.transform == t && c.shape == p
    decreases |shapes|
  {
    var r := RenameShapesOf(s, t, shapes, renamed, host);
    var q := shapes[0];
    if q == p {
      assert r.1[0].shape == p && r.1[0].transform == t;
    } else if ShortName(q) == ShapeName(t) {
      ShapesOfCovers(s, t, shapes[1..], renamed, host, p);
    } else {
      var step := RenamePath(s, q, ShapeName(t), host);
      match step.1
      case Some(s') =>
        assert r.1 == [ShapeCall(t, q, step.0, ShapeName(t), true)] + RenameShapesOf(s', t, shapes[1..], renamed + 1, host).1;
        ShapesOfCovers(s', t, shapes[1..], renamed + 1, host, p);
      case None =>
        assert r.1 == [ShapeCall(t, q, step.0, ShapeName(t), false)] + RenameShapesOf(s, t, shapes[1..], renamed, host).1;
        ShapesOfCovers(s, t, shapes[1..], renamed, host, p);
    }
  }

  /** What `ShapesFromSplit` states of a run over `ts` split after `k` paths. */
  predicate SplitsAt(s: Scene, ts: seq<string>, renamed: nat, host: Host, k: nat)
    requires k <= |ts|
  {
    var pre := RenameShapesFrom(s, ts[..k], renamed, host);
    var post := RenameShapesFrom(pre.scene, ts[k..], pre.renamed, host);
    var all := RenameShapesFrom(s, ts, renamed, host);
    && (pre.stopped ==> all == pre)
    && (!pre.stopped ==> all == ShapesRun(post.scene, pre.calls + post.calls, post.renamed, post.stopped))
  }

  /**
    The run over `ts` is the run over its first `k` paths followed by the
    run over the rest from where that left off; if the first part ended
    early, so did the whole run, at the same point.
   */
  lemma {:induction false} ShapesFromSplit(s: Scene, ts: seq<string>, renamed: nat, host: Host, k: nat)
    requires k <= |ts|
    ensures SplitsAt(s, ts, renamed, host, k)
    decreases k, 1
  {
    if k == 0 {
      assert ts[..0] == [] && ts[0..] == ts;
      assert [] + RenameShapesFrom(s, ts, renamed, host).calls == RenameShapesFrom(s, ts, renamed, host).calls;
    } else if ts[0] in DefaultCameras {
      SplitSkipped(s, ts, renamed, host, k);
    } else if Resolve(s, ts[0]).None? {
      assert ts[..k][0] == ts[0];
      assert RenameShapesFrom(s, ts[..k], renamed, host) == ShapesRun(s, [], renamed, true);
    } else {
      SplitVisited(s, ts, renamed, host, k);
    }
  }

  lemma {:induction false} SplitSkipped(s: Scene, ts: seq<string>, renamed: nat, host: Host, k: nat)
    requires 0 < k <= |ts| && ts[0] in DefaultCameras
    ensures SplitsAt(s, ts, renamed, host, k)
    decreases k, 0
  {
    var tail := ts[1..];
    assert ts[..k][0] == ts[0] && ts[..k][1..] == tail[..k - 1] && tail[k - 1..] == ts[k..];
    assert RenameShapesFrom(s, ts, renamed, host) == RenameShapesFrom(s, tail, renamed, host);
    assert RenameShapesFrom(s, ts[..k], renamed, host) == RenameShapesFrom(s, tail[..k - 1], renamed, host);
    ShapesFromSplit(s, tail, renamed, host, k - 1);
  }

  /** One turn of the outer loop on a transform that is found. */
  lemma {:induction false} VisitStep(s: Scene, ts: seq<string>, renamed: nat, host: Host)
    requires ts != [] && ts[0] !in DefaultCameras && Resolve(s, ts[0]).Some?
    ensures var inner := RenameShapesOf(s, ts[0], ShapeChildren(s, ts[0]), renamed, host);
      var r' := RenameShapesFrom(inner.0, ts[1..], inner.2, host);
      RenameShapesFrom(s, ts, renamed, host) == ShapesRun(r'.scene, inner.1 + r'.calls, r'.renamed, r'.stopped)
  {
  }

  /** Putting a turn's requests in front of both halves of a split run keeps it split. */
  lemma {:induction false} Regroup(inner: seq<ShapeCall>, all: ShapesRun, pre: ShapesRun, all': ShapesRun, pre': ShapesRun, post: ShapesRun)
    requires all == ShapesRun(all'.scene, inner + all'.calls, all'.renamed, all'.stopped)
    requires pre == ShapesRun(pre'.scene, inner + pre'.calls, pre'.renamed, pre'.stopped)
    requires pre'.stopped ==> all' == pre'
    requires !pre'.stopped ==> all' == ShapesRun(post.scene, pre'.calls + post.calls, post.renamed, post.stopped)
    ensures pre.stopped ==> all == pre
    ensures !pre.stopped ==> all == ShapesRun(post.scene, pre.calls + post.calls, post.renamed, post.stopped)
  {
    assert inner + (pre'.calls + post.calls) == (inner + pre'.calls) + post.calls;
  }

  lemma {:induction false} SplitVisited(s: Scene, ts: seq<string>, renamed: nat, host: Host, k: nat)
    requires 0 < k <= |ts| && ts[0] !in DefaultCameras && Resolve(s, ts[0]).Some?
    ensures SplitsAt(s, ts, renamed, host, k)
    decreases k, 0
  {
    var t := ts[0];
    var tail := ts[1..];
    var head := ts[..k];
    assert head[0] == t && head[1..] == tail[..k - 1] && tail[k - 1..] == ts[k..];
    var inner := RenameShapesOf(s, t, ShapeChildren(s, t), renamed, host);
    var all' := RenameShapesFrom(inner.0, tail, inner.2, host);
    var pre' := RenameShapesFrom(inner.0, tail[..k - 1], inner.2, host);
    var post := RenameShapesFrom(pre'.scene, tail[k - 1..], pre'.renamed, host);
    VisitStep(s, ts, renamed, host);
    VisitStep(s, head, renamed, host);
    ShapesFromSplit(inner.0, tail, inner.2, host, k - 1);
    assert SplitsAt(inner.0, tail, inner.2, host, k - 1);
    Regroup(inner.1, RenameShapesFrom(s, ts, renamed, host), RenameShapesFrom(s, head, renamed, host), all', pre', post);
  }

  /** The scene `rename_shapes` works on when the `k`-th listed transform's turn comes. */
  function TurnScene(s: Scene, k: nat, host: Host): Scene
    requires k <= |TransformPaths(s)|
  {
    RenameShapesFrom(s, TransformPaths(s)[..k], 0, host).scene
  }

  /**
    A run that does not end early finds every listed transform other than a
    default camera at its turn, and asks for every shape child the
    transform then has whose short name is not yet the target name.
   */
  lemma {:induction false} RenameShapesCovers(s: Scene, host: Host, k: nat, p: string)
    requires k < |TransformPaths(s)| && TransformPaths(s)[k] !in DefaultCameras
    requires !RenameShapes(s, host).stopped
    ensures Resolve(TurnScene(s, k, host), TransformPaths(s)[k]).Some?
    ensures var t := TransformPaths(s)[k];
      p in ShapeChildren(TurnScene(s, k, host), t) && ShortName(p) != ShapeName(t) ==>
        exists c :: c in RenameShapes(s, host).calls && c.transform == t && c.shape == p
  {
    var ts := TransformPaths(s);
    var t := ts[k];
    var pre := RenameShapesFrom(s, ts[..k], 0, host);
    var post := RenameShapesFrom(pre.scene, ts[k..], pre.renamed, host);
    ShapesFromSplit(s, ts, 0, host, k);
    assert SplitsAt(s, ts, 0, host, k);
    assert !pre.stopped;
    assert ts[k..][0] == t;
    assert Resolve(pre.scene, t).Some?;
    if p in ShapeChildren(pre.scene, t) && ShortName(p) != ShapeName(t) {
      var inner := RenameShapesOf(pre.scene, t, ShapeChildren(pre.scene, t), pre.renamed, host);
      assert post.calls == inner.1 + RenameShapesFrom(inner.0, ts[k..][1..], inner.2, host).calls;
      ShapesOfCovers(pre.scene, t, ShapeChildren(pre.scene, t), pre.renamed, host, p);
    }
  }

  /** The short name node `v` has after the requests in `calls`, starting from `current`. */
  function ShapeNameAfter(calls: seq<ShapeCall>, v: Uuid, current: string): string
  {
    if calls == [] then current
    else ShapeNameAfter(calls[1..], v, if calls[0].ok && calls[0].node == Some(v) then calls[0].name else current)
  }

  lemma {:induction false} ShapeNameAfterAppend(a: seq<ShapeCall>, b: seq<ShapeCall>, v: Uuid, current: string)
    ensures ShapeNameAfter(a + b, v, current) == ShapeNameAfter(b, v, ShapeNameAfter(a, v, current))
    decreases |a|
  {
    if a == [] {
      assert a + b == b;
    } else {
      assert (a + b)[1..] == a[1..] + b;
      ShapeNameAfterAppend(a[1..], b, v, if a[0].ok && a[0].node == Some(v) then a[0].name else current);
    }
  }

  /** A name fold ends on the start name when no request for `v` succeeded, and otherwise on the name of one that did. */
  lemma {:induction false} ShapeNameAfterCases(calls: seq<ShapeCall>, v: Uuid, current: string)
    ensures (forall c :: c in calls && c.node == Some(v) ==> !c.ok) ==> ShapeNameAfter(calls, v, current) == current
    ensures (exists c :: c in calls && c.ok && c.node == Some(v)) ==>
      exists c :: c in calls && c.ok && c.node == Some(v) && ShapeNameAfter(calls, v, current) == c.name
    decreases |calls|
  {
    if calls != [] {
      var c0 := calls[0];
      var next := if c0.ok && c0.node == Some(v) then c0.name else current;
      ShapeNameAfterCases(calls[1..], v, next);
      if exists c :: c in calls[1..] && c.ok && c.node == Some(v) {
        var c :| c in calls[1..] && c.ok && c.node == Some(v) && ShapeNameAfter(calls[1..], v, next) == c.name;
        assert c in calls;
      } else if c0.ok && c0.node == Some(v) {
        assert ShapeNameAfter(calls, v, current) == c0.name;
      } else {
        forall c | c in calls && c.node == Some(v)
          ensures !c.ok
        {
          if c != c0 {
            assert c in calls[1..];
          }
        }
      }
    }
  }

  lemma {:induction false} ShapeNameAfterCons(c: ShapeCall, calls: seq<ShapeCall>, v: Uuid, current: string)
    ensures ShapeNameAfter([c] + calls, v, current) == ShapeNameAfter(calls, v, if c.ok && c.node == Some(v) then c.name else current)
  {
    assert ([c] + calls)[1..] == calls;
  }

  /** A successful request for `u` followed by `calls` leaves the names the fold says. */
  lemma {:induction false} NamedStep(s: Scene, u: Uuid, c: ShapeCall, s': Scene, calls: seq<ShapeCall>, final: Scene)
    requires NamesOnly(s, u, c.name, s') && c.ok && c.node == Some(u)
    requires final.nodes.Keys == s.nodes.Keys
    requires forall v :: v in s'.nodes ==> ShortOf(final, v) == ShapeNameAfter(calls, v, ShortOf(s', v))
    ensures forall v :: v in s.nodes ==> ShortOf(final, v) == ShapeNameAfter([c] + calls, v, ShortOf(s, v))
  {
    forall v | v in s.nodes
      ensures ShortOf(final, v) == ShapeNameAfter([c] + calls, v, ShortOf(s, v))
    {
      ShapeNameAfterCons(c, calls, v, ShortOf(s, v));
      if v != u {
        assert ShortOf(s', v) == ShortOf(s, v);
      }
    }
  }

  /** A failed request followed by `calls` leaves the names the fold over `calls` says. */
  lemma {:induction false} FailedStep(s: Scene, c: ShapeCall, calls: seq<ShapeCall>, final: Scene)
    requires !c.ok && final.nodes.Keys == s.nodes.Keys
    requires forall v :: v in s.nodes ==> ShortOf(final, v) == ShapeNameAfter(calls, v, ShortOf(s, v))
    ensures forall v :: v in s.nodes ==> ShortOf(final, v) == ShapeNameAfter([c] + calls, v, ShortOf(s, v))
  {
    forall v | v in s.nodes
      ensures ShortOf(final, v) == ShapeNameAfter([c] + calls, v, ShortOf(s, v))
    {
      ShapeNameAfterCons(c, calls, v, ShortOf(s, v));
    }
  }

  /** With a host that names only its node, the inner loop's scene follows its successful requests. */
  lemma {:induction false} ShapesOfNames(s: Scene, t: string, shapes: seq<string>, renamed: nat, host: Host)
    requires KeepsNodes(host) && NamesOne(host)
    ensures var r := RenameShapesOf(s, t, shapes, renamed, host);
      && r.0.nodes.Keys == s.nodes.Keys
      && forall v :: v in s.nodes ==> ShortOf(r.0, v) == ShapeNameAfter(r.1, v, ShortOf(s, v))
    decreases |shapes|
  {
    if shapes != [] {
      var p := shapes[0];
      if ShortName(p) == ShapeName(t) {
        ShapesOfNames(s, t, shapes[1..], renamed, host);
      } else {
        var step := RenamePath(s, p, ShapeName(t), host);
        match step.1
        case Some(s') =>
          var u := step.0.value;
          assert Answer(host, s, u, ShapeName(t)) == Some(s');
          var c := ShapeCall(t, p, step.0, ShapeName(t), true);
          var r' := RenameShapesOf(s', t, shapes[1..], renamed + 1, host);
          assert RenameShapesOf(s, t, shapes, renamed, host) == (r'.0, [c] + r'.1, r'.2);
          ShapesOfNames(s', t, shapes[1..], renamed + 1, host);
          NamedStep(s, u, c, s', r'.1, r'.0);
        case None =>
          var c := ShapeCall(t, p, step.0, ShapeName(t), false);
          var r' := RenameShapesOf(s, t, shapes[1..], renamed, host);
          assert RenameShapesOf(s, t, shapes, renamed, host) == (r'.0, [c] + r'.1, r'.2);
          ShapesOfNames(s, t, shapes[1..], renamed, host);
          FailedStep(s, c, r'.1, r'.0);
      }
    }
  }

  lemma {:induction false} ShapesFromNames(s: Scene, ts: seq<string>, renamed: nat, host: Host)
    requires KeepsNodes(host) && NamesOne(host)
    ensures var r := RenameShapesFrom(s, ts, renamed, host);
      && r.scene.nodes.Keys == s.nodes.Keys
      && forall v :: v in s.nodes ==> ShortOf(r.scene, v) == ShapeNameAfter(r.calls, v, ShortOf(s, v))
    decreases |ts|
  {
    if ts != [] {
      var t := ts[0];
      if t in DefaultCameras {
        ShapesFromNames(s, ts[1..], renamed, host);
      } else if Resolve(s, t).Some? {
        var inner := RenameShapesOf(s, t, ShapeChildren(s, t), renamed, host);
        var r' := RenameShapesFrom(inner.0, ts[1..], inner.2, host);
        ShapesOfNames(s, t, ShapeChildren(s, t), renamed, host);
        ShapesFromNames(inner.0, ts[1..], inner.2, host);
        forall v | v in s.nodes
          ensures ShortOf(r'.scene, v) == ShapeNameAfter(inner.1 + r'.calls, v, ShortOf(s, v))
        {
          ShapeNameAfterAppend(inner.1, r'.calls, v, ShortOf(s, v));
        }
      }
    }
  }

  /**
    With a host that names only its node, after `rename_shapes` a node no
    request succeeded on keeps its short name, and a node some request
    succeeded on carries the target name of one of those requests: its
    transform's short name followed by `Shape`.
   */
  lemma {:induction false} RenameShapesEffect(s: Scene, host: Host, v: Uuid)
    requires KeepsNodes(host) && NamesOne(host) && v in s.nodes
    ensures var r := RenameShapes(s, host);
      && v in r.scene.nodes
      && ((forall c :: c in r.calls && c.node == Some(v) ==> !c.ok) ==> ShortOf(r.scene, v) == ShortOf(s, v))
      && ((exists c :: c in r.calls && c.ok && c.node == Some(v)) ==>
            exists c :: c in r.calls && c.ok && c.node == Some(v) && ShortOf(r.scene, v) == ShapeName(c.transform))
  {
    var r := RenameShapes(s, host);
    ShapesFromNames(s, TransformPaths(s), 0, host);
    ShapeNameAfterCases(r.calls, v, ShortOf(s, v));
  }

  /** `SameShape` is transitive. */
  lemma {:induction false} SameShapeTrans(a: Scene, b: Scene, c: Scene)
    requires SameShape(a, b) && SameShape(b, c)
    ensures SameShape(a, c)
  {
  }

  lemma {:induction false} ShapesOfKeepsShape(s: Scene, t: string, shapes: seq<string>, renamed: nat, host: Host)
    requires KeepsShape(host) && UniquePaths(s.nodes)
    ensures var r := RenameShapesOf(s, t, shapes, renamed, host);
      SameShape(s, r.0) && UniquePaths(r.0.nodes)
    decreases |shapes|
  {
    if shapes != [] {
      var p := shapes[0];
      if ShortName(p) == ShapeName(t) {
        ShapesOfKeepsShape(s, t, shapes[1..], renamed, host);
      } else {
        var step := RenamePath(s, p, ShapeName(t), host);
        match step.1
        case Some(s') =>
          assert Answer(host, s, step.0.value, ShapeName(t)) == Some(s');
          ShapesOfKeepsShape(s', t, shapes[1..], renamed + 1, host);
          SameShapeTrans(s, s', RenameShapesOf(s', t, shapes[1..], renamed + 1, host).0);
        case None =>
          ShapesOfKeepsShape(s, t, shapes[1..], renamed, host);
      }
    }
  }

  lemma {:induction false} ShapesFromKeepsShape(s: Scene, ts: seq<string>, renamed: nat, host: Host)
    requires KeepsShape(host) && UniquePaths(s.nodes)
    ensures var r := RenameShapesFrom(s, ts, renamed, host);
      SameShape(s, r.scene) && UniquePaths(r.scene.nodes)
    decreases |ts|
  {
    if ts != [] {
      var t := ts[0];
      if t in DefaultCameras {
        ShapesFromKeepsShape(s, ts[1..], renamed, host);
      } else if Resolve(s, t).Some? {
        var inner := RenameShapesOf(s, t, ShapeChildren(s, t), renamed, host);
        ShapesOfKeepsShape(s, t, ShapeChildren(s, t), renamed, host);
        ShapesFromKeepsShape(inner.0, ts[1..], inner.2, host);
        SameShapeTrans(s, inner.0, RenameShapesFrom(inner.0, ts[1..], inner.2, host).scene);
      }
    }
  }

  /**
    With a host that changes only paths, `rename_shapes` keeps the nodes,
    their kinds, the listings and the lock set, and full paths stay unique.
   */
  lemma {:induction false} RenameShapesKeepsShape(s: Scene, host: Host)
    requires KeepsShape(host) && UniquePaths(s.nodes)
    ensures SameShape(s, RenameShapes(s, host).scene) && UniquePaths(RenameShapes(s, host).scene.nodes)
  {
    ShapesFromKeepsShape(s, TransformPaths(s), 0, host);
  }
}

=== FILE: scene.dfy ===
/**
  An abstract Maya scene as the renamer sees it through `maya.cmds`.

  Nodes are keyed by UUID, which stays the same across a rename; each has
  a full DAG path (`|group1|pCube1`) and a kind. `order` is the order in
  which `ls` lists nodes, `selection` the order in which the user picked
  them. A rename may fail: the node may be missing or locked (standing
  for referenced and read-only nodes), the name may be empty or contain
  `|`, or the resulting full paths may clash. Maya's own handling of a
  clash (it picks a fresh name) is not reproduced: a clash is a failure.
 */
module Scene {
  import opened Opt
  import opened Text

  type Uuid = string

  datatype Kind = Transform | Shape | OtherNode

  datatype Node = Node(path: string, kind: Kind)

  datatype Scene = Scene(
    nodes: map<Uuid, Node>,
    order: seq<Uuid>,
    selection: seq<Uuid>,
    locked: set<Uuid>)

  predicate NoDups<T(==)>(xs: seq<T>)
  {
    forall i, j :: 0 <= i < j < |xs| ==> xs[i] != xs[j]
  }

  /** No two nodes share a full path. */
  predicate UniquePaths(nodes: map<Uuid, Node>)
  {
    forall u, v {:trigger nodes[u], nodes[v]} :: u in nodes && v in nodes && u != v ==> nodes[u].path != nodes[v].path
  }

  /** What Maya guarantees of every scene: listings without repeats, unique full paths. */
  predicate WellFormed(s: Scene)
  {
    && NoDups(s.order)
    && (forall u :: u in s.order ==> u in s.nodes)
    && (forall u :: u in s.nodes ==> u in s.order)
    && NoDups(s.selection)
    && (forall u :: u in s.selection ==> u in s.nodes)
    && UniquePaths(s.nodes)
  }

  /** A name the host accepts: not empty and without `|`. */
  predicate ValidName(name: string)
  {
    name != [] && Lacks('|', name)
  }

  /** The node's short name, `ls(uuid, long=True)[0].split('|')[-1]`. */
  function ShortOf(s: Scene, u: Uuid): string
    requires u in s.nodes
  {
    ShortName(s.nodes[u].path)
  }

  /** Where a node ends up when the node at `from` moves to `to`. */
  function Moved(n: Node, isTarget: bool, from: string, to: string): Node
  {
    if isTarget then Node(to, n.kind)
    else if IsAncestorPath(from, n.path) then Node(to + n.path[|from|..], n.kind)
    else n
  }

  /** The node map after `u` is given `name`: its path and its descendants' paths change. */
  function Relabelled(s: Scene, u: Uuid, name: string): map<Uuid, Node>
    requires u in s.nodes
  {
    var from := s.nodes[u].path;
    var to := Dir(from) + name;
    map v | v in s.nodes :: Moved(s.nodes[v], v == u, from, to)
  }

  /** `after` differs from `before` only in its node paths: same nodes, listings, lock set and kinds. */
  predicate SameShape(before: Scene, after: Scene)
  {
    && after.nodes.Keys == before.nodes.Keys
    && after.order == before.order
    && after.selection == before.selection
    && after.locked == before.locked
    && (forall v :: v in before.nodes ==> after.nodes[v].kind == before.nodes[v].kind)
  }

  /** In `after`, node `u` has short name `name` and every other node keeps its short name. */
  predicate NamesOnly(before: Scene, u: Uuid, name: string, after: Scene)
  {
    && u in before.nodes
    && after.nodes.Keys == before.nodes.Keys
    && ShortOf(after, u) == name
    && (forall v {:trigger ShortOf(after, v)} :: v in before.nodes && v != u ==> ShortOf(after, v) == ShortOf(before, v))
  }

  /**
    `after` is `before` with node `u` renamed to `name`: only paths change,
    `u` now has that short name, every other node keeps its short name,
    nodes outside `u`'s subtree are untouched and full paths are still
    unique.
   */
  predicate RenamedFrom(before: Scene, u: Uuid, name: string, after: Scene)
  {
    && SameShape(before, after)
    && UniquePaths(after.nodes)
    && NamesOnly(before, u, name, after)
    && (forall v {:trigger after.nodes[v]} :: v in before.nodes && v != u && !IsAncestorPath(before.nodes[u].path, before.nodes[v].path) ==>
          after.nodes[v] == before.nodes[v])
  }

  /** Relabelling keeps every other node's short name: descendants keep the part below `u`. */
  lemma {:induction false} RelabelledKeepsOtherNames(s: Scene, u: Uuid, name: string)
    requires u in s.nodes
    ensures var m := Relabelled(s, u, name);
      forall v :: v in s.nodes && v != u ==> ShortName(m[v].path) == ShortName(s.nodes[v].path)
  {
    var m := Relabelled(s, u, name);
    var from := s.nodes[u].path;
    var to := Dir(from) + name;
    forall v | v in s.nodes && v != u
      ensures ShortName(m[v].path) == ShortName(s.nodes[v].path)
    {
      if IsAncestorPath(from, s.nodes[v].path) {
        ShortNameUnderNewAncestor(from, s.nodes[v].path, to);
      }
    }
  }

  /** Relabelling keeps the set of nodes and every kind, and moves nothing outside `u`'s subtree. */
  lemma {:induction false} RelabelledKeepsRest(s: Scene, u: Uuid, name: string)
    requires u in s.nodes
    ensures var m := Relabelled(s, u, name);
      && m.Keys == s.nodes.Keys
      && (forall v :: v in s.nodes ==> m[v].kind == s.nodes[v].kind)
      && (forall v :: v in s.nodes && v != u && !IsAncestorPath(s.nodes[u].path, s.nodes[v].path) ==> m[v] == s.nodes[v])
  {
  }

  /** The relabelled node's short name is the new name. */
  lemma {:induction false} RelabelledTarget(s: Scene, u: Uuid, name: string)
    requires u in s.nodes && ValidName(name)
    ensures ShortName(Relabelled(s, u, name)[u].path) == name
  {
    var from := s.nodes[u].path;
    assert Relabelled(s, u, name)[u].path == Dir(from) + name;
    DirSpec(from);
    ShortNameInDir(Dir(from), name);
  }

  lemma {:induction false} RelabelledEffect(s: Scene, u: Uuid, name: string)
    requires u in s.nodes && ValidName(name) && UniquePaths(Relabelled(s, u, name))
    ensures RenamedFrom(s, u, name, s.(nodes := Relabelled(s, u, name)))
  {
    RelabelledKeepsRest(s, u, name);
    RelabelledTarget(s, u, name);
    RelabelledKeepsOtherNames(s, u, name);
  }

  /**
    `cmds.rename` on node `u`. It fails for a missing or locked node, an
    invalid name or clashing paths, and succeeds otherwise.
   */
  function RenameNode(s: Scene, u: Uuid, name: string): (r: Option<Scene>)
    ensures r.Some? ==> u in s.nodes && u !in s.locked && ValidName(name)
    ensures r.Some? ==> r.value.nodes.Keys == s.nodes.Keys
  {
    if u !in s.nodes || u in s.locked || !ValidName(name) then None
    else if !UniquePaths(Relabelled(s, u, name)) then None
    else Some(s.(nodes := Relabelled(s, u, name)))
  }

  /** On success the new scene is the old one with `u` renamed. */
  lemma {:induction false} RenameNodeEffect(s: Scene, u: Uuid, name: string)
    requires RenameNode(s, u, name).Some?
    ensures RenamedFrom(s, u, name, RenameNode(s, u, name).value)
  {
    RelabelledEffect(s, u, name);
  }

  /**
    The host's rename (`cmds.rename` on a node): the new scene, or `None`
    when the host refuses. The operations take the host as a parameter and
    their proofs assume only that it is `KeepsNodes`, `KeepsShape` or
    `NamesOne`, as each needs; `RenameNode` has all three.
   */
  type Host = (Scene, Uuid, string) -> Option<Scene>

  /**
    The host's answer to renaming `u` to `name` in `s`. The laws below are
    stated about this term so that they are applied only where a proof
    names it.
   */
  ghost function Answer(host: Host, s: Scene, u: Uuid, name: string): Option<Scene>
  {
    host(s, u, name)
  }

  /** A successful rename keeps the set of nodes. */
  ghost predicate KeepsNodes(host: Host)
  {
    forall s, u, name {:trigger Answer(host, s, u, name)} :: Answer(host, s, u, name).Some? ==>
      Answer(host, s, u, name).value.nodes.Keys == s.nodes.Keys
  }

  /** A successful rename changes paths only, and leaves them unique. */
  ghost predicate KeepsShape(host: Host)
  {
    forall s, u, name {:trigger Answer(host, s, u, name)} :: Answer(host, s, u, name).Some? ==>
      SameShape(s, Answer(host, s, u, name).value) && UniquePaths(Answer(host, s, u, name).value.nodes)
  }

  /** A successful rename gives the node the name asked for and changes no other short name. */
  ghost predicate NamesOne(host: Host)
  {
    forall s, u, name {:trigger Answer(host, s, u, name)} :: Answer(host, s, u, name).Some? ==>
      NamesOnly(s, u, name, Answer(host, s, u, name).value)
  }

  /**
    A successful rename moves only the node and the nodes below it: every
    other node keeps its full path.
   */
  ghost predicate MovesSubtree(host: Host)
  {
    forall s, u, name {:trigger Answer(host, s, u, name)} :: Answer(host, s, u, name).Some? ==>
      && u in s.nodes
      && forall v {:trigger s.nodes[v]} :: v in s.nodes && v != u && !IsAncestorPath(s.nodes[u].path, s.nodes[v].path) ==>
           v in Answer(host, s, u, name).value.nodes && Answer(host, s, u, name).value.nodes[v] == s.nodes[v]
  }

  /** The host of the scene model has all four properties. */
  lemma {:induction false} RenameNodeLawful()
    ensures KeepsNodes(RenameNode) && KeepsShape(RenameNode) && NamesOne(RenameNode) && MovesSubtree(RenameNode)
  {
    forall s, u, name | Answer(RenameNode, s, u, name).Some?
      ensures RenamedFrom(s, u, name, Answer(RenameNode, s, u, name).value)
    {
      RenameNodeEffect(s, u, name);
    }
  }

  /** `ls(path)` resolved to a node: the first listed node with that full path. */
  function Resolve(s: Scene, path: string): (r: Option<Uuid>)
    ensures r.Some? ==> r.value in s.order && r.value in s.nodes && s.nodes[r.value].path == path
    ensures r.None? ==> forall u :: u in s.order && u in s.nodes ==> s.nodes[u].path != path
  {
    ResolveIn(s.nodes, s.order, path)
  }

  function ResolveIn(nodes: map<Uuid, Node>, us: seq<Uuid>, path: string): (r: Option<Uuid>)
    ensures r.Some? ==> r.value in us && r.value in nodes && nodes[r.value].path == path
    ensures r.None? ==> forall u :: u in us && u in nodes ==> nodes[u].path != path
  {
    if us == [] then None
    else if us[0] in nodes && nodes[us[0]].path == path then Some(us[0])
    else ResolveIn(nodes, us[1..], path)
  }

  /** With unique paths, a node's current path resolves back to that node. */
  lemma {:induction false} ResolveOwnPath(s: Scene, u: Uuid)
    requires UniquePaths(s.nodes) && u in s.nodes && u in s.order
    ensures Resolve(s, s.nodes[u].path) == Some(u)
  {
  }

  /** `cmds.rename(path, name)`: resolve the path, then ask the host to rename that node. */
  function RenamePath(s: Scene, path: string, name: string, host: Host): (r: (Option<Uuid>, Option<Scene>))
    ensures r.0 == Resolve(s, path)
    ensures r.0.None? ==> r.1.None?
    ensures r.0.Some? ==> r.1 == host(s, r.0.value, name)
  {
    match Resolve(s, path)
    case None => (None, None)
    case Some(u) => (Some(u), host(s, u, name))
  }

  /** The full paths of the listed nodes that exist, in listing order (`ls(..., long=True)`). */
  function PathsOf(nodes: map<Uuid, Node>, us: seq<Uuid>): (r: seq<string>)
    ensures |r| <= |us|
    ensures (forall u :: u in us ==> u in nodes) ==>
      |r| == |us| && forall k :: 0 <= k < |us| ==> r[k] == nodes[us[k]].path
  {
    if us == [] then []
    else if us[0] in nodes then [nodes[us[0]].path] + PathsOf(nodes, us[1..])
    else PathsOf(nodes, us[1..])
  }

  /** The listed nodes of kind `k`, in listing order (`ls(type=...)`). */
  function OfKind(nodes: map<Uuid, Node>, us: seq<Uuid>, k: Kind): (r: seq<Uuid>)
    ensures forall u :: u in r <==> u in us && u in nodes && nodes[u].kind == k
    ensures NoDups(us) ==> NoDups(r)
    decreases |us|
  {
    if us == [] then []
    else
      var rest := OfKind(nodes, us[1..], k);
      if us[0] in nodes && nodes[us[0]].kind == k then [us[0]] + rest else rest
  }

  /** `ls(sl=True, long=True)`. */
  function SelectedPaths(s: Scene): seq<string>
  {
    PathsOf(s.nodes, s.selection)
  }

  /** `ls(long=True)`. */
  function AllPaths(s: Scene): seq<string>
  {
    PathsOf(s.nodes, s.order)
  }

  /** `ls(type="transform", long=True)`. */
  function TransformPaths(s: Scene): seq<string>
  {
    PathsOf(s.nodes, OfKind(s.nodes, s.order, Transform))
  }

  /** `p` is a direct child of `t`. */
  predicate IsChildPath(t: string, p: string)
  {
    IsAncestorPath(t, p) && Lacks('|', p[|t| + 1..])
  }

  /** `listRelatives(t, shapes=True, fullPath=True)`: the shape children of `t`. */
  function ShapeChildren(s: Scene, t: string): (r: seq<string>)
    ensures forall p :: p in r ==> IsChildPath(t, p)
  {
    ShapeChildrenIn(s.nodes, s.order, t)
  }

  function ShapeChildrenIn(nodes: map<Uuid, Node>, us: seq<Uuid>, t: string): (r: seq<string>)
    ensures forall p :: p in r ==> IsChildPath(t, p)
    ensures forall p :: p in r ==> exists u :: u in us && u in nodes && nodes[u].path == p && nodes[u].kind == Shape
  {
    if us == [] then []
    else
      var rest := ShapeChildrenIn(nodes, us[1..], t);
      if us[0] in nodes && nodes[us[0]].kind == Shape && IsChildPath(t, nodes[us[0]].path) then
        [nodes[us[0]].path] + rest
      else rest
  }
}

=== FILE: text.dfy ===
/**
  Plain string rules the renamer relies on, with Python's semantics:
  `str.count` of one character, the `in` substring test, `str.find`,
  `str.replace` (all non-overlapping occurrences, left to right) and the
  short name of a DAG path (`path.split('|')[-1]`).
 */
module Text {
  import opened Opt

  /** Python's `c not in s` for a single character. */
  predicate Lacks(c: char, s: string)
  {
    forall k :: 0 <= k < |s| ==> s[k] != c
  }

  /** A concatenation lacks `c` when both parts do. */
  lemma {:induction false} LacksConcat(c: char, a: string, b: string)
    requires Lacks(c, a) && Lacks(c, b)
    ensures Lacks(c, a + b)
  {
    forall k | 0 <= k < |a + b|
      ensures (a + b)[k] != c
    {
      if k < |a| {
        assert (a + b)[k] == a[k];
      } else {
        assert (a + b)[k] == b[k - |a|];
      }
    }
  }

  /** Number of occurrences of `c` in `s`. */
  function Count(c: char, s: string): (n: nat)
    ensures n <= |s|
  {
    if s == [] then 0
    else (if s[0] == c then 1 else 0) + Count(c, s[1..])
  }

  /** `s.count(c) == 0` exactly when `c not in s`. */
  lemma {:induction false} CountZero(c: char, s: string)
    ensures Count(c, s) == 0 <==> Lacks(c, s)
  {
    if s != [] {
      CountZero(c, s[1..]);
      if Lacks(c, s) {
        assert forall k :: 0 <= k < |s[1..]| ==> s[1..][k] == s[k + 1];
      } else if s[0] != c {
        var k :| 0 <= k < |s| && s[k] == c;
        assert s[1..][k - 1] == c;
      }
    }
  }

  lemma {:induction false} CountAppend(c: char, a: string, b: string)
    ensures Count(c, a + b) == Count(c, a) + Count(c, b)
  {
    if a == [] {
      assert a + b == b;
    } else {
      assert (a + b)[1..] == a[1..] + b;
      CountAppend(c, a[1..], b);
    }
  }

  /** `[c] * n`. */
  function Repeat(c: char, n: nat): (r: string)
    ensures |r| == n
    ensures forall k :: 0 <= k < n ==> r[k] == c
  {
    if n == 0 then [] else [c] + Repeat(c, n - 1)
  }

  /** `t` occurs in `s` starting at index `i`. */
  predicate OccursAt(s: string, t: string, i: nat)
  {
    i + |t| <= |s| && s[i..i + |t|] == t
  }

  /** Python's `t in s`; the empty string occurs in every string. */
  predicate Contains(s: string, t: string)
  {
    exists i: nat :: i <= |s| && OccursAt(s, t, i)
  }

  /** `s.find(t, from)`: the first index at or after `from` where `t` occurs. */
  function FindFrom(s: string, t: string, from: nat): (r: Option<nat>)
    requires from <= |s|
    ensures r.Some? ==> from <= r.value && OccursAt(s, t, r.value)
    ensures r.Some? ==> forall j: nat :: from <= j < r.value ==> !OccursAt(s, t, j)
    ensures r.None? ==> forall j: nat :: from <= j <= |s| ==> !OccursAt(s, t, j)
    decreases |s| - from
  {
    if OccursAt(s, t, from) then Some(from)
    else if from == |s| then None
    else FindFrom(s, t, from + 1)
  }

  /** `s.find(t)`: the leftmost occurrence of `t` in `s`. */
  function Find(s: string, t: string): (r: Option<nat>)
    ensures r.Some? <==> Contains(s, t)
    ensures r.Some? ==> OccursAt(s, t, r.value)
    ensures r.Some? ==> forall j: nat :: j < r.value ==> !OccursAt(s, t, j)
  {
    FindFrom(s, t, 0)
  }

  /**
    `s.replace(old, new)`, scanning left to right: where `old` occurs at the
    scan position it is replaced and the scan resumes after it, otherwise one
    character is copied. An empty `old` matches before every character and at
    the end, as in Python (`"ab".replace("", "X") == "XaXbX"`).
   */
  function ReplaceAll(s: string, pat: string, rep: string): string
    decreases |s|
  {
    if pat == [] then
      (if s == [] then rep else rep + [s[0]] + ReplaceAll(s[1..], pat, rep))
    else if OccursAt(s, pat, 0) then
      rep + ReplaceAll(s[|pat|..], pat, rep)
    else if s == [] then []
    else [s[0]] + ReplaceAll(s[1..], pat, rep)
  }

  /**
    Reference definition of replacement through `find`: cut at the leftmost
    occurrence, emit the replacement and continue after the occurrence.
   */
  function ReplaceByFind(s: string, pat: string, rep: string): string
    requires pat != []
    decreases |s|
  {
    match Find(s, pat)
    case None => s
    case Some(i) => s[..i] + rep + ReplaceByFind(s[i + |pat|..], pat, rep)
  }

  /** Dropping the first character shifts every occurrence one place to the left. */
  lemma {:induction false} OccursAtTail(s: string, t: string, j: nat)
    requires s != []
    ensures OccursAt(s[1..], t, j) <==> OccursAt(s, t, j + 1)
  {
    if j + 1 + |t| <= |s| {
      assert s[1..][j..j + |t|] == s[j + 1..j + 1 + |t|];
    }
  }

  /** Without an occurrence at the scan position, one character is copied. */
  lemma {:induction false} ReplaceAllCopyStep(s: string, pat: string, rep: string)
    requires pat != [] && s != [] && !OccursAt(s, pat, 0)
    ensures ReplaceAll(s, pat, rep) == [s[0]] + ReplaceAll(s[1..], pat, rep)
  {
  }

  lemma {:induction false} ConsSlices(s: string, k: nat)
    requires 0 < k <= |s|
    ensures [s[0]] + s[1..][..k - 1] == s[..k]
    ensures s[1..][k - 1..] == s[k..]
  {
  }

  /** Regrouping a concatenation: `x = c + y` and `y = a + t` give `x = (c + a) + t`. */
  lemma {:induction false} Glue(c: string, a: string, t: string, x: string, y: string)
    requires x == c + y && y == a + t
    ensures x == (c + a) + t
  {
    assert c + (a + t) == (c + a) + t;
  }

  /** One copied character in front of a copied stretch of the tail is a copied stretch. */
  lemma {:induction false} ReplaceAllCopiesCons(s: string, pat: string, rep: string, k: nat)
    requires pat != [] && 0 < k <= |s| && !OccursAt(s, pat, 0)
    requires ReplaceAll(s[1..], pat, rep) == s[1..][..k - 1] + ReplaceAll(s[1..][k - 1..], pat, rep)
    ensures ReplaceAll(s, pat, rep) == s[..k] + ReplaceAll(s[k..], pat, rep)
  {
    ReplaceAllCopyStep(s, pat, rep);
    ConsSlices(s, k);
    Glue([s[0]], s[1..][..k - 1], ReplaceAll(s[k..], pat, rep), ReplaceAll(s, pat, rep), ReplaceAll(s[1..], pat, rep));
  }

  /** Copying stops only at an occurrence: a stretch without one is copied unchanged. */
  lemma {:induction false} ReplaceAllCopies(s: string, pat: string, rep: string, k: nat)
    requires pat != [] && k <= |s|
    requires forall j: nat :: j < k ==> !OccursAt(s, pat, j)
    ensures ReplaceAll(s, pat, rep) == s[..k] + ReplaceAll(s[k..], pat, rep)
  {
    if k == 0 {
      assert s[..0] == [] && s[0..] == s;
    } else {
      forall j: nat | j < k - 1
        ensures !OccursAt(s[1..], pat, j)
      {
        OccursAtTail(s, pat, j);
      }
      ReplaceAllCopies(s[1..], pat, rep, k - 1);
      assert !OccursAt(s, pat, 0);
      ReplaceAllCopiesCons(s, pat, rep, k);
    }
  }

  /** An occurrence at the scan position is replaced and the scan resumes after it. */
  lemma {:induction false} ReplaceAllAtOccurrence(s: string, pat: string, rep: string, i: nat)
    requires pat != [] && OccursAt(s, pat, i)
    ensures ReplaceAll(s[i..], pat, rep) == rep + ReplaceAll(s[i + |pat|..], pat, rep)
  {
    var rest := s[i..];
    assert rest[0..|pat|] == s[i..i + |pat|];
    assert OccursAt(rest, pat, 0);
    assert rest[|pat|..] == s[i + |pat|..];
  }

  /** At the leftmost occurrence `i`, the scan copies `s[..i]`, replaces, and resumes after it. */
  lemma {:induction false} ReplaceAllAtFirst(s: string, pat: string, rep: string, i: nat)
    requires pat != [] && OccursAt(s, pat, i)
    requires forall j: nat :: j < i ==> !OccursAt(s, pat, j)
    ensures ReplaceAll(s, pat, rep) == s[..i] + rep + ReplaceAll(s[i + |pat|..], pat, rep)
  {
    ReplaceAllCopies(s, pat, rep, i);
    ReplaceAllAtOccurrence(s, pat, rep, i);
  }

  /** `ReplaceByFind` cuts at the occurrence `Find` reports. */
  lemma {:induction false} ReplaceByFindAt(s: string, pat: string, rep: string, i: nat)
    requires pat != [] && Find(s, pat) == Some(i)
    ensures ReplaceByFind(s, pat, rep) == s[..i] + rep + ReplaceByFind(s[i + |pat|..], pat, rep)
  {
  }

  /** The scan of `ReplaceAll` agrees with the `find`-based reference on every input. */
  lemma {:induction false} ReplaceAllIsReplaceByFind(s: string, pat: string, rep: string)
    requires pat != []
    ensures ReplaceAll(s, pat, rep) == ReplaceByFind(s, pat, rep)
    decreases |s|
  {
    match Find(s, pat)
    case None =>
      ReplaceAllWithoutMatch(s, pat, rep);
    case Some(i) =>
      ReplaceAllAtFirst(s, pat, rep, i);
      ReplaceByFindAt(s, pat, rep, i);
      ReplaceAllIsReplaceByFind(s[i + |pat|..], pat, rep);
  }

  /** With no occurrence of a non-empty `old`, replacement changes nothing. */
  lemma {:induction false} ReplaceAllWithoutMatch(s: string, pat: string, rep: string)
    requires pat != [] && !Contains(s, pat)
    ensures ReplaceAll(s, pat, rep) == s
  {
    assert forall j: nat :: j < |s| ==> !OccursAt(s, pat, j);
    ReplaceAllCopies(s, pat, rep, |s|);
    assert s[..|s|] == s;
    assert s[|s|..] == [];
  }

  /** The strings of `parts` joined end to end. */
  function Concat(parts: seq<string>): string
  {
    if parts == [] then [] else parts[0] + Concat(parts[1..])
  }

  /** `rep` put before every character of `s` and once more at the end. */
  function Interleave(s: string, rep: string): string
  {
    Concat(seq(|s|, k requires 0 <= k < |s| => rep + [s[k]])) + rep
  }

  /**
    Replacing the empty string inserts the replacement before every
    character and at the end, `|s| + 1` times in all.
   */
  lemma {:induction false} ReplaceAllEmpty(s: string, rep: string)
    ensures ReplaceAll(s, [], rep) == Interleave(s, rep)
    ensures |ReplaceAll(s, [], rep)| == |s| + (|s| + 1) * |rep|
    decreases |s|
  {
    if s != [] {
      ReplaceAllEmpty(s[1..], rep);
      var parts := seq(|s|, k requires 0 <= k < |s| => rep + [s[k]]);
      var rest := seq(|s[1..]|, k requires 0 <= k < |s[1..]| => rep + [s[1..][k]]);
      assert parts[1..] == rest;
      assert Concat(parts) == rep + [s[0]] + Concat(rest);
      assert (|s| + 1) * |rep| == |rep| + |s| * |rep|;
    }
  }

  /** Index of the last `|` in `p`, or -1 when there is none. */
  function LastBar(p: string): (i: int)
    ensures -1 <= i < |p|
  {
    if p == [] then -1
    else if p[|p| - 1] == '|' then |p| - 1
    else LastBar(p[..|p| - 1])
  }

  /** `LastBar` finds a `|` with none after it, or reports that there is none. */
  lemma {:induction false} LastBarSpec(p: string)
    ensures LastBar(p) >= 0 ==> p[LastBar(p)] == '|'
    ensures forall k :: LastBar(p) < k < |p| ==> p[k] != '|'
    decreases |p|
  {
    if p != [] && p[|p| - 1] != '|' {
      var q := p[..|p| - 1];
      LastBarSpec(q);
      forall k | LastBar(p) < k < |q|
        ensures p[k] != '|'
      {
        assert p[k] == q[k];
      }
    }
  }

  /** Those two facts pin the result of `LastBar` down. */
  lemma {:induction false} LastBarIs(p: string, i: int)
    requires -1 <= i < |p|
    requires i >= 0 ==> p[i] == '|'
    requires forall k :: i < k < |p| ==> p[k] != '|'
    ensures LastBar(p) == i
  {
    LastBarSpec(p);
  }

  /**
    `path.split('|')[-1]`: the longest suffix of `p` without a `|`, which
    is all of `p` when `p` has no `|` and otherwise starts right after the
    last `|`.
   */
  function ShortName(p: string): string
  {
    p[LastBar(p) + 1..]
  }

  /** The short name is a `|`-free suffix of the path, preceded by `|` unless it is all of it. */
  lemma {:induction false} ShortNameSpec(p: string)
    ensures var r := ShortName(p);
      && Lacks('|', r)
      && |r| <= |p| && r == p[|p| - |r|..]
      && (|r| < |p| ==> p[|p| - |r| - 1] == '|')
  {
    var i := LastBar(p);
    var r := p[i + 1..];
    assert ShortName(p) == r;
    LastBarSpec(p);
    forall k | 0 <= k < |r|
      ensures r[k] != '|'
    {
      assert r[k] == p[i + 1 + k];
    }
    assert |p| - |r| == i + 1;
  }

  /** `p` without its short name: everything up to and including the last `|`. */
  function Dir(p: string): string
  {
    p[..LastBar(p) + 1]
  }

  /** The directory and the short name make up the path, and the directory ends in `|` unless empty. */
  lemma {:induction false} DirSpec(p: string)
    ensures Dir(p) + ShortName(p) == p
    ensures Dir(p) == [] || Dir(p)[|Dir(p)| - 1] == '|'
  {
    var i := LastBar(p);
    assert Dir(p) == p[..i + 1] && ShortName(p) == p[i + 1..];
    assert p[..i + 1] + p[i + 1..] == p;
    LastBarSpec(p);
    if i >= 0 {
      assert p[..i + 1][i] == p[i];
    }
  }

  /** Whatever precedes a `|`-led tail does not change the short name. */
  lemma {:induction false} ShortNameAfterBar(x: string, y: string)
    requires y != [] && y[0] == '|'
    ensures ShortName(x + y) == ShortName(y)
  {
    var xy := x + y;
    var j := LastBar(y);
    LastBarSpec(y);
    forall k | |x| + j < k < |xy|
      ensures xy[k] != '|'
    {
      assert xy[k] == y[k - |x|];
    }
    LastBarIs(xy, |x| + j);
    assert xy[|x| + j + 1..] == y[j + 1..];
  }

  /** A name without `|` placed in a directory is that directory entry's short name. */
  lemma {:induction false} ShortNameInDir(d: string, n: string)
    requires d == [] || d[|d| - 1] == '|'
    requires Lacks('|', n)
    ensures ShortName(d + n) == n
  {
    var dn := d + n;
    forall k | |d| - 1 < k < |dn|
      ensures dn[k] != '|'
    {
      assert dn[k] == n[k - |d|];
    }
    LastBarIs(dn, |d| - 1);
    assert dn[|d|..] == n;
  }

  /** `a` is a proper ancestor of `b` in the DAG: `b` starts with `a` followed by `|`. */
  predicate IsAncestorPath(a: string, b: string)
  {
    |a| < |b| && b[..|a|] == a && b[|a|] == '|'
  }

  /** An ancestor's path has strictly fewer `|` than its descendant's. */
  lemma {:induction false} AncestorHasFewerBars(a: string, b: string)
    requires IsAncestorPath(a, b)
    ensures Count('|', a) < Count('|', b)
  {
    assert b == a + b[|a|..];
    CountAppend('|', a, b[|a|..]);
    CountZero('|', b[|a|..]);
    assert !Lacks('|', b[|a|..]) by {
      assert b[|a|..][0] == '|';
    }
  }

  /** A descendant keeps its short name when its ancestor's path is replaced. */
  lemma {:induction false} ShortNameUnderNewAncestor(a: string, b: string, a': string)
    requires IsAncestorPath(a, b)
    ensures ShortName(a' + b[|a|..]) == ShortName(b)
  {
    var rest := b[|a|..];
    assert rest[0] == '|';
    assert b == a + rest;
    ShortNameAfterBar(a', rest);
    ShortNameAfterBar(a, rest);
    assert ShortName(rest) == ShortName([] + rest) by {
      assert [] + rest == rest;
    }
  }

  /** The length of the longest prefix of `t` without `|`. */
  function FirstBar(t: string): (n: nat)
    ensures n <= |t|
  {
    if t == [] || t[0] == '|' then 0 else 1 + FirstBar(t[1..])
  }

  /** A `|`-free head followed by nothing or by a `|`: the first `|` ends the head. */
  lemma {:induction false} FirstBarAfter(n: string, x: string)
    requires Lacks('|', n) && (x == [] || x[0] == '|')
    ensures FirstBar(n + x) == |n|
    decreases |n|
  {
    if n == [] {
      assert n + x == x;
    } else {
      assert (n + x)[0] == n[0] && (n + x)[1..] == n[1..] + x;
      assert Lacks('|', n[1..]) by {
        forall k | 0 <= k < |n[1..]|
          ensures n[1..][k] != '|'
        {
          assert n[1..][k] == n[k + 1];
        }
      }
      FirstBarAfter(n[1..], x);
    }
  }

  /** Two different `|`-free heads stay apart whatever `|`-led tails follow them. */
  lemma {:induction false} DifferentHeads(n1: string, x: string, n2: string, y: string)
    requires Lacks('|', n1) && Lacks('|', n2) && n1 != n2
    requires x == [] || x[0] == '|'
    requires y == [] || y[0] == '|'
    ensures n1 + x != n2 + y
  {
    FirstBarAfter(n1, x);
    FirstBarAfter(n2, y);
    if |n1| == |n2| {
      assert (n1 + x)[..|n1|] == n1 && (n2 + y)[..|n2|] == n2;
    }
  }

  /** Different tails after the same prefix make different strings. */
  lemma {:induction false} DifferentTails(d: string, a: string, b: string)
    requires a != b
    ensures d + a != d + b
  {
    assert (d + a)[|d|..] == a && (d + b)[|d|..] == b;
  }
}
